=== FILE: README.md ===
# cloudbandPy detection and tracking, modelled in Dafny

cloudbandPy finds cloud bands in daily outgoing-longwave-radiation (OLR) fields and links
them from day to day. This project models the discrete core of that pipeline and proves
what it does.

- **Blob detector (`blob_detection`).** It chooses the threshold, sets missing values
  to 0, binarises the field, fills holes, dilates and labels. On a full-longitude domain it
  merges labels across the east/west seam (`connectLongitudes`, `reNumberLabels`). It then
  keeps the blobs whose area (`compute_blob_area`) reaches the area threshold.
- **Candidate records (`candidates2class`, `get_cloudband_latlon`).** These are built
  from the kept labels. The acceptance rule (`filter_blobs2cloudbands`) turns some of them
  into cloud bands. The date loop (`detection_workflow`) writes each day's bands into a
  numbered map.
- **`CloudBand` record.** It has an id derived from the date and the rounded centroid
  column, and dictionary and file forms (`todict`, `fromdict`, `tofile`, `fromfile`).
- **Tracking.** This covers the overlap test (`is_in`), the two-way parent linking
  between consecutive days (`tracking`), the lookup by id (`findCloud`) and the pixel
  density (`compute_density`).
- **Longitude and latitude helpers.** `wrapTo360`, `wrapTo180`, `is_decreasing`,
  `convert_olr_in_wm2` and their older copies.
- **Cropping and time windows.** `get_variable_lonlat_from_domain` with its half
  rotation across 0 degrees, the latitude normalisation of the loader,
  `get_ids_start_end4timecrop`, the windows of `make_daily_average`, and the
  `dump_list`/`load_list` nesting. Both the packaged and the older copy of these are
  modelled.

Representation:

- Rasters are `seq<seq<int>>` (labels, 0/1 masks), `seq<seq<bool>>` or `seq<seq<real>>`.
  Row index means latitude and column index means longitude.
- Areas, angles and coordinates are `real`. A NaN entry of a coordinate map is `None`.
- Errors that Python raises become `Failure` values: `IndexError`, `KeyError`,
  `TypeError`, `ValueError`.
- Library routines are fields of `Detection.ImageLibrary`: Yen and Otsu thresholds, hole
  filling, dilation, `measure.label` and the `regionprops` orientation. `ValidLibrary`
  states what the pipeline relies on: filling and dilating only add pixels, and labelling
  puts 0 exactly on the background with labels within `uint8`.
- CPython's iteration order over the set of a map's labels follows its hash table, not
  the label values, so it is a parameter: any function that lists each non-zero label of
  a map exactly once (`Workflow.ValidLabelOrder`). The candidates and the band numbers
  follow that order.
- The first region of `regionprops` and its centroid are computed in `Regions`. Python's
  `round` is `Misc.RoundHalfEven`.
- Dates are integer hours. `compute_density` receives `Tracking.Date` values for the
  year, month and day.

Behaviour of the code worth knowing, all of it modelled:

- `compute_density` leaves the density at zero unless the first date is 1 January and
  the last is 31 December (src/cloudbandpy/tracking.py:226-253).
- `compute_density` raises `IndexError` when every day holds no band, and `TypeError`
  when there are no days, both at the `reduce(...)[0]` of tracking.py:236.
- A record's id joins the date number with the rounded column coordinate of the mask's
  pixel centroid, a pixel index and not a longitude (src/cloudbandpy/cloudband.py:30-38).
- `detection_workflow` raises `IndexError` when there are more dates than fields, at the
  first index past the fields (src/cloudbandpy/cb_detection.py:220-248).
- `connectLongitudes` merges only along rows, although its docstring says it also merges
  vertically (src/cloudbandpy/cb_detection.py:294-305).
- `candidates2class` calls the record constructor with keywords it does not declare; see
  "## Findings".

## Model

| member | source | states |
|---|---|---|
| Detection.ParseMethod | src/cloudbandpy/cb_detection.py:35-42 | the method is Yen or Otsu exactly when the lower-cased setting is "yen" or "otsu", and the fixed threshold for every other string |
| Detection.Threshold | src/cloudbandpy/cb_detection.py:35-42 | the threshold is Yen's or Otsu's value of the field as it arrives, before clamping, or the configured OLR threshold otherwise |
| Detection.Clamp | src/cloudbandpy/cb_detection.py:43-46 | same shape; negative values become 0, non-negative values are unchanged, and no value is negative afterwards |
| Detection.ClampIdempotent | src/cloudbandpy/cb_detection.py:44-46 | a field without missing values is left as it is, and clamping twice equals clamping once |
| Detection.Binarise | src/cloudbandpy/cb_detection.py:48 | a pixel is set exactly when its value is strictly below the threshold |
| Detection.CloudPixels | src/cloudbandpy/cb_detection.py:43-48 | a pixel is cloud exactly when its value, with negatives read as 0, is strictly below the threshold |
| Detection.Blobs | src/cloudbandpy/cb_detection.py:52-68 | the label map has the dilated mask's shape, is 0 exactly on the dilated background, fits `uint8`, and is the seam-merged labelling exactly when merging is on |
| Detection.BlobDetection | src/cloudbandpy/cb_detection.py:18-87 | the threshold is taken from the unclamped field; the filled mask is the library's hole filling of the binarised one and the dilation is the library's dilation of the filled one (cb_detection.py:48-50), so binarised ⊆ filled ⊆ dilated; the blob map is that of `Blobs`; the candidates are the area-filtered blob map, of the field's shape and within `uint8` |
| Area.ComputeBlobArea | src/cloudbandpy/cb_detection.py:251-260 | the area of a label is non-negative for non-negative cell areas, 0 for an absent label, and positive for a present one when every cell area is positive |
| Area.AreaUnion | src/cloudbandpy/cb_detection.py:251-260 | area is additive over disjoint label sets |
| Area.BlobAreaAdditive | src/cloudbandpy/cb_detection.py:251-260 | the area of two distinct labels taken together is the sum of their two blob areas |
| Area.AreaMono | src/cloudbandpy/cb_detection.py:251-260 | selecting a subset of the pixels never gives a larger area |
| Area.AreaCongruent | src/cloudbandpy/cb_detection.py:251-260 | two rasters that select the same pixels have the same area, whatever the label values |
| AreaFilter.BlobSizes | src/cloudbandpy/cb_detection.py:72-74 | one `[label, area]` entry per label 1..max, in ascending order, each with that label's blob area |
| AreaFilter.SortDesc | src/cloudbandpy/cb_detection.py:75 | a permutation of the entries with areas descending; for ascending labels, equal areas keep the smaller label first, as Python's stable sort does |
| AreaFilter.InsertDescOrdered | src/cloudbandpy/cb_detection.py:75 | one insertion keeps a descending list descending, and keeps the stable tie order when the inserted label is the largest |
| AreaFilter.KeptLabels | src/cloudbandpy/cb_detection.py:79-81 | a label is kept exactly when some sorted entry carries it with area at least the threshold |
| AreaFilter.Paint | src/cloudbandpy/cb_detection.py:83-85 | a pixel whose blob label is in the list takes that label; every other pixel keeps its previous value |
| AreaFilter.KeptExactly | src/cloudbandpy/cb_detection.py:72-85 | a pixel's label is among the kept labels exactly when it is non-zero and its blob area reaches the threshold |
| AreaFilter.LabelledCandidates | src/cloudbandpy/cb_detection.py:72-85 | a candidate pixel holds its blob label exactly when that blob's area reaches the threshold, and 0 otherwise, so the sort has no effect on the map |
| Labels.UsedUpTo | src/cloudbandpy/cb_detection.py:284-287 | the labels of 1..n that occur, strictly ascending, containing every occurring one |
| Labels.NewLabelOrder | src/cloudbandpy/cb_detection.py:277-290 | renumbering is strictly increasing on the labels present, so it is injective |
| Labels.Renumbered | src/cloudbandpy/cb_detection.py:277-290 | reference definition of the renumbering: same shape, 0 stays 0 and only 0 becomes 0, and no label grows |
| Labels.RenumberedGapFree | src/cloudbandpy/cb_detection.py:277-290 | the renumbered map uses exactly the labels 1..k, k being the number of labels present, so it has no gap |
| Labels.RenumberedKeepsOrder | src/cloudbandpy/cb_detection.py:277-290 | two pixels compare after renumbering exactly as before: equal labels stay equal and different ones stay different |
| Labels.UsedPairs | src/cloudbandpy/cb_detection.py:282-287 | the first loop collects one (old, new) pair per used label, in ascending order, the k-th getting k + 1 |
| Labels.ReplaceStep | src/cloudbandpy/cb_detection.py:288-289 | after the first t in-place replacements, the labels of rank up to t carry their rank and all others are untouched, so no replacement collides with an earlier one |
| Labels.ReNumberLabels | src/cloudbandpy/cb_detection.py:277-290 | the two loops as written compute the reference renumbering, and the result is gap-free |
| Labels.MergeRows | src/cloudbandpy/cb_detection.py:298-305 | the merge loop relabels value by value; every replacement maps the larger of the two end labels of a seam row of the input, as that row stands at that moment, to the smaller; afterwards each scanned row with labelled ends has one label on both ends |
| Labels.MergeRowsNoSeam | src/cloudbandpy/cb_detection.py:300-305 | a map in which no row has two different labels on its ends is left unchanged by the merge loop |
| Labels.ConnectLongitudes | src/cloudbandpy/cb_detection.py:293-306 | background stays background, no label grows, every row whose first and last pixels are labelled ends with one label, the result is gap-free, a map without a seam row is only renumbered, a label at neither end of any seam row shares its new label with no pixel of another label, and two pixels end with one label exactly when a sequence of replacements, each taking the larger to the smaller of the two end labels of a seam row as they then stand, sends their labels to the same value |
| Labels.MergedGrouping | src/cloudbandpy/cb_detection.py:299-306 | the labels the row loop and renumbering leave equal are exactly those its seam-drawn replacements make equal |
| Labels.TwoSeamsStayApart | src/cloudbandpy/cb_detection.py:299-306 | on `[[1,0,2],[3,0,4]]` row 0 ends with one label, row 1 with one label, and the two rows' labels differ, as the loop gives `[[1,0,1],[2,0,2]]` |
| Labels.TwoSeamsForced | src/cloudbandpy/cb_detection.py:299-306 | any map meeting the seam and grouping clauses on `[[1,0,2],[3,0,4]]` keeps the two rows' labels apart |
| Labels.OffSeamStaysApart | src/cloudbandpy/cb_detection.py:300-306 | a label at neither end of any seam row is never replaced and never produced by a replacement, so after renumbering it stays apart from every other label |
| Labels.ConnectLongitudesOnlyMerges | src/cloudbandpy/cb_detection.py:293-306 | pixels that share a label before share one after: the operation only merges |
| Regions.FirstRegion | src/cloudbandpy/cloudband.py:30 | the first region `regionprops` lists is the smallest positive label present; there is none exactly when no pixel is positive |
| Regions.Centroid | src/cloudbandpy/cb_detection.py:108-112 | the `regionprops` centroid of the pixels carrying a label: non-negative, and each coordinate times the pixel count is the sum of the pixels' row (column) indices, i.e. their mean; `Regions.CentroidInside` places it inside the grid |
| Regions.CentroidInside | src/cloudbandpy/cloudband.py:30-32 | the centroid (mean row, mean column) of a region lies inside the grid |
| Candidates.LabelMask | src/cloudbandpy/cb_detection.py:97-98 | a 0/1 mask of the labels' shape that is 1 exactly on the pixels of the label |
| Candidates.LatLonMaps | src/cloudbandpy/cb_detection.py:263-274 | each band pixel carries its column's longitude and its row's latitude; every other pixel is NaN |
| Candidates.MinDefined | src/cloudbandpy/cb_detection.py:105 | `nanmin`: the least defined value, attained somewhere, and absent exactly when every value is NaN |
| Candidates.MaxDefined | src/cloudbandpy/cb_detection.py:105 | `nanmax`: the greatest defined value, attained somewhere, and absent exactly when every value is NaN |
| Candidates.MaskRegion | src/cloudbandpy/cb_detection.py:108 | the mask of a present label has exactly one region, labelled 1, which is the one `regionprops(...)[0]` reads |
| Candidates.CrossesEdge | src/cloudbandpy/cb_detection.py:104-106 | a flagged band has a pixel whose longitude wraps to 0 and one whose longitude wraps beyond 250; `Candidates.Candidate` sets `connected_longitudes` exactly when the test holds |
| Candidates.Candidate | src/cloudbandpy/cb_detection.py:96-130 | the record of one label has that label's 0/1 mask, its blob area, its coordinate maps, the edge flag exactly when its least longitude wraps to 0 and its greatest wraps beyond 250, no parents, not yet a cloud band, centroid coordinates `lats[int(row)]` and `lons[int(column)]` of the mask's centroid, and the id and angle the constructor derives |
| Candidates.Candidates2Class | src/cloudbandpy/cb_detection.py:90-131 | one record per distinct non-zero label, in enumeration order |
| Candidates.CandidateAsWritten | src/cloudbandpy/cb_detection.py:118-129 | the constructor call as written always fails with `TypeError`, because `angle`, `lon_centroid` and `lat_centroid` are not parameters of `CloudBand.__init__` |
| Candidates.Candidates2ClassAsWritten | src/cloudbandpy/cb_detection.py:90-131 | as written, the function fails with `TypeError` exactly when the map has a label, and returns the empty list otherwise |
| Candidates.OneLabelRejected | src/cloudbandpy/cb_detection.py:118-129 | on a one-pixel map with label 1 the code as written fails, while the intended version yields one record with both centroids |
| Candidates.CandidatesDisjoint | src/cloudbandpy/cb_detection.py:96-98 | the candidate masks are 0/1, of the grid's shape, and pairwise disjoint |
| Candidates.AxisOffset | src/cloudbandpy/cb_detection.py:154-158 | the offset is −90 exactly when the centroid latitude is negative and +90 otherwise, latitude 0 counting as north |
| Candidates.Accepts | src/cloudbandpy/cb_detection.py:149-168 | an accepted band has a pixel at or below the bottom latitude and one at or above the top latitude; a band not crossing the edge also has `angle + offset` strictly between the angle bounds; a band crossing the edge is accepted exactly on the latitude rule; `Candidates.FilterBlobs2Cloudbands` keeps exactly the accepted bands |
| Candidates.FilterBlobs2Cloudbands | src/cloudbandpy/cb_detection.py:134-174 | a record is in the result exactly when it is an accepted candidate marked as a cloud band, under the strict angle bounds (skipped for edge-crossing bands) and the inclusive latitude bounds; the result is no longer than the input |
| Candidates.FilterConcat | src/cloudbandpy/cb_detection.py:148-174 | filtering distributes over concatenation, so the kept records keep their original order |
| Candidates.FilterKeeps | src/cloudbandpy/cb_detection.py:170-172 | the kept bands inherit the shape, the 0/1 values and the pairwise disjointness of the candidates' masks |
| CloudBands.IdFor | src/cloudbandpy/cloudband.py:30-38 | the id pairs the date with the rounded centroid column of the first region, which lies within the grid's columns; there is no id when the mask has no positive pixel |
| CloudBands.New | src/cloudbandpy/cloudband.py:15-45 | the constructor stores every argument, computes the angle and the id from the mask, and fails exactly when the mask has no positive pixel |
| CloudBands.NewWithDefaults | src/cloudbandpy/cloudband.py:22-24 | by default a record is a cloud band, not edge-connected, with an empty parent set |
| CloudBands.IdFromMaskAndDate | src/cloudbandpy/cloudband.py:30-38 | two constructed records with equal masks and dates have equal ids and angles |
| CloudBands.ToDict | src/cloudbandpy/cloudband.py:109-124 | exactly the eight keys, each holding the field of the same name |
| CloudBands.ToFile | src/cloudbandpy/cloudband.py:87-107 | the pickled dictionary has exactly the eight keys, is well typed, and holds each field under its own name; `CloudBands.FileRoundTrip` is its inverse |
| CloudBands.FirstMissing | src/cloudbandpy/cloudband.py:76-85 | the first key, in reading order, that the dictionary lacks, and none exactly when all are present |
| CloudBands.Rebuild | src/cloudbandpy/cloudband.py:57-66 | a missing key fails with `KeyError` for the first one read in order; with every key present and well typed it succeeds exactly when the mask has a positive pixel, failing with `IndexError` otherwise; a success stores the mask, area, coordinate maps, date number and parents read, hands the two flags to the constructor slots in the order given, and recomputes id and angle |
| CloudBands.FromDict | src/cloudbandpy/cloudband.py:68-85 | `KeyError` for the first key missing in the order `from_dict` reads them; success exactly when every key is present, well typed and the mask has a positive pixel; a success stores every value read, except that the value under `connected_longitudes` lands in `iscloudband` and the other way round |
| CloudBands.DictRoundTrip | src/cloudbandpy/cloudband.py:68-124 | `fromdict(todict(c))` keeps the mask, area, coordinate maps, date and parents, and so the id and angle, and exchanges the two flags |
| CloudBands.DictFlagsSurvive | src/cloudbandpy/cloudband.py:76-85 | both flags come back from the dictionary unchanged exactly when they are equal |
| CloudBands.FromFile | src/cloudbandpy/cloudband.py:47-66 | `KeyError` for the first key missing in the order `from_file` reads them; success exactly when every key is present, well typed and the mask has a positive pixel; a success stores every value read, with the flags in the constructor's own order |
| CloudBands.FileRoundTrip | src/cloudbandpy/cloudband.py:47-107 | `fromfile(tofile(c))` gives back every stored field of a constructed record |
| Workflow.ConnectFlag | src/cloudbandpy/cb_detection.py:213-216 | the seam merge is on exactly when east and west lie 360 degrees apart, in either order |
| Workflow.LabelOrder | src/cloudbandpy/cb_detection.py:96 | the ascending enumeration: every non-zero label present, once each, at most 255 of them |
| Workflow.AscendingIsValid | src/cloudbandpy/cb_detection.py:96 | the requirement on the set order can be met: the ascending order meets it |
| Workflow.EnumerationBounded | src/cloudbandpy/cb_detection.py:96 | every enumeration of a `uint8` map's labels has as many entries as the ascending one, so at most 255 |
| Workflow.MarkAccepted | src/cloudbandpy/cb_detection.py:170-172 | the candidate list shows the accepted records as cloud bands, because the filter mutates those objects, and leaves the rejected ones untouched |
| Workflow.Classify | src/cloudbandpy/cb_detection.py:227-240 | one candidate per label in the given set order, and the bands kept from them in that order: at most 255, with disjoint 0/1 masks of the map's shape |
| Workflow.AddPixel | src/cloudbandpy/cb_detection.py:245 | a `uint8` pixel of `acc += mask * w` stays in 0..255; adding 0 keeps a byte, and adding weight w to 0 gives w |
| Workflow.BandsMap | src/cloudbandpy/cb_detection.py:242-245 | the day's band map has the grid's shape and stays within `uint8`; `Workflow.BandsMapIsOwner` equates it with the independent `Workflow.Owner` |
| Workflow.Owner | src/cloudbandpy/cb_detection.py:242-245 | reference definition: the number (from 1) of the last band covering the pixel, and 0 exactly when no band covers it |
| Workflow.BandsMapIsOwner | src/cloudbandpy/cb_detection.py:242-245 | with disjoint 0/1 masks and at most 255 bands, each pixel of the accumulated map equals its owner |
| Workflow.BandsMapNumbers | src/cloudbandpy/cb_detection.py:242-245 | a pixel of the day's map holds k + 1 exactly when band k covers it, and 0 exactly when no band does |
| Workflow.DetectDay | src/cloudbandpy/cb_detection.py:220-245 | one loop iteration: the detection stages, the candidates in the set order of the candidate map's labels (accepted ones marked), the kept bands, and the map numbering them in that order |
| Workflow.DetectionWorkflow | src/cloudbandpy/cb_detection.py:177-248 | the five arrays have one slice per field and the two lists one entry per date; slice d and entry d are those of date d's detection, all with the same seam setting; slices of fields past the last date stay zero; `IndexError` exactly when there are more dates than fields |
| Tracking.Overlap | src/cloudbandpy/tracking.py:71-72 | the overlap area is non-negative for non-negative cell areas |
| Tracking.OverlapIsSharedArea | src/cloudbandpy/tracking.py:69-72 | for 0/1 masks the overlap is the area of the pixels set in both masks |
| Tracking.OverlapSymmetric | src/cloudbandpy/tracking.py:71-72 | the overlap is the same in both directions |
| Tracking.OverlapBounded | src/cloudbandpy/tracking.py:69-83 | the overlap never exceeds the area of either mask |
| Tracking.IsIn | src/cloudbandpy/tracking.py:69-83 | with a non-negative factor and area, a 0/1 mask is only in another when the two share a pixel; `Tracking.ParentRuleMin` states the two-way rule as an if-and-only-if |
| Tracking.ParentRuleMin | src/cloudbandpy/tracking.py:59-62 | for a non-negative factor the two-way `is_in` test holds exactly when the overlap exceeds the factor times the smaller of the two areas |
| Tracking.ParentsOfMembers | src/cloudbandpy/tracking.py:56-62 | an id is a parent exactly when some band of the previous day with that id is linked to the band |
| Tracking.Tracking | src/cloudbandpy/tracking.py:39-66 | the days keep their number, lengths and order; only the parent sets change, each recomputed from the day before |
| Tracking.ParentsFromPreviousDay | src/cloudbandpy/tracking.py:55-63 | a band of day 0, or after an empty day, has no parents; otherwise each parent id names a linked band of the day immediately before |
| Tracking.TrackingIdempotent | src/cloudbandpy/tracking.py:39-66 | tracking an already tracked list changes nothing |
| Tracking.FindCloud | src/cloudbandpy/tracking.py:30-36 | the first band in (day, position) order with the id, and none exactly when no band has it |
| Tracking.FirstBand | src/cloudbandpy/tracking.py:237 | the first band of the first non-empty day, and none exactly when every day is empty |
| Tracking.PixelTotalCounts | src/cloudbandpy/tracking.py:242-244 | with 0/1 masks the total at a pixel is at most the number of bands, and positive exactly when some band covers the pixel |
| Tracking.Totals | src/cloudbandpy/tracking.py:240-244 | each pixel of `ntot_cb` is the sum of the masks over the first `len(dates)` days |
| Tracking.PerYear | src/cloudbandpy/tracking.py:248 | the density times the number of years equals the total |
| Tracking.ComputeDensity | src/cloudbandpy/tracking.py:226-253 | the totals over the first `len(dates)` days on the first band's grid; the density is totals per distinct year exactly for a 1 January to 31 December period and zero otherwise; failure exactly when there are no days, all days are empty, or there are no dates or more dates than days |
| Misc.WrapTo360 | src/cloudbandpy/misc.py:32-45 | negatives get 360 added, all other values are kept, and [−360, 360) maps into [0, 360) |
| Misc.WrapTo180 | src/cloudbandpy/misc.py:48-61 | values above 180 get 360 subtracted, all other values are kept, and (−180, 540] maps into (−180, 180] |
| Misc.WrapTo360Array | src/cloudbandpy/misc.py:39-45 | the array branches agree elementwise with the scalar wrap |
| Misc.WrapTo180Array | src/cloudbandpy/misc.py:55-61 | the array branches agree elementwise with the scalar wrap |
| Misc.WrapRoundTrip360 | src/cloudbandpy/misc.py:32-61 | wrapping to 180 and back to 360 is the identity on [0, 360) |
| Misc.WrapRoundTrip180 | src/cloudbandpy/misc.py:32-61 | wrapping to 360 and back to 180 is the identity on (−180, 180] |
| Misc.WrapIdempotent | src/cloudbandpy/misc.py:39-61 | `wrapTo360` is idempotent from −360 up, and `wrapTo180` up to 540 |
| Misc.ConvertOlrInWm2 | src/cloudbandpy/misc.py:64-66 | the result is −x/3600, non-negative exactly for non-positive input |
| Misc.DecreasingEquiv | src/cloudbandpy/misc.py:69-73 | the neighbour test is equivalent to every later element being below every earlier one |
| Misc.IsDecreasing | src/cloudbandpy/misc.py:69-73 | the early-exit scan answers true exactly for strictly decreasing input, and true for length ≤ 1 |
| Misc.RoundHalfEven | src/cloudbandpy/cloudband.py:38 | the result is within 0.5 of x, and even on a tie |
| Misc.RoundHalfEvenUnique | src/cloudbandpy/cloudband.py:38 | it is the only integer with those two properties |
| Utilities.WrapTo360 | src/utilities.py:22-35 | the older copy adds 360 to negatives only, mapping [−360, 360) into [0, 360) |
| Utilities.WrapTo180 | src/utilities.py:38-51 | the older copy subtracts 360 above 180 only, mapping (−180, 540] into (−180, 180] |
| Utilities.ConvertOlrInWm2 | src/utilities.py:54-56 | the result is −x/3600 |
| Utilities.WrapRoundTrip | src/utilities.py:22-51 | the older wraps are mutual inverses on [0, 360) and (−180, 180] |
| Utilities.AgreesWithPackaged | src/utilities.py:22-56 | the older helpers compute the same values as the packaged ones |
| IoUtilities.IndicesWithin | src/cloudbandpy/io_utilities.py:184 | the indices of exactly the values within [lo, hi], strictly ascending |
| IoUtilities.SubsetLongitudes | src/cloudbandpy/io_utilities.py:183-185 | the ascending indices of exactly the longitudes within [west, east], with the matching values |
| IoUtilities.SubsetLatitudes | src/cloudbandpy/io_utilities.py:188-190 | the ascending indices of exactly the latitudes within [south, north], with the matching values |
| IoUtilities.Rotate | src/cloudbandpy/io_utilities.py:163-165 | element k of the rotated sequence is element (k + h) mod n of the input |
| IoUtilities.RotateIndex | src/cloudbandpy/io_utilities.py:163-165 | concatenating the two halves is that rotation |
| IoUtilities.Wrapped | src/cloudbandpy/io_utilities.py:162-165 | `lons180[k]` is the wrapped input longitude at (k + n/2) mod n |
| IoUtilities.RotateColumns | src/cloudbandpy/io_utilities.py:166 | the variable's columns are rotated by the same half turn |
| IoUtilities.PySlice | src/cloudbandpy/io_utilities.py:169 | Python's `s[a:b]` within bounds: b − a elements from a, or empty when a > b |
| IoUtilities.FirstIndexOf | src/cloudbandpy/io_utilities.py:167-168 | the first index holding the value, and none exactly when no index does |
| IoUtilities.ColumnsAcrossZero | src/cloudbandpy/io_utilities.py:158-172 | column x of the slice is input column (iw + x + n/2) mod n, reported with its wrapped longitude |
| IoUtilities.GetVariableLonlatFromDomain | src/cloudbandpy/io_utilities.py:144-180 | fails exactly when the domain crosses 0 and a wrapped bound is not on the grid; across 0 the longitudes are the half-rotated slice excluding the eastern bound, otherwise those within [west, east]; the latitudes are those within [south, north]; the variable's extents match the coordinates |
| IoUtilities.CropKeepsCoordinates | src/cloudbandpy/io_utilities.py:158-180 | every cropped value is the input value at the latitude and longitude the crop reports for it |
| IoUtilities.NormaliseLatitudes | src/cloudbandpy/io_utilities.py:78-81 | latitudes that are not strictly decreasing are reversed together with the variable's latitude axis; strictly decreasing ones are kept |
| IoUtilities.NormalisedPairing | src/cloudbandpy/io_utilities.py:78-81 | every row keeps its latitude, and strictly increasing latitudes become strictly decreasing |
| IoUtilities.GetIdsStartEnd4Timecrop | src/cloudbandpy/io_utilities.py:193-209 | the start is the first time equal to `itime` (failing when there is none); the end is the first time equal to `itime` plus the period, or the number of times when absent |
| IoUtilities.WindowCoversPeriod | src/cloudbandpy/io_utilities.py:193-209 | on increasing times with both ends present, the window holds exactly the times of [itime, itime + period) |
| IoUtilities.Slice | src/cloudbandpy/io_utilities.py:225 | Python's `s[a:b]` with clipping: the elements from a up to b that exist |
| IoUtilities.Windows | src/cloudbandpy/io_utilities.py:221-226 | the loop: one window per date, in order, each the time steps [start, end) of its date; `IndexError` exactly when some date is missing from the times |
| IoUtilities.DailyWindows | src/cloudbandpy/io_utilities.py:212-230 | the windows of the loop, then the stack: `ValueError` exactly when there are no dates, `IndexError` exactly when some date is missing |
| IoUtilities.DumpList | src/cloudbandpy/io_utilities.py:396-406 | the nesting is kept and each band is replaced by its dictionary |
| IoUtilities.MapAll | src/cloudbandpy/io_utilities.py:418 | a comprehension over fallible calls: the first failure ends it with that error, otherwise one result per element in order |
| IoUtilities.LoadDay | src/cloudbandpy/io_utilities.py:418 | a day loads exactly when each of its dictionaries does, element by element |
| IoUtilities.LoadList | src/cloudbandpy/io_utilities.py:409-422 | the nesting is kept, and loading fails exactly when some day fails |
| IoUtilities.DumpLoadRoundTrip | src/cloudbandpy/io_utilities.py:396-418 | saving then loading keeps the number of days and of bands per day, and band (i, j) comes back as `fromdict(todict(...))` of the saved band |
| LegacyIo.LegacyWrapped | src/io_utilities.py:151-154 | the older half rotation of the wrapped longitudes |
| LegacyIo.GetVariableLonlatFromDomain | src/io_utilities.py:133-171 | the older crop: same failure condition, exclusive eastern bound across 0, inclusive subsets otherwise, and latitudes within [south, north] |
| LegacyIo.CropAgreesWithPackaged | src/io_utilities.py:147-171 | both copies crop identically on every input, errors included |
| LegacyIo.OpenLatitudes | src/io_utilities.py:79-81 | the older loader returns latitudes and variable in the order read |
| LegacyIo.LoadersDiffer | src/io_utilities.py:79-81 | on strictly increasing latitudes the two loaders disagree; on strictly decreasing ones they agree |
| LegacyIo.GetIdsStartEnd4Timecrop | src/io_utilities.py:174-190 | the start is the first time equal to `itime`, failing with `IndexError` exactly when there is none; the end is the first time equal to `itime` plus the period, or the number of times when absent |
| LegacyIo.IdsAgreeWithPackaged | src/io_utilities.py:174-190 | both copies select the same window |
| LegacyIo.MakeDailyWindows | src/io_utilities.py:193-208 | the loop yields exactly one window [start, end) per date in order, stops with `IndexError` at the first missing date, fails with `ValueError` when there are no dates to stack, and matches the packaged windows |

## Left out

- File and format I/O is not modelled: NetCDF reading, YAML, `np.save` and pickle. A
  pickle file is taken to hold exactly the dictionary written. `openncfile` appears only
  through its latitude normalisation.
- Numeric library internals are parameters, not definitions: hole filling, dilation,
  connected-component labelling, the `regionprops` orientation, and the Yen and Otsu
  thresholds. Their outputs are constrained only by `ValidLibrary`.
- `compute_resolution` (metpy's geodesic cell sizes) is not modelled. The per-row cell
  areas are an input.
- Floating-point round-off and float16 masks are not modelled; values are exact reals.
- Labels above 255 are not modelled. The label arrays are `uint8`, and the area filter
  requires labels of at most 255.
- Detection.BlobDetection: it does not model that the clamp writes into the caller's
  array. The model returns the clamped values instead.
- Tracking.Tracking: it does not model that the shallow copy also changes the caller's
  records. The model returns new records.
- CloudBands.NewWithDefaults: the default `parents` of the source is one set object
  shared by every record built without parents, every candidate included. Records here
  are values, so each has its own empty set and no mutation can pass between them.
- CloudBands.Rebuild: a value of another kind than the field it fills (an integer under
  `area`, say) is rejected with `TypeError`. Python's constructor would store it, but the
  record's fields here are typed.
- Candidates.Candidate: `candidates2class` (src/cloudbandpy/cb_detection.py:118-129)
  passes `angle=`, `lon_centroid=` and `lat_centroid=` to `CloudBand`, whose `__init__`
  (src/cloudbandpy/cloudband.py:15-25) declares none of them. As written, the code raises
  `TypeError` on the first label of every day. The model builds the intended record;
  `Candidates.CandidateAsWritten` models the failing call (see "## Findings").
- Orientation of degenerate regions is not modelled, because the orientation is a
  parameter.
- IoUtilities.DailyWindows: it returns the slices that are averaged, not their `nanmean`,
  which is floating-point work.
- IoUtilities.GetIdsStartEnd4Timecrop: it takes the period in hours and assumes that
  `dt_data * (period_detection / dt_data)` equals `period_detection` exactly.
- Calendar conversion is not modelled. Dates are integer hours, and `compute_density`
  receives the year, month and day of each date directly.
- Detection.Lower: it lower-cases ASCII letters only.
- Shape mismatches that numpy would report are excluded by preconditions
  (`TrackingShapes`, `SummableMasks`, `Consistent`).
- Logging, plotting (`plot_tracking_on_map`, figure tools, analysis scripts) and the
  entry points are not modelled.

## Findings

| source | as written | input that shows it | evidently intended | confidence | as-written member | corrected member |
|---|---|---|---|---|---|---|
| src/cloudbandpy/cb_detection.py:118-129 | `CloudBand(...)` is called with the keywords `angle`, `lon_centroid` and `lat_centroid`, which `CloudBand.__init__` (src/cloudbandpy/cloudband.py:15-25) does not declare, so Python raises `TypeError` | a labelled map `[[1]]` with label order `[1]` | one candidate record per label, carrying the angle and the centroid latitude and longitude | high; not executed | Candidates.Candidates2ClassAsWritten (shown by Candidates.OneLabelRejected) | Candidates.Candidates2Class, built from Candidates.Candidate |

=== FILE: area.dfy ===
/**
 * Physical area of a set of pixels: the per-row cell area (km², one value per
 * latitude) summed over the selected pixels, as `compute_blob_area` computes it.
 */
module Area {
  import opened Grids

  /** Every cell area is non-negative. */
  predicate NonNegativeRes(res: seq<real>) {
    forall r :: 0 <= r < |res| ==> res[r] >= 0.0
  }

  /** Cell area w summed over the pixels of one row whose value lies in sel. */
  function RowAreaIn(row: seq<int>, sel: set<int>, w: real): real
    decreases |row|
  {
    if |row| == 0 then 0.0
    else RowAreaIn(row[..|row| - 1], sel, w) + (if row[|row| - 1] in sel then w else 0.0)
  }

  /** Cell area summed over every pixel of img whose value lies in sel; row r has cell area res[r]. */
  function AreaIn(img: Grid, sel: set<int>, res: seq<real>): real
    requires |res| == |img|
    decreases |img|
  {
    if |img| == 0 then 0.0
    else AreaIn(img[..|img| - 1], sel, res[..|res| - 1]) + RowAreaIn(img[|img| - 1], sel, res[|res| - 1])
  }

  /** `compute_blob_area(img, idx, resolution)`: the area of the pixels labelled idx.
      It is non-negative, zero for a label that does not occur, and positive for one that
      does when every cell has positive area. */
  function ComputeBlobArea(img: Grid, idx: int, res: seq<real>): (a: real)
    requires |res| == |img|
    ensures NonNegativeRes(res) ==> a >= 0.0
    ensures !Occurs(img, idx) ==> a == 0.0
    ensures (forall r :: 0 <= r < |res| ==> res[r] > 0.0) && Occurs(img, idx) ==> a > 0.0
  {
    BlobAreaFacts(img, idx, res);
    AreaIn(img, {idx}, res)
  }

  lemma BlobAreaFacts(img: Grid, idx: int, res: seq<real>)
    requires |res| == |img|
    ensures NonNegativeRes(res) ==> AreaIn(img, {idx}, res) >= 0.0
    ensures !Occurs(img, idx) ==> AreaIn(img, {idx}, res) == 0.0
    ensures (forall r :: 0 <= r < |res| ==> res[r] > 0.0) && Occurs(img, idx) ==> AreaIn(img, {idx}, res) > 0.0
  {
    if NonNegativeRes(res) {
      AreaNonNegative(img, {idx}, res);
    }
    if !Occurs(img, idx) {
      AreaEmpty(img, {idx}, res);
    }
    if (forall r :: 0 <= r < |res| ==> res[r] > 0.0) && Occurs(img, idx) {
      var r, c :| 0 <= r < |img| && 0 <= c < |img[r]| && img[r][c] == idx;
      AreaPositive(img, {idx}, res, r, c);
    }
  }

  lemma {:induction false} RowAreaNonNegative(row: seq<int>, sel: set<int>, w: real)
    requires w >= 0.0
    ensures RowAreaIn(row, sel, w) >= 0.0
    decreases |row|
  {
    if |row| > 0 {
      RowAreaNonNegative(row[..|row| - 1], sel, w);
    }
  }

  lemma {:induction false} AreaNonNegative(img: Grid, sel: set<int>, res: seq<real>)
    requires |res| == |img| && NonNegativeRes(res)
    ensures AreaIn(img, sel, res) >= 0.0
    decreases |img|
  {
    if |img| > 0 {
      AreaNonNegative(img[..|img| - 1], sel, res[..|res| - 1]);
      RowAreaNonNegative(img[|img| - 1], sel, res[|res| - 1]);
    }
  }

  lemma {:induction false} RowAreaEmpty(row: seq<int>, sel: set<int>, w: real)
    requires forall c :: 0 <= c < |row| ==> row[c] !in sel
    ensures RowAreaIn(row, sel, w) == 0.0
    decreases |row|
  {
    if |row| > 0 {
      RowAreaEmpty(row[..|row| - 1], sel, w);
    }
  }

  /** No selected pixel, no area. */
  lemma {:induction false} AreaEmpty(img: Grid, sel: set<int>, res: seq<real>)
    requires |res| == |img|
    requires forall r, c :: 0 <= r < |img| && 0 <= c < |img[r]| ==> img[r][c] !in sel
    ensures AreaIn(img, sel, res) == 0.0
    decreases |img|
  {
    if |img| > 0 {
      AreaEmpty(img[..|img| - 1], sel, res[..|res| - 1]);
      RowAreaEmpty(img[|img| - 1], sel, res[|res| - 1]);
    }
  }

  lemma {:induction false} RowAreaPositive(row: seq<int>, sel: set<int>, w: real, c: int)
    requires w > 0.0 && 0 <= c < |row| && row[c] in sel
    ensures RowAreaIn(row, sel, w) > 0.0
    decreases |row|
  {
    if c < |row| - 1 {
      RowAreaPositive(row[..|row| - 1], sel, w, c);
    } else {
      RowAreaNonNegative(row[..|row| - 1], sel, w);
    }
  }

  lemma {:induction false} AreaPositive(img: Grid, sel: set<int>, res: seq<real>, r: int, c: int)
    requires |res| == |img| && forall k :: 0 <= k < |res| ==> res[k] > 0.0
    requires 0 <= r < |img| && 0 <= c < |img[r]| && img[r][c] in sel
    ensures AreaIn(img, sel, res) > 0.0
    decreases |img|
  {
    if r < |img| - 1 {
      AreaPositive(img[..|img| - 1], sel, res[..|res| - 1], r, c);
      RowAreaNonNegative(img[|img| - 1], sel, res[|res| - 1]);
    } else {
      AreaNonNegative(img[..|img| - 1], sel, res[..|res| - 1]);
      RowAreaPositive(img[r], sel, res[r], c);
    }
  }

  lemma {:induction false} RowAreaUnion(row: seq<int>, a: set<int>, b: set<int>, w: real)
    requires a !! b
    ensures RowAreaIn(row, a + b, w) == RowAreaIn(row, a, w) + RowAreaIn(row, b, w)
    decreases |row|
  {
    if |row| > 0 {
      RowAreaUnion(row[..|row| - 1], a, b, w);
    }
  }

  /** Area is additive over disjoint label sets. */
  lemma {:induction false} AreaUnion(img: Grid, a: set<int>, b: set<int>, res: seq<real>)
    requires |res| == |img| && a !! b
    ensures AreaIn(img, a + b, res) == AreaIn(img, a, res) + AreaIn(img, b, res)
    decreases |img|
  {
    if |img| > 0 {
      AreaUnion(img[..|img| - 1], a, b, res[..|res| - 1]);
      RowAreaUnion(img[|img| - 1], a, b, res[|res| - 1]);
    }
  }

  /** The area of two distinct labels together is the sum of their blob areas. */
  lemma BlobAreaAdditive(img: Grid, a: int, b: int, res: seq<real>)
    requires |res| == |img| && a != b
    ensures AreaIn(img, {a, b}, res) == ComputeBlobArea(img, a, res) + ComputeBlobArea(img, b, res)
  {
    assert {a, b} == {a} + {b};
    AreaUnion(img, {a}, {b}, res);
  }

  lemma {:induction false} RowAreaCongruent(x: seq<int>, a: set<int>, y: seq<int>, b: set<int>, w: real)
    requires |x| == |y| && forall c :: 0 <= c < |x| ==> (x[c] in a <==> y[c] in b)
    ensures RowAreaIn(x, a, w) == RowAreaIn(y, b, w)
    decreases |x|
  {
    if |x| > 0 {
      RowAreaCongruent(x[..|x| - 1], a, y[..|y| - 1], b, w);
    }
  }

  /** Two rasters that select the same pixels have the same area. */
  lemma {:induction false} AreaCongruent(x: Grid, a: set<int>, y: Grid, b: set<int>, res: seq<real>)
    requires |res| == |x| && SameShape(x, y)
    requires forall r, c :: 0 <= r < |x| && 0 <= c < |x[r]| ==> (x[r][c] in a <==> y[r][c] in b)
    ensures AreaIn(x, a, res) == AreaIn(y, b, res)
    decreases |x|
  {
    if |x| > 0 {
      var n := |x| - 1;
      AreaCongruent(x[..n], a, y[..n], b, res[..n]);
      RowAreaCongruent(x[n], a, y[n], b, res[n]);
    }
  }

  lemma {:induction false} RowAreaMono(x: seq<int>, a: set<int>, y: seq<int>, b: set<int>, w: real)
    requires w >= 0.0 && |x| == |y| && forall c :: 0 <= c < |x| ==> x[c] in a ==> y[c] in b
    ensures RowAreaIn(x, a, w) <= RowAreaIn(y, b, w)
    decreases |x|
  {
    if |x| > 0 {
      RowAreaMono(x[..|x| - 1], a, y[..|y| - 1], b, w);
    }
  }

  /** Selecting fewer pixels never gives more area. */
  lemma {:induction false} AreaMono(x: Grid, a: set<int>, y: Grid, b: set<int>, res: seq<real>)
    requires |res| == |x| && SameShape(x, y) && NonNegativeRes(res)
    requires forall r, c :: 0 <= r < |x| && 0 <= c < |x[r]| ==> x[r][c] in a ==> y[r][c] in b
    ensures AreaIn(x, a, res) <= AreaIn(y, b, res)
    decreases |x|
  {
    if |x| > 0 {
      var n := |x| - 1;
      AreaMono(x[..n], a, y[..n], b, res[..n]);
      RowAreaMono(x[n], a, y[n], b, res[n]);
    }
  }
}

=== FILE: area_filter.dfy ===
/**
 * The area filter at the end of `blob_detection`: blob areas are listed per label,
 * sorted from largest to smallest, the labels whose area reaches the threshold are
 * kept, and a candidate map is painted with those labels only.
 */
module AreaFilter {
  import opened Grids
  import Area

  /** `[label, area]` entries of `blobs_size`. */
  datatype BlobSize = BlobSize(blob: int, area: real)

  /** `blobs_size`: one entry per label 1..n, in ascending label order. */
  function BlobSizes(blobs: Grid, res: seq<real>, n: nat): (s: seq<BlobSize>)
    requires |res| == |blobs|
    ensures |s| == n
    ensures forall k :: 0 <= k < n ==> s[k] == BlobSize(k + 1, Area.ComputeBlobArea(blobs, k + 1, res))
  {
    seq(n, k requires 0 <= k < n => BlobSize(k + 1, Area.ComputeBlobArea(blobs, k + 1, res)))
  }

  /** Largest area first. */
  predicate Descending(s: seq<BlobSize>) {
    forall i, j :: 0 <= i < j < |s| ==> s[i].area >= s[j].area
  }

  /** Labels strictly ascending, as `range(1, max + 1)` lists them. */
  predicate LabelsAscending(s: seq<BlobSize>) {
    forall i, j :: 0 <= i < j < |s| ==> s[i].blob < s[j].blob
  }

  /** The order a stable descending sort of ascending labels produces: larger area
      first, and among equal areas the smaller label first. */
  predicate Before(a: BlobSize, b: BlobSize) {
    a.area > b.area || (a.area == b.area && a.blob < b.blob)
  }

  predicate SortedBefore(s: seq<BlobSize>) {
    forall i, j :: 0 <= i < j < |s| ==> Before(s[i], s[j])
  }

  /** One insertion step of a stable sort on descending area: x goes after every
      element whose area is at least its own. */
  function InsertDesc(s: seq<BlobSize>, x: BlobSize): (r: seq<BlobSize>)
    decreases |s|
    ensures multiset(r) == multiset(s) + multiset{x}
    ensures |r| == |s| + 1
  {
    if |s| == 0 then [x]
    else
      var last := s[|s| - 1];
      var init := s[..|s| - 1];
      assert s == init + [last];
      if last.area >= x.area then s + [x]
      else InsertDesc(init, x) + [last]
  }

  /** Every entry after an insertion is x or came from s. */
  lemma InsertFrom(s: seq<BlobSize>, x: BlobSize)
    ensures forall k :: 0 <= k < |InsertDesc(s, x)| ==> InsertDesc(s, x)[k] == x || InsertDesc(s, x)[k] in s
  {
    var ins := InsertDesc(s, x);
    forall k | 0 <= k < |ins| ensures ins[k] == x || ins[k] in s {
      assert ins[k] in multiset(ins);
    }
  }

  lemma {:induction false} InsertDescDescending(s: seq<BlobSize>, x: BlobSize)
    requires Descending(s)
    ensures Descending(InsertDesc(s, x))
    decreases |s|
  {
    if |s| > 0 && s[|s| - 1].area < x.area {
      var last := s[|s| - 1];
      var init := s[..|s| - 1];
      assert Descending(init) by {
        forall i, j | 0 <= i < j < |init| ensures init[i].area >= init[j].area {
          assert s[i] == init[i] && s[j] == init[j];
        }
      }
      InsertDescDescending(init, x);
      var ins := InsertDesc(init, x);
      InsertFrom(init, x);
      forall k | 0 <= k < |ins| ensures ins[k].area >= last.area {
        if ins[k] != x {
          var m :| 0 <= m < |init| && init[m] == ins[k];
          assert s[m] == init[m];
        }
      }
      assert InsertDesc(s, x) == ins + [last];
    }
  }

  lemma {:induction false} InsertDescStable(s: seq<BlobSize>, x: BlobSize)
    requires SortedBefore(s) && forall k :: 0 <= k < |s| ==> s[k].blob < x.blob
    ensures SortedBefore(InsertDesc(s, x))
    decreases |s|
  {
    if |s| > 0 && s[|s| - 1].area < x.area {
      var last := s[|s| - 1];
      var init := s[..|s| - 1];
      assert SortedBefore(init) by {
        forall i, j | 0 <= i < j < |init| ensures Before(init[i], init[j]) {
          assert s[i] == init[i] && s[j] == init[j];
        }
      }
      assert forall k :: 0 <= k < |init| ==> init[k].blob < x.blob by {
        forall k | 0 <= k < |init| ensures init[k].blob < x.blob {
          assert s[k] == init[k];
        }
      }
      InsertDescStable(init, x);
      var ins := InsertDesc(init, x);
      InsertFrom(init, x);
      forall k | 0 <= k < |ins| ensures Before(ins[k], last) {
        if ins[k] != x {
          var m :| 0 <= m < |init| && init[m] == ins[k];
          assert s[m] == init[m];
        }
      }
      assert InsertDesc(s, x) == ins + [last];
    }
  }

  /** Insertion keeps a descending list descending, and keeps the stable order when
      x carries the largest label. */
  lemma InsertDescOrdered(s: seq<BlobSize>, x: BlobSize)
    ensures Descending(s) ==> Descending(InsertDesc(s, x))
    ensures SortedBefore(s) && (forall k :: 0 <= k < |s| ==> s[k].blob < x.blob) ==> SortedBefore(InsertDesc(s, x))
  {
    if Descending(s) {
      InsertDescDescending(s, x);
    }
    if SortedBefore(s) && (forall k :: 0 <= k < |s| ==> s[k].blob < x.blob) {
      InsertDescStable(s, x);
    }
  }

  /**
   * `sorted(blobs_size, key=area, reverse=True)`: a permutation of the entries with
   * areas descending; Python's sort is stable, so for ascending labels ties keep the
   * smaller label first.
   */
  function SortDesc(s: seq<BlobSize>): (r: seq<BlobSize>)
    decreases |s|
    ensures multiset(r) == multiset(s)
    ensures Descending(r)
    ensures LabelsAscending(s) ==> SortedBefore(r)
  {
    if |s| == 0 then []
    else
      var init := s[..|s| - 1];
      var x := s[|s| - 1];
      assert s == init + [x];
      var sorted := SortDesc(init);
      SortedBelowLast(s, sorted);
      InsertDescOrdered(sorted, x);
      InsertDesc(sorted, x)
  }

  /** Every label of a permutation of the prefix is below the last label when labels ascend. */
  lemma SortedBelowLast(s: seq<BlobSize>, sorted: seq<BlobSize>)
    requires |s| > 0 && multiset(sorted) == multiset(s[..|s| - 1])
    ensures LabelsAscending(s) ==> forall k :: 0 <= k < |sorted| ==> sorted[k].blob < s[|s| - 1].blob
  {
    if LabelsAscending(s) {
      var init := s[..|s| - 1];
      forall k | 0 <= k < |sorted| ensures sorted[k].blob < s[|s| - 1].blob {
        assert sorted[k] in multiset(init);
        var m :| 0 <= m < |init| && init[m] == sorted[k];
        assert s[m] == init[m];
      }
    }
  }

  /** `cloudband_candidate`: the labels, in sorted order, whose area reaches the threshold. */
  function KeptLabels(sorted: seq<BlobSize>, threshold: real): (ls: seq<int>)
    ensures forall l :: l in ls <==> exists k :: 0 <= k < |sorted| && sorted[k].blob == l && sorted[k].area >= threshold
  {
    if |sorted| == 0 then []
    else
      var rest := KeptLabels(sorted[1..], threshold);
      assert forall k :: 1 <= k < |sorted| ==> sorted[k] == sorted[1..][k - 1];
      if sorted[0].area >= threshold then [sorted[0].blob] + rest else rest
  }

  /** `labelled_candidates[labelled_blobs == l] = l` for each l of ls in turn. */
  function Paint(cand: Grid, blobs: Grid, ls: seq<int>): (out: Grid)
    requires SameShape(cand, blobs)
    ensures SameShape(out, blobs)
    ensures forall r, c :: 0 <= r < |blobs| && 0 <= c < |blobs[r]| ==>
      out[r][c] == if blobs[r][c] in ls then blobs[r][c] else cand[r][c]
    decreases |ls|
  {
    if |ls| == 0 then cand
    else
      var l := ls[0];
      var next := seq(|cand|, r requires 0 <= r < |cand| =>
        seq(|cand[r]|, c requires 0 <= c < |cand[r]| => if blobs[r][c] == l then l else cand[r][c]));
      assert forall v :: v in ls <==> v == l || v in ls[1..];
      Paint(next, blobs, ls[1..])
  }

  /**
   * The candidate map of `blob_detection`: a pixel keeps its blob label exactly when the
   * blob's area reaches the threshold, and is 0 otherwise (background or small blob).
   * The descending sort has no effect on the map: painting depends only on which labels
   * are kept.
   */
  function LabelledCandidates(blobs: Grid, res: seq<real>, threshold: real): (cand: Grid)
    requires NoEmptyRow(blobs) && FitsUint8(blobs) && |res| == |blobs|
    ensures SameShape(cand, blobs) && FitsUint8(cand)
    ensures forall r, c :: 0 <= r < |blobs| && 0 <= c < |blobs[r]| ==>
      cand[r][c] == if blobs[r][c] != 0 && Area.ComputeBlobArea(blobs, blobs[r][c], res) >= threshold
        then blobs[r][c] else 0
  {
    var n := GridMax(blobs);
    var sizes := BlobSizes(blobs, res, n);
    var sorted := SortDesc(sizes);
    var kept := KeptLabels(sorted, threshold);
    KeptExactly(blobs, res, threshold);
    Paint(ZerosLike(blobs), blobs, kept)
  }

  /** A pixel's label survives the filter exactly when it is a blob whose area reaches the threshold. */
  lemma KeptExactly(blobs: Grid, res: seq<real>, threshold: real)
    requires NoEmptyRow(blobs) && NonNegative(blobs) && |res| == |blobs|
    ensures GridMax(blobs) >= 0
    ensures var kept := KeptLabels(SortDesc(BlobSizes(blobs, res, GridMax(blobs))), threshold);
      forall r, c :: 0 <= r < |blobs| && 0 <= c < |blobs[r]| ==>
        (blobs[r][c] in kept <==> blobs[r][c] != 0 && Area.ComputeBlobArea(blobs, blobs[r][c], res) >= threshold)
  {
    var n := GridMax(blobs);
    var sizes := BlobSizes(blobs, res, n);
    var sorted := SortDesc(sizes);
    var kept := KeptLabels(sorted, threshold);
    forall r, c | 0 <= r < |blobs| && 0 <= c < |blobs[r]|
      ensures blobs[r][c] in kept <==> blobs[r][c] != 0 && Area.ComputeBlobArea(blobs, blobs[r][c], res) >= threshold
    {
      var v := blobs[r][c];
      if v in kept {
        var k :| 0 <= k < |sorted| && sorted[k].blob == v && sorted[k].area >= threshold;
        assert sorted[k] in multiset(sizes);
      }
      if v != 0 && Area.ComputeBlobArea(blobs, v, res) >= threshold {
        assert sizes[v - 1] in multiset(sorted);
      }
    }
  }
}

=== FILE: candidates.dfy ===
/**
 * From a candidate label map to `CloudBand` records (`candidates2class`,
 * `get_cloudband_latlon`) and the acceptance rule (`filter_blobs2cloudbands`).
 */
module Candidates {
  import opened Wrappers
  import opened Grids
  import Misc
  import Area
  import Regions
  import opened CloudBands
  import Detection

  /** `icloudband`: 1 on the pixels carrying label l, 0 elsewhere. */
  function LabelMask(g: Grid, l: int): (m: Grid)
    ensures SameShape(m, g) && IsBinary(m)
    ensures forall r, c :: 0 <= r < |g| && 0 <= c < |g[r]| ==> (m[r][c] == 1 <==> g[r][c] == l)
  {
    seq(|g|, r requires 0 <= r < |g| =>
      seq(|g[r]|, c requires 0 <= c < |g[r]| => if g[r][c] == l then 1 else 0))
  }

  /** `get_cloudband_latlon`: the longitude and latitude of every band pixel, NaN (None) elsewhere. */
  function LatLonMaps(mask: Grid, lons: seq<real>, lats: seq<real>): (maps: (CoordMap, CoordMap))
    requires IsRect(mask, |lats|, |lons|)
    ensures IsRect(maps.0, |lats|, |lons|) && IsRect(maps.1, |lats|, |lons|)
    ensures forall r, c :: 0 <= r < |lats| && 0 <= c < |lons| ==>
      maps.0[r][c] == (if mask[r][c] != 0 then Some(lons[c]) else None) &&
      maps.1[r][c] == (if mask[r][c] != 0 then Some(lats[r]) else None)
  {
    (seq(|lats|, r requires 0 <= r < |lats| =>
       seq(|lons|, c requires 0 <= c < |lons| => if mask[r][c] != 0 then Some(lons[c]) else None)),
     seq(|lats|, r requires 0 <= r < |lats| =>
       seq(|lons|, c requires 0 <= c < |lons| => if mask[r][c] != 0 then Some(lats[r]) else None)))
  }

  /** Some value of the map is defined. */
  predicate AnyDefined(m: CoordMap) {
    exists r, c :: 0 <= r < |m| && 0 <= c < |m[r]| && m[r][c].Some?
  }

  function Smaller(a: Option<real>, b: Option<real>): Option<real> {
    if a.None? then b else if b.None? then a else if b.value < a.value then b else a
  }

  function Larger(a: Option<real>, b: Option<real>): Option<real> {
    if a.None? then b else if b.None? then a else if b.value > a.value then b else a
  }

  function RowMinDefined(row: seq<Option<real>>): (m: Option<real>)
    ensures m.None? <==> forall c :: 0 <= c < |row| ==> row[c].None?
    ensures m.Some? ==> (exists c :: 0 <= c < |row| && row[c] == m) &&
                        forall c :: 0 <= c < |row| && row[c].Some? ==> m.value <= row[c].value
  {
    if |row| == 0 then None
    else
      var init := row[..|row| - 1];
      assert forall c :: 0 <= c < |init| ==> init[c] == row[c];
      Smaller(RowMinDefined(init), row[|row| - 1])
  }

  function RowMaxDefined(row: seq<Option<real>>): (m: Option<real>)
    ensures m.None? <==> forall c :: 0 <= c < |row| ==> row[c].None?
    ensures m.Some? ==> (exists c :: 0 <= c < |row| && row[c] == m) &&
                        forall c :: 0 <= c < |row| && row[c].Some? ==> m.value >= row[c].value
  {
    if |row| == 0 then None
    else
      var init := row[..|row| - 1];
      assert forall c :: 0 <= c < |init| ==> init[c] == row[c];
      Larger(RowMaxDefined(init), row[|row| - 1])
  }

  /** `np.nanmin`: the least defined value, None when every value is NaN. */
  function MinDefined(m: CoordMap): (v: Option<real>)
    ensures v.None? <==> !AnyDefined(m)
    ensures v.Some? ==> (exists r, c :: 0 <= r < |m| && 0 <= c < |m[r]| && m[r][c] == v) &&
                        (forall r, c :: 0 <= r < |m| && 0 <= c < |m[r]| && m[r][c].Some? ==> v.value <= m[r][c].value)
  {
    if |m| == 0 then None
    else
      var init := m[..|m| - 1];
      assert forall r :: 0 <= r < |init| ==> init[r] == m[r];
      var a := MinDefined(init);
      var b := RowMinDefined(m[|m| - 1]);
      Smaller(a, b)
  }

  /** `np.nanmax`: the greatest defined value, None when every value is NaN. */
  function MaxDefined(m: CoordMap): (v: Option<real>)
    ensures v.None? <==> !AnyDefined(m)
    ensures v.Some? ==> (exists r, c :: 0 <= r < |m| && 0 <= c < |m[r]| && m[r][c] == v) &&
                        (forall r, c :: 0 <= r < |m| && 0 <= c < |m[r]| && m[r][c].Some? ==> v.value >= m[r][c].value)
  {
    if |m| == 0 then None
    else
      var init := m[..|m| - 1];
      assert forall r :: 0 <= r < |init| ==> init[r] == m[r];
      var a := MaxDefined(init);
      var b := RowMaxDefined(m[|m| - 1]);
      Larger(a, b)
  }

  /** The edge-crossing flag: the band's westernmost longitude wraps to 0 and its
      easternmost wraps beyond 250. A band with no defined longitude is not flagged. */
  predicate CrossesEdge(lonMap: CoordMap): (crosses: bool)
    ensures crosses ==>
      (exists r, c :: 0 <= r < |lonMap| && 0 <= c < |lonMap[r]| && lonMap[r][c].Some? &&
                      Misc.WrapTo360(lonMap[r][c].value) == 0.0) &&
      (exists r, c :: 0 <= r < |lonMap| && 0 <= c < |lonMap[r]| && lonMap[r][c].Some? &&
                      Misc.WrapTo360(lonMap[r][c].value) > 250.0)
  {
    var lo := MinDefined(lonMap);
    var hi := MaxDefined(lonMap);
    lo.Some? && hi.Some? && Misc.WrapTo360(lo.value) == 0.0 && Misc.WrapTo360(hi.value) > 250.0
  }

  /** `int()` of a non-negative centroid coordinate: truncation, here the floor. */
  function Truncate(x: real): (n: int)
    requires x >= 0.0
    ensures 0 <= n && n as real <= x < (n + 1) as real
  {
    x.Floor
  }

  /** The mask of a present label is a single region labelled 1. */
  lemma MaskRegion(g: Grid, l: int)
    requires Occurs(g, l)
    ensures Occurs(LabelMask(g, l), 1)
    ensures Regions.FirstRegion(LabelMask(g, l)) == Some(1)
  {
    var mask := LabelMask(g, l);
    var r, c :| 0 <= r < |g| && 0 <= c < |g[r]| && g[r][c] == l;
    assert mask[r][c] == 1;
  }

  /** The record's centroid coordinates are the latitude and longitude at the truncated
      row and column of its mask's centroid. */
  predicate CentroidPicked(cb: CloudBand, lats: seq<real>, lons: seq<real>) {
    Occurs(cb.mask, 1) &&
    var centroid := Regions.Centroid(cb.mask, 1);
    Truncate(centroid.0) < |lats| && Truncate(centroid.1) < |lons| &&
    cb.latCentroid == Some(lats[Truncate(centroid.0)]) && cb.lonCentroid == Some(lons[Truncate(centroid.1)])
  }

  /** The candidate record of label l, as `candidates2class` builds it. */
  function Candidate(g: Grid, l: int, date: int, res: seq<real>, lons: seq<real>, lats: seq<real>,
                     orientation: Orientation): (cb: CloudBand)
    requires IsRect(g, |lats|, |lons|) && |res| == |g| && Occurs(g, l)
    ensures cb.mask == LabelMask(g, l) && cb.dateNumber == date
    ensures cb.area == Area.ComputeBlobArea(g, l, res)
    ensures (cb.lons, cb.lats) == LatLonMaps(cb.mask, lons, lats)
    ensures cb.connectedLongitudes <==> CrossesEdge(cb.lons)
    ensures !cb.isCloudband && cb.parents == {} && cb.angle == orientation(cb.mask)
    ensures cb.latCentroid.Some? && cb.lonCentroid.Some?
    ensures cb.latCentroid.value in lats && cb.lonCentroid.value in lons
    ensures CentroidPicked(cb, lats, lons)
    ensures Built(cb, orientation)
  {
    var mask := LabelMask(g, l);
    MaskRegion(g, l);
    var area := Area.ComputeBlobArea(mask, 1, res);
    Area.AreaCongruent(mask, {1}, g, {l}, res);
    var maps := LatLonMaps(mask, lons, lats);
    var connected := CrossesEdge(maps.0);
    var centroid := Regions.Centroid(mask, 1);
    Regions.CentroidInside(mask, 1, |lats|, |lons|);
    var latC := lats[Truncate(centroid.0)];
    var lonC := lons[Truncate(centroid.1)];
    var cb := New(mask, area, maps.1, maps.0, date, false, connected, {}, orientation).value;
    cb.(latCentroid := Some(latC), lonCentroid := Some(lonC))
  }

  /** Distinct labels have no pixel in common. */
  predicate Disjoint(a: CloudBand, b: CloudBand) {
    forall r, c :: 0 <= r < |a.mask| && 0 <= c < |a.mask[r]| && r < |b.mask| && c < |b.mask[r]| ==>
      !(a.mask[r][c] == 1 && b.mask[r][c] == 1)
  }

  predicate PairwiseDisjoint(bands: seq<CloudBand>) {
    forall i, j :: 0 <= i < |bands| && 0 <= j < |bands| && i != j ==> Disjoint(bands[i], bands[j])
  }

  predicate MasksShaped(bands: seq<CloudBand>, rows: nat, cols: nat) {
    forall k :: 0 <= k < |bands| ==> IsRect(bands[k].mask, rows, cols)
  }

  predicate MasksBinary(bands: seq<CloudBand>) {
    forall k :: 0 <= k < |bands| ==> IsBinary(bands[k].mask)
  }

  /** `order` lists each label present in g exactly once. */
  ghost predicate EnumeratesLabels(g: Grid, order: seq<int>) {
    (forall i, j :: 0 <= i < j < |order| ==> order[i] != order[j]) &&
    (forall l :: l in order <==> l != 0 && Occurs(g, l))
  }

  /**
   * `candidates2class`: one record per distinct non-zero label, in the order the labels
   * are enumerated (`order`), each built by `Candidate`.
   */
  function Candidates2Class(g: Grid, order: seq<int>, date: int, res: seq<real>, lons: seq<real>,
                            lats: seq<real>, orientation: Orientation): (cands: seq<CloudBand>)
    requires IsRect(g, |lats|, |lons|) && |res| == |g| && EnumeratesLabels(g, order)
    ensures |cands| == |order|
    ensures forall k :: 0 <= k < |order| ==> cands[k] == Candidate(g, order[k], date, res, lons, lats, orientation)
  {
    seq(|order|, k requires 0 <= k < |order| =>
      assert order[k] in order;
      Candidate(g, order[k], date, res, lons, lats, orientation))
  }

  /** The keywords `candidates2class` passes to `CloudBand(...)`, cb_detection.py:118-129. */
  const CandidateKeywords: set<string> := {"cloud_band_array", "date_number", "area", "lats", "lons", "angle",
                                           "lon_centroid", "lat_centroid", "iscloudband", "connected_longitudes"}

  /** The parameters `CloudBand.__init__` declares, cloudband.py:15-25. */
  const InitParameters: set<string> := {"cloud_band_array", "area", "lats", "lons", "date_number",
                                        "iscloudband", "connected_longitudes", "parents"}

  /**
   * The constructor call of `candidates2class` as written: Python rejects a keyword the callee does
   * not declare with `TypeError` before the body runs, and `angle`, `lon_centroid` and `lat_centroid`
   * are not among the parameters, so the call never yields a record.
   */
  function CandidateAsWritten(g: Grid, l: int, date: int, res: seq<real>, lons: seq<real>, lats: seq<real>,
                              orientation: Orientation): (r: Result<CloudBand>)
    requires IsRect(g, |lats|, |lons|) && |res| == |g| && Occurs(g, l)
    ensures r == Failure(TypeError)
  {
    var record := Candidate(g, l, date, res, lons, lats, orientation);
    assert "angle" in CandidateKeywords && "angle" !in InitParameters;
    if CandidateKeywords <= InitParameters then Success(record) else Failure(TypeError)
  }

  /**
   * `candidates2class` as written: the exception of the first constructor call propagates, so a map
   * with any label fails, and only a map without labels yields the empty list.
   */
  function Candidates2ClassAsWritten(g: Grid, order: seq<int>, date: int, res: seq<real>, lons: seq<real>,
                                     lats: seq<real>, orientation: Orientation): (r: Result<seq<CloudBand>>)
    requires IsRect(g, |lats|, |lons|) && |res| == |g| && EnumeratesLabels(g, order)
    ensures r.Failure? <==> |order| > 0
    ensures r.Failure? ==> r.error == TypeError
    ensures r.Success? ==> r.value == Candidates2Class(g, order, date, res, lons, lats, orientation) == []
  {
    if |order| == 0 then Success([])
    else
      assert order[0] in order;
      var first := CandidateAsWritten(g, order[0], date, res, lons, lats, orientation);
      Failure(first.error)
  }

  /**
   * A one-pixel map with label 1: the code as written raises `TypeError`, while the intended
   * `Candidates2Class` yields one record, with an angle and both centroids.
   */
  lemma OneLabelRejected(g: Grid, order: seq<int>, date: int, res: seq<real>, lons: seq<real>,
                         lats: seq<real>, orientation: Orientation)
    requires g == [[1]] && order == [1] && |lats| == 1 && |lons| == 1 && |res| == 1
    ensures IsRect(g, |lats|, |lons|) && EnumeratesLabels(g, order)
    ensures Candidates2ClassAsWritten(g, order, date, res, lons, lats, orientation) == Failure(TypeError)
    ensures var cands := Candidates2Class(g, order, date, res, lons, lats, orientation);
      |cands| == 1 && cands[0].latCentroid.Some? && cands[0].lonCentroid.Some?
  {
    assert g[0][0] == 1;
    assert forall l :: l in order <==> l != 0 && Occurs(g, l);
  }

  /** The records have binary masks of distinct labels, so no two share a pixel. */
  lemma CandidatesDisjoint(g: Grid, order: seq<int>, date: int, res: seq<real>, lons: seq<real>,
                           lats: seq<real>, orientation: Orientation)
    requires IsRect(g, |lats|, |lons|) && |res| == |g| && EnumeratesLabels(g, order)
    ensures var cands := Candidates2Class(g, order, date, res, lons, lats, orientation);
      PairwiseDisjoint(cands) && MasksShaped(cands, |lats|, |lons|) && MasksBinary(cands) && HasCentroids(cands)
  {
    var cands := Candidates2Class(g, order, date, res, lons, lats, orientation);
    CandidateMasks(g, order, cands, |lats|, |lons|);
    forall i, j | 0 <= i < |cands| && 0 <= j < |cands| && i != j
      ensures Disjoint(cands[i], cands[j])
    {
      assert order[i] != order[j] by {
        if i < j {} else {}
      }
      LabelMasksDisjoint(g, order[i], order[j], cands[i].mask, cands[j].mask);
    }
  }

  /** Records holding the masks of a rectangular map's labels hold 0/1 masks of its shape. */
  lemma CandidateMasks(g: Grid, order: seq<int>, cands: seq<CloudBand>, rows: nat, cols: nat)
    requires IsRect(g, rows, cols) && |cands| == |order|
    requires forall k :: 0 <= k < |cands| ==> cands[k].mask == LabelMask(g, order[k])
    ensures MasksShaped(cands, rows, cols) && MasksBinary(cands)
  {
    forall k | 0 <= k < |cands|
      ensures IsRect(cands[k].mask, rows, cols) && IsBinary(cands[k].mask)
    {
      assert cands[k].mask == LabelMask(g, order[k]);
    }
  }

  /** The masks of two different labels share no pixel. */
  lemma LabelMasksDisjoint(g: Grid, l1: int, l2: int, m1: Grid, m2: Grid)
    requires l1 != l2 && m1 == LabelMask(g, l1) && m2 == LabelMask(g, l2)
    ensures forall r, c :: 0 <= r < |m1| && 0 <= c < |m1[r]| && r < |m2| && c < |m2[r]| ==>
      !(m1[r][c] == 1 && m2[r][c] == 1)
  {
  }

  /** The hemisphere offset that turns the orientation into the long-axis angle. */
  function AxisOffset(latCentroid: real): (a: real)
    ensures a == -90.0 <==> latCentroid < 0.0
    ensures a == 90.0 <==> latCentroid >= 0.0
  {
    if latCentroid < 0.0 then -90.0 else 90.0
  }

  /** The latitude rule: the band reaches down to BOTTOM_LATITUDE and up to TOP_LATITUDE
      (both inclusive). An all-NaN map compares false. */
  predicate SpansLatitudes(c: CloudBand, p: Detection.Parameters) {
    var lo := MinDefined(c.lats);
    var hi := MaxDefined(c.lats);
    lo.Some? && hi.Some? && lo.value <= p.bottomLatitude && hi.value >= p.topLatitude
  }

  /** The acceptance rule; the angle bounds are strict and are skipped for a band crossing
      the longitude edge. */
  predicate Accepts(c: CloudBand, p: Detection.Parameters): (ok: bool)
    requires c.latCentroid.Some?
    ensures ok ==>
      (exists r, k :: 0 <= r < |c.lats| && 0 <= k < |c.lats[r]| && c.lats[r][k].Some? &&
                      c.lats[r][k].value <= p.bottomLatitude) &&
      (exists r, k :: 0 <= r < |c.lats| && 0 <= k < |c.lats[r]| && c.lats[r][k].Some? &&
                      c.lats[r][k].value >= p.topLatitude)
    ensures ok && !c.connectedLongitudes ==> p.angleMin < c.angle + AxisOffset(c.latCentroid.value) < p.angleMax
    ensures c.connectedLongitudes ==> (ok <==> SpansLatitudes(c, p))
  {
    if c.connectedLongitudes then SpansLatitudes(c, p)
    else
      var axis := AxisOffset(c.latCentroid.value);
      p.angleMin < c.angle + axis < p.angleMax && SpansLatitudes(c, p)
  }

  predicate HasCentroids(cands: seq<CloudBand>) {
    forall k :: 0 <= k < |cands| ==> cands[k].latCentroid.Some?
  }

  /** The record flagged as a cloud band (`iscloudband = True`). */
  function Marked(c: CloudBand): CloudBand {
    c.(isCloudband := true)
  }

  /** `filter_blobs2cloudbands`: the accepted records, in order, each marked as a cloud band. */
  function FilterBlobs2Cloudbands(cands: seq<CloudBand>, p: Detection.Parameters): (bands: seq<CloudBand>)
    requires HasCentroids(cands)
    ensures |bands| <= |cands|
    ensures forall b :: b in bands <==> exists k :: 0 <= k < |cands| && Accepts(cands[k], p) &&
                                                   b == Marked(cands[k])
  {
    if |cands| == 0 then []
    else
      var rest := FilterBlobs2Cloudbands(cands[1..], p);
      TailMembers(cands, p, rest);
      if Accepts(cands[0], p) then [Marked(cands[0])] + rest else rest
  }

  /** The records kept from the tail, indexed in the whole sequence. */
  lemma TailMembers(cands: seq<CloudBand>, p: Detection.Parameters, rest: seq<CloudBand>)
    requires |cands| > 0 && HasCentroids(cands)
    requires forall b :: b in rest <==> exists k :: 0 <= k < |cands[1..]| && Accepts(cands[1..][k], p) &&
                                                   b == Marked(cands[1..][k])
    ensures forall b :: b in rest <==> exists k :: 1 <= k < |cands| && Accepts(cands[k], p) &&
                                                 b == Marked(cands[k])
  {
    var tail := cands[1..];
    assert forall k :: 1 <= k < |cands| ==> cands[k] == tail[k - 1];
    forall b | b in rest ensures exists k :: 1 <= k < |cands| && Accepts(cands[k], p) && b == Marked(cands[k]) {
      var k :| 0 <= k < |tail| && Accepts(tail[k], p) && b == Marked(tail[k]);
      assert cands[k + 1] == tail[k];
    }
  }

  /** Filtering runs record by record: the result on a concatenation is the concatenation
      of the results, so the kept records stay in their original order. */
  lemma {:induction false} FilterConcat(a: seq<CloudBand>, b: seq<CloudBand>, p: Detection.Parameters)
    requires HasCentroids(a) && HasCentroids(b)
    ensures HasCentroids(a + b)
    ensures FilterBlobs2Cloudbands(a + b, p) == FilterBlobs2Cloudbands(a, p) + FilterBlobs2Cloudbands(b, p)
    decreases |a|
  {
    assert forall k :: 0 <= k < |a + b| ==> (a + b)[k] == if k < |a| then a[k] else b[k - |a|];
    if |a| > 0 {
      assert (a + b)[1..] == a[1..] + b;
      assert HasCentroids(a[1..]) by {
        forall k | 0 <= k < |a[1..]| ensures a[1..][k].latCentroid.Some? {
          assert a[1..][k] == a[k + 1];
        }
      }
      FilterConcat(a[1..], b, p);
    } else {
      assert a + b == b;
    }
  }

  /** Every kept record carries the mask of one of the candidates. */
  lemma {:induction false} FilterKeepsMasks(cands: seq<CloudBand>, p: Detection.Parameters)
    requires HasCentroids(cands)
    ensures forall i :: 0 <= i < |FilterBlobs2Cloudbands(cands, p)| ==>
      exists k :: 0 <= k < |cands| && FilterBlobs2Cloudbands(cands, p)[i] == Marked(cands[k])
  {
    var bands := FilterBlobs2Cloudbands(cands, p);
    forall i | 0 <= i < |bands|
      ensures exists k :: 0 <= k < |cands| && bands[i] == Marked(cands[k])
    {
      assert bands[i] in bands;
    }
  }

  lemma TailDisjoint(cands: seq<CloudBand>)
    requires |cands| > 0 && PairwiseDisjoint(cands)
    ensures PairwiseDisjoint(cands[1..])
  {
    var tail := cands[1..];
    forall i, j | 0 <= i < |tail| && 0 <= j < |tail| && i != j ensures Disjoint(tail[i], tail[j]) {
      assert tail[i] == cands[i + 1] && tail[j] == cands[j + 1];
    }
  }

  lemma ConsDisjoint(x: CloudBand, rest: seq<CloudBand>)
    requires PairwiseDisjoint(rest)
    requires forall i :: 0 <= i < |rest| ==> Disjoint(x, rest[i]) && Disjoint(rest[i], x)
    ensures PairwiseDisjoint([x] + rest)
  {
    var all := [x] + rest;
    forall i, j | 0 <= i < |all| && 0 <= j < |all| && i != j ensures Disjoint(all[i], all[j]) {
      if i == 0 {
        assert all[j] == rest[j - 1];
      } else if j == 0 {
        assert all[i] == rest[i - 1];
      } else {
        assert all[i] == rest[i - 1] && all[j] == rest[j - 1];
      }
    }
  }

  /** Filtering keeps the masks it is given, so disjoint candidates give disjoint bands. */
  lemma {:induction false} FilterKeepsDisjoint(cands: seq<CloudBand>, p: Detection.Parameters)
    requires HasCentroids(cands) && PairwiseDisjoint(cands)
    ensures PairwiseDisjoint(FilterBlobs2Cloudbands(cands, p))
    decreases |cands|
  {
    if |cands| > 0 {
      var tail := cands[1..];
      assert HasCentroids(tail) by {
        forall k | 0 <= k < |tail| ensures tail[k].latCentroid.Some? {
          assert tail[k] == cands[k + 1];
        }
      }
      TailDisjoint(cands);
      FilterKeepsDisjoint(tail, p);
      var rest := FilterBlobs2Cloudbands(tail, p);
      if Accepts(cands[0], p) {
        var x := Marked(cands[0]);
        FilterKeepsMasks(tail, p);
        forall i | 0 <= i < |rest| ensures Disjoint(x, rest[i]) && Disjoint(rest[i], x) {
          var k :| 0 <= k < |tail| && rest[i] == Marked(tail[k]);
          assert tail[k] == cands[k + 1];
          assert Disjoint(cands[0], cands[k + 1]) && Disjoint(cands[k + 1], cands[0]);
        }
        ConsDisjoint(x, rest);
      }
    }
  }

  /** The kept bands inherit the shape, the 0/1 values and the disjointness of the candidates' masks. */
  lemma FilterKeeps(cands: seq<CloudBand>, p: Detection.Parameters, rows: nat, cols: nat)
    requires HasCentroids(cands)
    ensures MasksShaped(cands, rows, cols) ==> MasksShaped(FilterBlobs2Cloudbands(cands, p), rows, cols)
    ensures MasksBinary(cands) ==> MasksBinary(FilterBlobs2Cloudbands(cands, p))
    ensures PairwiseDisjoint(cands) ==> PairwiseDisjoint(FilterBlobs2Cloudbands(cands, p))
  {
    FilterKeepsMasks(cands, p);
    if PairwiseDisjoint(cands) {
      FilterKeepsDisjoint(cands, p);
    }
  }
}

=== FILE: cloudband.dfy ===
/**
 * The `CloudBand` record (`cloudband.py`): its fields, the id derived from the date
 * and the rounded centroid column, and its dictionary and file forms.
 */
module CloudBands {
  import opened Wrappers
  import opened Grids
  import Misc
  import Regions

  /** `id_`, the string "<date_number>_<round(centroid column)>"; both parts are integers
      and neither prints an underscore, so the pair carries exactly the string's content. */
  datatype BandId = BandId(dateNumber: int, column: int)

  /** A latitude or longitude map of one band: None where the source holds NaN. */
  type CoordMap = seq<seq<Option<real>>>

  /**
   * One cloud band (or candidate). `angle` and `id` are computed by the constructor from
   * the mask; the centroid coordinates are set only for records built during detection.
   */
  datatype CloudBand = CloudBand(
    mask: Grid,
    area: real,
    lats: CoordMap,
    lons: CoordMap,
    dateNumber: int,
    angle: real,
    latCentroid: Option<real>,
    lonCentroid: Option<real>,
    isCloudband: bool,
    connectedLongitudes: bool,
    parents: set<BandId>,
    id: BandId)

  /** The orientation of a mask's first region, in degrees. It stands for
      `regionprops(mask)[0].orientation * 360 / (2 pi)`. */
  type Orientation = Grid -> real

  /** The id the constructor derives: the date and the centroid column of the first
      region, rounded half to even. None when the mask has no region at all. */
  function IdFor(mask: Grid, dateNumber: int): (id: Option<BandId>)
    ensures id.None? <==> forall r, c :: 0 <= r < |mask| && 0 <= c < |mask[r]| ==> mask[r][c] <= 0
    ensures id.Some? ==> id.value.dateNumber == dateNumber
    ensures id.Some? && WellFormed(mask) ==> 0 <= id.value.column < |mask[0]|
  {
    match Regions.FirstRegion(mask)
    case None => None
    case Some(l) =>
      var col := Regions.Centroid(mask, l).1;
      if WellFormed(mask) then
        Regions.CentroidInside(mask, l, |mask|, |mask[0]|);
        RoundWithin(col, |mask[0]| - 1);
        Some(BandId(dateNumber, Misc.RoundHalfEven(col)))
      else Some(BandId(dateNumber, Misc.RoundHalfEven(col)))
  }

  /** Rounding a value of [0, n] stays in [0, n]. */
  lemma RoundWithin(x: real, n: int)
    requires 0.0 <= x <= n as real
    ensures 0 <= Misc.RoundHalfEven(x) <= n
  {
  }

  /**
   * `CloudBand(...)`: stores its arguments, computes the angle and the id, and fails
   * like `regionprops(...)[0]` when the mask has no positive pixel.
   */
  function New(mask: Grid, area: real, lats: CoordMap, lons: CoordMap, dateNumber: int,
               isCloudband: bool, connectedLongitudes: bool, parents: set<BandId>,
               orientation: Orientation): (r: Result<CloudBand>)
    ensures r.Failure? <==> forall i, j :: 0 <= i < |mask| && 0 <= j < |mask[i]| ==> mask[i][j] <= 0
    ensures r.Failure? ==> r.error == IndexError
    ensures r.Success? ==>
      var c := r.value;
      c.mask == mask && c.area == area && c.lats == lats && c.lons == lons &&
      c.dateNumber == dateNumber && c.isCloudband == isCloudband &&
      c.connectedLongitudes == connectedLongitudes && c.parents == parents &&
      c.latCentroid.None? && c.lonCentroid.None? &&
      c.angle == orientation(mask) && Some(c.id) == IdFor(mask, dateNumber)
  {
    match IdFor(mask, dateNumber)
    case None => Failure(IndexError)
    case Some(id) =>
      Success(CloudBand(mask, area, lats, lons, dateNumber, orientation(mask), None, None,
                        isCloudband, connectedLongitudes, parents, id))
  }

  /** The constructor with its defaults: a cloud band, not connected, with no parents.
      The source's default set is one object shared by all such records; here each
      record holds the empty set as a value. */
  function NewWithDefaults(mask: Grid, area: real, lats: CoordMap, lons: CoordMap, dateNumber: int,
                           orientation: Orientation): (r: Result<CloudBand>)
    ensures r.Success? ==> r.value.isCloudband && !r.value.connectedLongitudes && r.value.parents == {}
    ensures r.Success? <==> exists i, j :: 0 <= i < |mask| && 0 <= j < |mask[i]| && mask[i][j] > 0
  {
    New(mask, area, lats, lons, dateNumber, true, false, {}, orientation)
  }

  /** The record's angle and id are those its constructor computes from its mask and date. */
  predicate Built(c: CloudBand, orientation: Orientation) {
    IdFor(c.mask, c.dateNumber) == Some(c.id) && c.angle == orientation(c.mask)
  }

  /** The id depends on nothing but the mask and the date. */
  lemma IdFromMaskAndDate(a: CloudBand, b: CloudBand, orientation: Orientation)
    requires Built(a, orientation) && Built(b, orientation)
    requires a.mask == b.mask && a.dateNumber == b.dateNumber
    ensures a.id == b.id && a.angle == b.angle
  {
  }

  /** Values of the dictionary form. */
  datatype Value =
    | ArrayValue(grid: Grid)
    | RealValue(x: real)
    | MapValue(coords: CoordMap)
    | IntValue(n: int)
    | BoolValue(b: bool)
    | IdSetValue(ids: set<BandId>)

  type Dict = map<string, Value>

  const DictKeys: set<string> := {"cloud_band_array", "area", "lats", "lons", "date_number",
                                  "connected_longitudes", "iscloudband", "parents"}

  /** `todict`: exactly eight keys, each holding the field of the same name. */
  function ToDict(c: CloudBand): (d: Dict)
    ensures d.Keys == DictKeys
    ensures d["cloud_band_array"] == ArrayValue(c.mask) && d["area"] == RealValue(c.area)
    ensures d["lats"] == MapValue(c.lats) && d["lons"] == MapValue(c.lons)
    ensures d["date_number"] == IntValue(c.dateNumber) && d["parents"] == IdSetValue(c.parents)
    ensures d["connected_longitudes"] == BoolValue(c.connectedLongitudes)
    ensures d["iscloudband"] == BoolValue(c.isCloudband)
  {
    map["cloud_band_array" := ArrayValue(c.mask), "area" := RealValue(c.area),
        "lats" := MapValue(c.lats), "lons" := MapValue(c.lons),
        "date_number" := IntValue(c.dateNumber),
        "connected_longitudes" := BoolValue(c.connectedLongitudes),
        "iscloudband" := BoolValue(c.isCloudband), "parents" := IdSetValue(c.parents)]
  }

  /** The first key of `keys`, in order, that the dictionary lacks. */
  function FirstMissing(d: Dict, keys: seq<string>): (k: Option<string>)
    ensures k.None? <==> forall i :: 0 <= i < |keys| ==> keys[i] in d
    ensures k.Some? ==> k.value in keys && k.value !in d
    ensures k.Some? ==> exists i :: 0 <= i < |keys| && keys[i] == k.value &&
                                    (forall j :: 0 <= j < i ==> keys[j] in d)
  {
    if |keys| == 0 then None
    else if keys[0] !in d then Some(keys[0])
    else
      var rest := FirstMissing(d, keys[1..]);
      assert forall i :: 1 <= i < |keys| ==> keys[i] == keys[1..][i - 1];
      if rest.Some? then
        var i :| 0 <= i < |keys[1..]| && keys[1..][i] == rest.value && forall j :: 0 <= j < i ==> keys[1..][j] in d;
        assert keys[i + 1] == rest.value;
        rest
      else rest
  }

  /** The keys in the order `fromdict` reads them. */
  const FromDictOrder: seq<string> := ["cloud_band_array", "area", "lats", "lons", "date_number",
                                       "connected_longitudes", "iscloudband", "parents"]

  /** The keys in the order `fromfile` reads them. */
  const FromFileOrder: seq<string> := ["cloud_band_array", "area", "lats", "lons", "date_number",
                                       "iscloudband", "connected_longitudes", "parents"]

  /** The keys holding the two flags. */
  const FlagKeys: set<string> := {"connected_longitudes", "iscloudband"}

  /** Every key is present and holds a value of the field's kind. */
  predicate WellTyped(d: Dict) {
    DictKeys <= d.Keys &&
    d["cloud_band_array"].ArrayValue? && d["area"].RealValue? && d["lats"].MapValue? &&
    d["lons"].MapValue? && d["date_number"].IntValue? && d["connected_longitudes"].BoolValue? &&
    d["iscloudband"].BoolValue? && d["parents"].IdSetValue?
  }

  /** The mask has a positive pixel, so `regionprops` finds a first region in it. */
  predicate HasRegion(mask: Grid) {
    exists i, j :: 0 <= i < |mask| && 0 <= j < |mask[i]| && mask[i][j] > 0
  }

  /** c holds what the dictionary holds: the mask, area, coordinate maps, date and parents
      read, the flag under `first` as `iscloudband` and the one under `second` as
      `connected_longitudes`, no centroid coordinates, and the angle and id its
      constructor derives. */
  predicate Loaded(c: CloudBand, d: Dict, first: string, second: string, orientation: Orientation)
    requires WellTyped(d) && first in FlagKeys && second in FlagKeys
  {
    c.mask == d["cloud_band_array"].grid && c.area == d["area"].x &&
    c.lats == d["lats"].coords && c.lons == d["lons"].coords &&
    c.dateNumber == d["date_number"].n && c.parents == d["parents"].ids &&
    c.isCloudband == d[first].b && c.connectedLongitudes == d[second].b &&
    c.latCentroid.None? && c.lonCentroid.None? && Built(c, orientation)
  }

  /** Builds a record from a dictionary, handing the two flags to the constructor in the
      order given: `first` goes to the `iscloudband` slot, `second` to `connected_longitudes`. */
  function Rebuild(d: Dict, order: seq<string>, first: string, second: string,
                   orientation: Orientation): (r: Result<CloudBand>)
    requires first in FlagKeys && second in FlagKeys
    ensures FirstMissing(d, order).Some? ==> r == Failure(KeyError(FirstMissing(d, order).value))
    ensures FirstMissing(d, order).None? && DictKeys <= d.Keys && !WellTyped(d) ==> r == Failure(TypeError)
    ensures r.Success? <==> FirstMissing(d, order).None? && WellTyped(d) && HasRegion(d["cloud_band_array"].grid)
    ensures FirstMissing(d, order).None? && WellTyped(d) && !HasRegion(d["cloud_band_array"].grid) ==>
      r == Failure(IndexError)
    ensures r.Success? ==> WellTyped(d) && Loaded(r.value, d, first, second, orientation)
  {
    match FirstMissing(d, order)
    case Some(k) => Failure(KeyError(k))
    case None =>
      if !(DictKeys <= d.Keys) || !WellTyped(d) then Failure(TypeError)
      else
        New(d["cloud_band_array"].grid, d["area"].x, d["lats"].coords, d["lons"].coords,
            d["date_number"].n, d[first].b, d[second].b, d["parents"].ids, orientation)
  }

  /** `fromdict`: the value stored under `connected_longitudes` lands in the `iscloudband`
      slot and the other way round. */
  function FromDict(d: Dict, orientation: Orientation): (r: Result<CloudBand>)
    ensures r.Success? ==> WellTyped(d) &&
                           r.value.isCloudband == d["connected_longitudes"].b &&
                           r.value.connectedLongitudes == d["iscloudband"].b
    ensures (forall k :: k in DictKeys ==> k !in d) ==> r == Failure(KeyError("cloud_band_array"))
    ensures FirstMissing(d, FromDictOrder).Some? ==> r == Failure(KeyError(FirstMissing(d, FromDictOrder).value))
    ensures r.Success? <==> FirstMissing(d, FromDictOrder).None? && WellTyped(d) && HasRegion(d["cloud_band_array"].grid)
    ensures r.Failure? && FirstMissing(d, FromDictOrder).None? ==>
      r.error == if WellTyped(d) then IndexError else TypeError
    ensures r.Success? ==> WellTyped(d) && Loaded(r.value, d, "connected_longitudes", "iscloudband", orientation)
  {
    Rebuild(d, FromDictOrder, "connected_longitudes", "iscloudband", orientation)
  }

  /** A pickle file holding one dictionary; pickling is taken to be exact. */
  datatype PickleFile = PickleFile(payload: Dict)

  /** `tofile` pickles the same eight-key dictionary `todict` returns. */
  function ToFile(c: CloudBand): (f: PickleFile)
    ensures f.payload.Keys == DictKeys && WellTyped(f.payload)
    ensures f.payload["cloud_band_array"] == ArrayValue(c.mask) && f.payload["area"] == RealValue(c.area)
    ensures f.payload["lats"] == MapValue(c.lats) && f.payload["lons"] == MapValue(c.lons)
    ensures f.payload["date_number"] == IntValue(c.dateNumber) && f.payload["parents"] == IdSetValue(c.parents)
    ensures f.payload["iscloudband"] == BoolValue(c.isCloudband)
    ensures f.payload["connected_longitudes"] == BoolValue(c.connectedLongitudes)
  {
    PickleFile(ToDict(c))
  }

  /** `fromfile`: the flags go to the constructor in its own order. */
  function FromFile(f: PickleFile, orientation: Orientation): (r: Result<CloudBand>)
    ensures r.Success? ==> WellTyped(f.payload) &&
                           r.value.isCloudband == f.payload["iscloudband"].b &&
                           r.value.connectedLongitudes == f.payload["connected_longitudes"].b
    ensures FirstMissing(f.payload, FromFileOrder).Some? ==>
      r == Failure(KeyError(FirstMissing(f.payload, FromFileOrder).value))
    ensures r.Success? <==> FirstMissing(f.payload, FromFileOrder).None? && WellTyped(f.payload) &&
                            HasRegion(f.payload["cloud_band_array"].grid)
    ensures r.Failure? && FirstMissing(f.payload, FromFileOrder).None? ==>
      r.error == if WellTyped(f.payload) then IndexError else TypeError
    ensures r.Success? ==> WellTyped(f.payload) &&
                           Loaded(r.value, f.payload, "iscloudband", "connected_longitudes", orientation)
  {
    Rebuild(f.payload, FromFileOrder, "iscloudband", "connected_longitudes", orientation)
  }

  /** A record whose mask has a region comes back from its dictionary with the mask, area,
      coordinate maps, date and parents intact, the id and angle recomputed from them, no
      centroid coordinates, and the two flags exchanged. */
  lemma DictRoundTrip(c: CloudBand, orientation: Orientation)
    requires exists i, j :: 0 <= i < |c.mask| && 0 <= j < |c.mask[i]| && c.mask[i][j] > 0
    ensures FromDict(ToDict(c), orientation).Success?
    ensures var b := FromDict(ToDict(c), orientation).value;
      b.mask == c.mask && b.area == c.area && b.lats == c.lats && b.lons == c.lons &&
      b.dateNumber == c.dateNumber && b.parents == c.parents &&
      b.isCloudband == c.connectedLongitudes && b.connectedLongitudes == c.isCloudband &&
      b.latCentroid.None? && b.lonCentroid.None? && Built(b, orientation) &&
      (Built(c, orientation) ==> b.id == c.id && b.angle == c.angle)
  {
    var d := ToDict(c);
    assert FirstMissing(d, FromDictOrder).None?;
    assert WellTyped(d);
  }

  /** So the dictionary form keeps the flags exactly when they are equal. */
  lemma DictFlagsSurvive(c: CloudBand, orientation: Orientation)
    requires exists i, j :: 0 <= i < |c.mask| && 0 <= j < |c.mask[i]| && c.mask[i][j] > 0
    ensures var b := FromDict(ToDict(c), orientation).value;
      (b.isCloudband == c.isCloudband && b.connectedLongitudes == c.connectedLongitudes)
        <==> c.isCloudband == c.connectedLongitudes
  {
    DictRoundTrip(c, orientation);
  }

  /** Through a file, every stored field of a constructed record survives. */
  lemma FileRoundTrip(c: CloudBand, orientation: Orientation)
    requires Built(c, orientation)
    ensures FromFile(ToFile(c), orientation) == Success(c.(latCentroid := None, lonCentroid := None))
  {
    var d := ToFile(c).payload;
    assert FirstMissing(d, FromFileOrder).None?;
    assert WellTyped(d);
  }
}

=== FILE: detection.dfy ===
/**
 * The image pipeline of `blob_detection`: threshold choice, clamping, binarisation,
 * hole filling, dilation, labelling, the optional merge across the longitude seam and
 * the area filter.
 */
module Detection {
  import opened Grids
  import Labels
  import AreaFilter

  /**
   * The library routines the pipeline calls, passed in as functions: Yen and Otsu
   * thresholds, `binary_fill_holes`, `morphology.dilation`, `measure.label` and the
   * orientation of `regionprops`.
   */
  datatype ImageLibrary = ImageLibrary(
    yen: Field -> real,
    otsu: Field -> real,
    fillHoles: Mask -> Mask,
    dilate: Mask -> Mask,
    labelBlobs: Mask -> Grid,
    orientation: Grid -> real)

  /** b has a's shape and every pixel set in a. */
  predicate Extends(a: Mask, b: Mask) {
    SameShape(a, b) && forall r, c :: 0 <= r < |a| && 0 <= c < |a[r]| ==> a[r][c] ==> b[r][c]
  }

  /** g labels m: label 0 exactly on the background, labels small enough for `uint8`. */
  predicate LabelsOf(m: Mask, g: Grid) {
    SameShape(m, g) && FitsUint8(g) &&
    forall r, c :: 0 <= r < |m| && 0 <= c < |m[r]| ==> (g[r][c] == 0 <==> !m[r][c])
  }

  /** What the pipeline relies on: filling and dilating only add pixels, labelling keeps
      the background at 0 and every label within `uint8`. */
  ghost predicate ValidLibrary(lib: ImageLibrary) {
    (forall m: Mask :: Extends(m, lib.fillHoles(m))) &&
    (forall m: Mask :: Extends(m, lib.dilate(m))) &&
    (forall m: Mask :: LabelsOf(m, lib.labelBlobs(m)))
  }

  /** The detection parameters read from the configuration. */
  datatype Parameters = Parameters(
    thresholdingMethod: string,
    olrThreshold: real,
    areaThreshold: real,
    topLatitude: real,
    bottomLatitude: real,
    angleMin: real,
    angleMax: real)

  datatype ThresholdMethod = Yen | Otsu | Fixed

  function LowerChar(ch: char): (l: char)
    ensures 'A' <= ch <= 'Z' ==> 'a' <= l <= 'z' && l as int - ch as int == 32
    ensures !('A' <= ch <= 'Z') ==> l == ch
  {
    if 'A' <= ch <= 'Z' then (ch as int + 32) as char else ch
  }

  /** `str.lower` on the ASCII letters. */
  function Lower(s: string): (t: string)
    ensures |t| == |s| && forall i :: 0 <= i < |s| ==> t[i] == LowerChar(s[i])
  {
    seq(|s|, i requires 0 <= i < |s| => LowerChar(s[i]))
  }

  /** `thresholding_method`, compared case-insensitively; anything else means the fixed OLR threshold. */
  function ParseMethod(s: string): (m: ThresholdMethod)
    ensures m == Yen <==> Lower(s) == "yen"
    ensures m == Otsu <==> Lower(s) == "otsu"
    ensures m == Fixed <==> Lower(s) != "yen" && Lower(s) != "otsu"
  {
    var l := Lower(s);
    if l == "yen" then Yen else if l == "otsu" then Otsu else Fixed
  }

  /** The threshold, computed from the field as it arrives, before any clamping. */
  function Threshold(p: Parameters, field: Field, lib: ImageLibrary): (t: real)
    ensures Lower(p.thresholdingMethod) == "yen" ==> t == lib.yen(field)
    ensures Lower(p.thresholdingMethod) == "otsu" ==> t == lib.otsu(field)
    ensures ParseMethod(p.thresholdingMethod) == Fixed ==> t == p.olrThreshold
  {
    match ParseMethod(p.thresholdingMethod)
    case Yen => lib.yen(field)
    case Otsu => lib.otsu(field)
    case Fixed => p.olrThreshold
  }

  /** Missing values (negatives) are set to 0; everything else is kept. */
  function Clamp(field: Field): (f: Field)
    ensures SameShape(f, field)
    ensures forall r, c :: 0 <= r < |field| && 0 <= c < |field[r]| ==>
      f[r][c] >= 0.0 && (field[r][c] >= 0.0 ==> f[r][c] == field[r][c]) && (field[r][c] < 0.0 ==> f[r][c] == 0.0)
  {
    seq(|field|, r requires 0 <= r < |field| =>
      seq(|field[r]|, c requires 0 <= c < |field[r]| => if field[r][c] < 0.0 then 0.0 else field[r][c]))
  }

  /** Clamping a field without missing values changes nothing, and clamping twice is clamping once. */
  lemma ClampIdempotent(field: Field)
    ensures (forall r, c :: 0 <= r < |field| && 0 <= c < |field[r]| ==> field[r][c] >= 0.0) ==> Clamp(field) == field
    ensures Clamp(Clamp(field)) == Clamp(field)
  {
    var f := Clamp(field);
    if forall r, c :: 0 <= r < |field| && 0 <= c < |field[r]| ==> field[r][c] >= 0.0 {
      assert forall r :: 0 <= r < |field| ==> f[r] == field[r];
    }
    var g := Clamp(f);
    assert forall r :: 0 <= r < |f| ==> g[r] == f[r];
  }

  /** Cloud pixels: value strictly below the threshold. */
  function Binarise(field: Field, threshold: real): (m: Mask)
    ensures SameShape(m, field)
    ensures forall r, c :: 0 <= r < |field| && 0 <= c < |field[r]| ==> (m[r][c] <==> field[r][c] < threshold)
  {
    seq(|field|, r requires 0 <= r < |field| =>
      seq(|field[r]|, c requires 0 <= c < |field[r]| => field[r][c] < threshold))
  }

  /** The clamped field binarised: a pixel is cloud exactly when its value, with missing
      values read as 0, is strictly below the threshold. */
  function CloudPixels(field: Field, threshold: real): (m: Mask)
    ensures SameShape(m, field)
    ensures forall r, c :: 0 <= r < |field| && 0 <= c < |field[r]| ==>
      (m[r][c] <==> (if field[r][c] < 0.0 then 0.0 else field[r][c]) < threshold)
  {
    Binarise(Clamp(field), threshold)
  }

  /** The four maps `blob_detection` returns, with the threshold and the binarised field
      it went through. */
  datatype Stages = Stages(
    threshold: real,
    binarised: Mask,
    filled: Mask,
    dilation: Mask,
    blobs: Grid,
    candidates: Grid)

  /** The label map: `measure.label` on the dilated mask, merged across the seam when asked. */
  function Blobs(dilation: Mask, connect: bool, lib: ImageLibrary): (blobs: Grid)
    requires NoEmptyRow(dilation) && ValidLibrary(lib)
    ensures SameShape(blobs, dilation) && NoEmptyRow(blobs) && FitsUint8(blobs)
    ensures forall r, c :: 0 <= r < |dilation| && 0 <= c < |dilation[r]| ==> (blobs[r][c] == 0 <==> !dilation[r][c])
    ensures !connect ==> blobs == lib.labelBlobs(dilation)
    ensures connect ==> blobs == Labels.ConnectLongitudes(lib.labelBlobs(dilation))
  {
    var labelled := lib.labelBlobs(dilation);
    assert LabelsOf(dilation, labelled);
    if connect then Labels.ConnectLongitudes(labelled) else labelled
  }

  /** `blob_detection` for one time step. */
  function BlobDetection(field: Field, p: Parameters, res: seq<real>, connect: bool,
                         lib: ImageLibrary): (s: Stages)
    requires NoEmptyRow(field) && |res| == |field| && ValidLibrary(lib)
    ensures s.threshold == Threshold(p, field, lib)
    ensures s.binarised == CloudPixels(field, s.threshold)
    ensures s.filled == lib.fillHoles(s.binarised) && s.dilation == lib.dilate(s.filled)
    ensures Extends(s.binarised, s.filled) && Extends(s.filled, s.dilation) && SameShape(s.dilation, field)
    ensures s.blobs == Blobs(s.dilation, connect, lib)
    ensures s.candidates == AreaFilter.LabelledCandidates(s.blobs, res, p.areaThreshold)
    ensures SameShape(s.candidates, field) && FitsUint8(s.candidates)
  {
    var threshold := Threshold(p, field, lib);
    var binarised := CloudPixels(field, threshold);
    var filled := lib.fillHoles(binarised);
    var dilation := lib.dilate(filled);
    assert Extends(binarised, filled) && Extends(filled, dilation);
    Grids.SameShapeTrans(field, binarised, filled);
    Grids.SameShapeTrans(field, filled, dilation);
    var blobs := Blobs(dilation, connect, lib);
    var candidates := AreaFilter.LabelledCandidates(blobs, res, p.areaThreshold);
    Grids.SameShapeTrans(candidates, blobs, dilation);
    Grids.SameShapeTrans(candidates, dilation, field);
    Stages(threshold, binarised, filled, dilation, blobs, candidates)
  }
}

=== FILE: grids.dfy ===
/** Rasters shared by detection and tracking: row index = latitude, column index = longitude. */
module Grids {

  /** Label maps and 0/1 masks (the source's integer numpy arrays). */
  type Grid = seq<seq<int>>

  /** Boolean rasters (binarised, filled and dilated fields). */
  type Mask = seq<seq<bool>>

  /** Real-valued rasters (the OLR field of one time step). */
  type Field = seq<seq<real>>

  predicate IsRect<T>(g: seq<seq<T>>, rows: nat, cols: nat) {
    |g| == rows && forall r :: 0 <= r < |g| ==> |g[r]| == cols
  }

  /** A non-empty rectangular raster, as every 2-D numpy array of the pipeline is. */
  predicate WellFormed<T>(g: seq<seq<T>>) {
    |g| > 0 && |g[0]| > 0 && IsRect(g, |g|, |g[0]|)
  }

  predicate SameShape<T, U>(a: seq<seq<T>>, b: seq<seq<U>>) {
    |a| == |b| && forall r :: 0 <= r < |a| ==> |a[r]| == |b[r]|
  }

  /** Having the same shape is symmetric and transitive. */
  lemma SameShapeTrans<A, B, C>(a: seq<seq<A>>, b: seq<seq<B>>, c: seq<seq<C>>)
    requires SameShape(a, b) || SameShape(b, a)
    requires SameShape(b, c) || SameShape(c, b)
    ensures SameShape(a, c) && SameShape(c, a)
  {
  }

  /** No row is empty: enough for a maximum to exist. */
  predicate NoEmptyRow<T>(g: seq<seq<T>>) {
    |g| > 0 && forall r :: 0 <= r < |g| ==> |g[r]| > 0
  }

  predicate NonNegative(g: Grid) {
    forall r, c :: 0 <= r < |g| && 0 <= c < |g[r]| ==> g[r][c] >= 0
  }

  /** Every value fits the source's `uint8` label arrays. */
  predicate FitsUint8(g: Grid) {
    forall r, c :: 0 <= r < |g| && 0 <= c < |g[r]| ==> 0 <= g[r][c] <= 255
  }

  /** A 0/1 raster: the mask of one cloud band. */
  predicate IsBinary(g: Grid) {
    forall r, c :: 0 <= r < |g| && 0 <= c < |g[r]| ==> g[r][c] == 0 || g[r][c] == 1
  }

  /** Some pixel of g holds v (the source's `np.sum(res == v) > 0`). */
  predicate Occurs(g: Grid, v: int) {
    exists r, c :: 0 <= r < |g| && 0 <= c < |g[r]| && g[r][c] == v
  }

  /** The largest value of a row (`np.max` on one row). */
  function RowMax(row: seq<int>): (m: int)
    requires |row| > 0
    ensures forall c :: 0 <= c < |row| ==> row[c] <= m
    ensures exists c :: 0 <= c < |row| && row[c] == m
  {
    if |row| == 1 then row[0]
    else
      var m' := RowMax(row[..|row| - 1]);
      if row[|row| - 1] > m' then row[|row| - 1] else m'
  }

  /** The largest value of a raster (`np.max`); it is attained and bounds every pixel. */
  function GridMax(g: Grid): (m: int)
    requires NoEmptyRow(g)
    ensures forall r, c :: 0 <= r < |g| && 0 <= c < |g[r]| ==> g[r][c] <= m
    ensures Occurs(g, m)
  {
    if |g| == 1 then
      var m := RowMax(g[0]);
      assert exists c :: 0 <= c < |g[0]| && g[0][c] == m;
      m
    else
      var m' := GridMax(g[..|g| - 1]);
      var lastRow := g[|g| - 1];
      var last := RowMax(lastRow);
      assert exists c :: 0 <= c < |lastRow| && lastRow[c] == last;
      if last > m' then last else m'
  }

  /** `res[res == a] = b`: every pixel holding a now holds b. */
  function Replace(g: Grid, a: int, b: int): (h: Grid)
    ensures SameShape(h, g)
    ensures forall r, c :: 0 <= r < |g| && 0 <= c < |g[r]| ==>
      h[r][c] == if g[r][c] == a then b else g[r][c]
  {
    seq(|g|, r requires 0 <= r < |g| =>
      seq(|g[r]|, c requires 0 <= c < |g[r]| => if g[r][c] == a then b else g[r][c]))
  }

  /** An all-zero raster of g's shape (`np.zeros_like`). */
  function ZerosLike<T>(g: seq<seq<T>>): (z: Grid)
    ensures SameShape(z, g)
    ensures forall r, c :: 0 <= r < |z| && 0 <= c < |z[r]| ==> z[r][c] == 0
  {
    seq(|g|, r requires 0 <= r < |g| => seq(|g[r]|, c => 0))
  }

  /** Two rasters of the same shape that agree on every pixel are equal. */
  lemma GridEq(a: Grid, b: Grid)
    requires SameShape(a, b)
    requires forall r, c :: 0 <= r < |a| && 0 <= c < |a[r]| ==> a[r][c] == b[r][c]
    ensures a == b
  {
    forall r | 0 <= r < |a|
      ensures a[r] == b[r]
    {
    }
  }
}

=== FILE: io_utilities.dfy ===
/**
 * The index arithmetic of `io_utilities.py`: cropping a (time, latitude, longitude)
 * variable to a domain, with the half rotation used when the domain crosses 0 degrees,
 * the latitude-order normalisation of the loader, the time window of one day, and the
 * shape of the saved list of bands.
 */
module IoUtilities {
  import opened Wrappers
  import opened Grids
  import Misc
  import opened CloudBands

  /** A variable indexed by time, latitude and longitude. */
  type Cube = seq<Field>

  /** Every time slice has the given number of latitude rows and longitude columns. */
  predicate CubeShape(v: Cube, rows: nat, cols: nat) {
    forall t :: 0 <= t < |v| ==> IsRect(v[t], rows, cols)
  }

  /** The indices i >= from, in ascending order, with lo <= xs[i] <= hi. */
  function IndicesFrom(xs: seq<real>, lo: real, hi: real, from: nat): (ids: seq<nat>)
    requires from <= |xs|
    ensures forall k :: 0 <= k < |ids| ==> from <= ids[k] < |xs| && lo <= xs[ids[k]] <= hi
    ensures forall k, m :: 0 <= k < m < |ids| ==> ids[k] < ids[m]
    ensures forall i :: from <= i < |xs| && lo <= xs[i] <= hi ==> i in ids
    decreases |xs| - from
  {
    if from == |xs| then []
    else
      var rest := IndicesFrom(xs, lo, hi, from + 1);
      if lo <= xs[from] <= hi then [from] + rest else rest
  }

  /** `[id for id, el in enumerate(xs) if el <= hi if el >= lo]`: ascending, and exactly
      the indices of the values within [lo, hi]. */
  function IndicesWithin(xs: seq<real>, lo: real, hi: real): (ids: seq<nat>)
    ensures forall k :: 0 <= k < |ids| ==> ids[k] < |xs| && lo <= xs[ids[k]] <= hi
    ensures forall k, m :: 0 <= k < m < |ids| ==> ids[k] < ids[m]
    ensures forall i :: 0 <= i < |xs| ==> (i in ids <==> lo <= xs[i] <= hi)
    ensures |ids| <= |xs|
  {
    var ids := IndicesFrom(xs, lo, hi, 0);
    AscendingBounded(ids, |xs|);
    ids
  }

  /** Strictly ascending indices below n are at most n in number. */
  lemma {:induction false} AscendingBounded(ids: seq<nat>, n: nat)
    requires forall k :: 0 <= k < |ids| ==> ids[k] < n
    requires forall k, m :: 0 <= k < m < |ids| ==> ids[k] < ids[m]
    ensures |ids| <= n
    decreases n
  {
    if |ids| > 0 {
      var init := ids[..|ids| - 1];
      assert forall k :: 0 <= k < |init| ==> init[k] == ids[k] && init[k] < ids[|ids| - 1] <= n - 1;
      AscendingBounded(init, n - 1);
    }
  }

  /** `xs[ids]`: the values at the given indices, in the order of the indices. */
  function Gather<T>(xs: seq<T>, ids: seq<nat>): (ys: seq<T>)
    requires forall k :: 0 <= k < |ids| ==> ids[k] < |xs|
    ensures |ys| == |ids| && forall k :: 0 <= k < |ids| ==> ys[k] == xs[ids[k]]
  {
    seq(|ids|, k requires 0 <= k < |ids| => xs[ids[k]])
  }

  /** `subset_longitudes`: the ascending indices of exactly the longitudes within
      [west, east], and those longitudes. */
  function SubsetLongitudes(lonsIn: seq<real>, west: real, east: real): (sub: (seq<nat>, seq<real>))
    ensures sub.0 == IndicesWithin(lonsIn, west, east)
    ensures |sub.1| == |sub.0| && forall k :: 0 <= k < |sub.0| ==> sub.1[k] == lonsIn[sub.0[k]]
    ensures forall k :: 0 <= k < |sub.1| ==> west <= sub.1[k] <= east
  {
    var ids := IndicesWithin(lonsIn, west, east);
    (ids, Gather(lonsIn, ids))
  }

  /** `subset_latitudes`: the ascending indices of exactly the latitudes within
      [south, north], and those latitudes. */
  function SubsetLatitudes(latsIn: seq<real>, north: real, south: real): (sub: (seq<nat>, seq<real>))
    ensures sub.0 == IndicesWithin(latsIn, south, north)
    ensures |sub.1| == |sub.0| && forall k :: 0 <= k < |sub.0| ==> sub.1[k] == latsIn[sub.0[k]]
    ensures forall k :: 0 <= k < |sub.1| ==> south <= sub.1[k] <= north
  {
    var ids := IndicesWithin(latsIn, south, north);
    (ids, Gather(latsIn, ids))
  }

  /** `concatenate((s[h:], s[:h]))`: element k comes from position (k + h) mod |s|. */
  function Rotate<T>(s: seq<T>, h: nat): (r: seq<T>)
    requires h <= |s|
    ensures |r| == |s|
    ensures forall k :: 0 <= k < |s| ==> r[k] == s[(k + h) % |s|]
  {
    RotateIndex(s, h);
    s[h..] + s[..h]
  }

  lemma RotateIndex<T>(s: seq<T>, h: nat)
    requires h <= |s|
    ensures forall k :: 0 <= k < |s| ==> (s[h..] + s[..h])[k] == s[(k + h) % |s|]
  {
    var r := s[h..] + s[..h];
    forall k | 0 <= k < |s| ensures r[k] == s[(k + h) % |s|] {
      ModWrap(k + h, |s|);
    }
  }

  /** A value below twice the modulus wraps at most once. */
  lemma ModWrap(x: int, n: int)
    requires 0 <= x < 2 * n
    ensures x < n ==> x % n == x
    ensures n <= x ==> x % n == x - n
  {
    if n <= x {
      assert x == n * 1 + (x - n);
    }
  }

  /** Python's `s[a:b]` for indices within the sequence: empty when a >= b. */
  function PySlice<T>(s: seq<T>, a: nat, b: nat): (r: seq<T>)
    requires a <= |s| && b <= |s|
    ensures a <= b ==> |r| == b - a
    ensures a > b ==> r == []
    ensures forall k :: 0 <= k < |r| ==> a + k < |s| && r[k] == s[a + k]
  {
    if a <= b then s[a..b] else []
  }

  /** The first index holding x, if any. */
  function FirstIndexOf<T(==)>(xs: seq<T>, x: T): (i: Option<nat>)
    ensures i.None? <==> forall j :: 0 <= j < |xs| ==> xs[j] != x
    ensures i.Some? ==> i.value < |xs| && xs[i.value] == x && forall j :: 0 <= j < i.value ==> xs[j] != x
  {
    if |xs| == 0 then None
    else if xs[0] == x then Some(0)
    else
      match FirstIndexOf(xs[1..], x)
      case None => None
      case Some(j) => Some(j + 1)
  }

  /** The input longitudes wrapped to (-180, 180] and rotated by half their number. */
  function Wrapped(lonsIn: seq<real>): (w: seq<real>)
    ensures |w| == |lonsIn|
    ensures forall k :: 0 <= k < |lonsIn| ==> w[k] == Misc.WrapTo180(lonsIn[(k + |lonsIn| / 2) % |lonsIn|])
  {
    Rotate(Misc.WrapTo180Array(lonsIn), |lonsIn| / 2)
  }

  /** Every row of every time slice rotated by h columns (`np.dstack` of the two halves). */
  function RotateColumns(v: Cube, h: nat, rows: nat, cols: nat): (w: Cube)
    requires CubeShape(v, rows, cols) && h <= cols
    ensures |w| == |v| && CubeShape(w, rows, cols)
    ensures forall t, y, x :: 0 <= t < |v| && 0 <= y < rows && 0 <= x < cols ==> w[t][y][x] == v[t][y][(x + h) % cols]
  {
    seq(|v|, t requires 0 <= t < |v| => seq(rows, y requires 0 <= y < rows => Rotate(v[t][y], h)))
  }

  /** The length of `s[a:b]` for bounds within s. */
  function SliceWidth(a: nat, b: nat): nat {
    if a <= b then b - a else 0
  }

  /** `v[..., a:b]` for column indices within the rows. */
  function SliceColumns(v: Cube, a: nat, b: nat, rows: nat, cols: nat): (w: Cube)
    requires CubeShape(v, rows, cols) && a <= cols && b <= cols
    ensures |w| == |v| && CubeShape(w, rows, SliceWidth(a, b))
    ensures forall t, y, x :: 0 <= t < |v| && 0 <= y < rows && 0 <= x < |w[t][y]| ==> a + x < cols && w[t][y][x] == v[t][y][a + x]
  {
    seq(|v|, t requires 0 <= t < |v| => seq(rows, y requires 0 <= y < rows => PySlice(v[t][y], a, b)))
  }

  /** `v[..., ids]`: the given columns, in the order of the indices. */
  function SelectColumns(v: Cube, ids: seq<nat>, rows: nat, cols: nat): (w: Cube)
    requires CubeShape(v, rows, cols) && forall k :: 0 <= k < |ids| ==> ids[k] < cols
    ensures |w| == |v| && CubeShape(w, rows, |ids|)
    ensures forall t, y, x :: 0 <= t < |v| && 0 <= y < rows && 0 <= x < |ids| ==> w[t][y][x] == v[t][y][ids[x]]
  {
    seq(|v|, t requires 0 <= t < |v| => seq(rows, y requires 0 <= y < rows => Gather(v[t][y], ids)))
  }

  /** `v[..., ids, :]`: the given latitude rows, in the order of the indices. */
  function SelectRows(v: Cube, ids: seq<nat>, rows: nat, cols: nat): (w: Cube)
    requires CubeShape(v, rows, cols) && forall k :: 0 <= k < |ids| ==> ids[k] < rows
    ensures |w| == |v| && CubeShape(w, |ids|, cols)
    ensures forall t, y, x :: 0 <= t < |v| && 0 <= y < |ids| && 0 <= x < cols ==> w[t][y][x] == v[t][ids[y]][x]
  {
    seq(|v|, t requires 0 <= t < |v| => Gather(v[t], ids))
  }

  /** The cropped variable with its longitudes and latitudes. */
  datatype Crop = Crop(variable: Cube, lons: seq<real>, lats: seq<real>)

  /** The domain crosses 0 degrees: the eastern bound is smaller than the western one. */
  predicate CrossesZero(west: real, east: real) {
    east < west
  }

  /** The input column that column x of a slice starting at iw of the half-rotated
      columns comes from. */
  function SourceColumn(iw: nat, x: nat, n: nat): (j: nat)
    requires n > 0
    ensures j < n
  {
    (iw + x + n / 2) % n
  }

  /** The wrap branch on the longitude axis: both the wrapped longitudes and the columns
      rotated by half a turn, then sliced to [iw, ie). Column x of the result is input
      column (iw + x + n/2) mod n, with its longitude wrapped. */
  function ColumnsAcrossZero(v: Cube, lonsIn: seq<real>, iw: nat, ie: nat, rows: nat): (vl: (Cube, seq<real>))
    requires CubeShape(v, rows, |lonsIn|) && iw <= |lonsIn| && ie <= |lonsIn|
    ensures |vl.0| == |v| && CubeShape(vl.0, rows, SliceWidth(iw, ie)) && vl.1 == PySlice(Wrapped(lonsIn), iw, ie)
    ensures forall x :: 0 <= x < |vl.1| ==>
      iw + x < |lonsIn| && vl.1[x] == Misc.WrapTo180(lonsIn[SourceColumn(iw, x, |lonsIn|)])
    ensures forall t, y, x :: 0 <= t < |v| && 0 <= y < rows && 0 <= x < |vl.1| ==>
      iw + x < |lonsIn| && vl.0[t][y][x] == v[t][y][SourceColumn(iw, x, |lonsIn|)]
  {
    var cols := |lonsIn|;
    var rotated := RotateColumns(v, cols / 2, rows, cols);
    var sliced := SliceColumns(rotated, iw, ie, rows, cols);
    ColumnsSourced(v, rotated, sliced, iw, ie, rows, cols);
    LonsSourced(lonsIn, iw, ie);
    (sliced, PySlice(Wrapped(lonsIn), iw, ie))
  }

  /** Column x of the rotated-then-sliced cube is input column SourceColumn(iw, x, cols). */
  lemma ColumnsSourced(v: Cube, rotated: Cube, sliced: Cube, iw: nat, ie: nat, rows: nat, cols: nat)
    requires CubeShape(v, rows, cols) && iw <= cols && ie <= cols
    requires rotated == RotateColumns(v, cols / 2, rows, cols)
    requires sliced == SliceColumns(rotated, iw, ie, rows, cols)
    ensures forall t, y, x :: 0 <= t < |v| && 0 <= y < rows && 0 <= x < SliceWidth(iw, ie) ==>
      iw + x < cols && sliced[t][y][x] == v[t][y][SourceColumn(iw, x, cols)]
  {
    forall t, y, x | 0 <= t < |v| && 0 <= y < rows && 0 <= x < SliceWidth(iw, ie)
      ensures iw + x < cols && sliced[t][y][x] == v[t][y][SourceColumn(iw, x, cols)]
    {
      assert sliced[t][y][x] == rotated[t][y][iw + x];
    }
  }

  /** Entry x of the sliced wrapped longitudes is the wrapped longitude of input column
      SourceColumn(iw, x, |lonsIn|). */
  lemma LonsSourced(lonsIn: seq<real>, iw: nat, ie: nat)
    requires iw <= |lonsIn| && ie <= |lonsIn|
    ensures var l := PySlice(Wrapped(lonsIn), iw, ie);
      forall x :: 0 <= x < |l| ==> iw + x < |lonsIn| && l[x] == Misc.WrapTo180(lonsIn[SourceColumn(iw, x, |lonsIn|)])
  {
  }

  /** The plain branch on the longitude axis: the columns whose longitude lies in
      [west, east], in order. */
  function ColumnsWithin(v: Cube, lonsIn: seq<real>, west: real, east: real, rows: nat): (vl: (Cube, seq<real>))
    requires CubeShape(v, rows, |lonsIn|)
    ensures var ids := SubsetLongitudes(lonsIn, west, east).0;
      |vl.0| == |v| && CubeShape(vl.0, rows, |ids|) && vl.1 == SubsetLongitudes(lonsIn, west, east).1 &&
      forall t, y, x :: 0 <= t < |v| && 0 <= y < rows && 0 <= x < |ids| ==> vl.0[t][y][x] == v[t][y][ids[x]]
  {
    var lon := SubsetLongitudes(lonsIn, west, east);
    (SelectColumns(v, lon.0, rows, |lonsIn|), lon.1)
  }

  /**
   * `get_variable_lonlat_from_domain`. Across 0 degrees the longitudes are wrapped to
   * (-180, 180], both they and the variable's columns are rotated by half a turn, and the
   * slice runs from the wrapped western bound up to, but excluding, the wrapped eastern
   * bound; it fails when either bound is not a grid longitude. Otherwise the longitudes
   * within [west, east] are kept. The latitudes within [south, north] are kept in both cases.
   */
  function GetVariableLonlatFromDomain(v: Cube, lonsIn: seq<real>, latsIn: seq<real>, west: real, east: real,
                                       north: real, south: real): (r: Result<Crop>)
    requires CubeShape(v, |latsIn|, |lonsIn|)
    ensures r.Failure? <==> (CrossesZero(west, east) &&
      (Misc.WrapTo180(west) !in Wrapped(lonsIn) || Misc.WrapTo180(east) !in Wrapped(lonsIn)))
    ensures r.Failure? ==> r.error == IndexError
    ensures r.Success? ==> |r.value.variable| == |v| && CubeShape(r.value.variable, |r.value.lats|, |r.value.lons|)
    ensures r.Success? ==> r.value.lats == SubsetLatitudes(latsIn, north, south).1
    ensures r.Success? && !CrossesZero(west, east) ==> r.value.lons == SubsetLongitudes(lonsIn, west, east).1
    ensures r.Success? && CrossesZero(west, east) ==>
      var w := Wrapped(lonsIn);
      var iw := FirstIndexOf(w, Misc.WrapTo180(west)).value;
      var ie := FirstIndexOf(w, Misc.WrapTo180(east)).value;
      r.value.lons == PySlice(w, iw, ie) && |r.value.lons| == SliceWidth(iw, ie)
  {
    var rows := |latsIn|;
    var lat := SubsetLatitudes(latsIn, north, south);
    if CrossesZero(west, east) then
      var w := Wrapped(lonsIn);
      match (FirstIndexOf(w, Misc.WrapTo180(west)), FirstIndexOf(w, Misc.WrapTo180(east)))
      case (Some(iw), Some(ie)) =>
        var vl := ColumnsAcrossZero(v, lonsIn, iw, ie, rows);
        assert vl.1 == PySlice(w, iw, ie);
        Success(Crop(SelectRows(vl.0, lat.0, rows, |vl.1|), vl.1, lat.1))
      case _ => Failure(IndexError)
    else
      var vl := ColumnsWithin(v, lonsIn, west, east, rows);
      Success(Crop(SelectRows(vl.0, lat.0, rows, |vl.1|), vl.1, lat.1))
  }

  /** The longitude a grid value is reported as: wrapped to (-180, 180] across 0 degrees. */
  function ReportedLon(west: real, east: real, x: real): real {
    if CrossesZero(west, east) then Misc.WrapTo180(x) else x
  }

  /** The cropped value at (t, y, x) is the input value at some latitude row i and
      longitude column j, and the crop reports exactly those coordinates for it. */
  predicate Traceable(v: Cube, lonsIn: seq<real>, latsIn: seq<real>, west: real, east: real,
                      crop: Crop, t: nat, y: nat, x: nat)
    requires t < |v| && t < |crop.variable| && y < |crop.variable[t]| && x < |crop.variable[t][y]|
    requires y < |crop.lats| && x < |crop.lons|
  {
    exists i, j :: 0 <= i < |latsIn| && 0 <= j < |lonsIn| && i < |v[t]| && j < |v[t][i]| &&
      crop.variable[t][y][x] == v[t][i][j] && crop.lats[y] == latsIn[i] &&
      crop.lons[x] == ReportedLon(west, east, lonsIn[j])
  }

  /**
   * Every value of the cropped variable is the input value at the latitude and longitude
   * the crop reports for it: rows and columns move together with their coordinates, in
   * both branches.
   */
  lemma CropKeepsCoordinates(v: Cube, lonsIn: seq<real>, latsIn: seq<real>, west: real, east: real,
                             north: real, south: real)
    requires CubeShape(v, |latsIn|, |lonsIn|)
    ensures var r := GetVariableLonlatFromDomain(v, lonsIn, latsIn, west, east, north, south);
      r.Success? ==>
        forall t, y, x :: 0 <= t < |v| && 0 <= y < |r.value.lats| && 0 <= x < |r.value.lons| ==>
          Traceable(v, lonsIn, latsIn, west, east, r.value, t, y, x)
  {
    var r := GetVariableLonlatFromDomain(v, lonsIn, latsIn, west, east, north, south);
    if r.Success? {
      forall t, y, x | 0 <= t < |v| && 0 <= y < |r.value.lats| && 0 <= x < |r.value.lons|
        ensures Traceable(v, lonsIn, latsIn, west, east, r.value, t, y, x)
      {
        TraceOne(v, lonsIn, latsIn, west, east, north, south, t, y, x);
      }
    }
  }

  lemma TraceOne(v: Cube, lonsIn: seq<real>, latsIn: seq<real>, west: real, east: real,
                 north: real, south: real, t: nat, y: nat, x: nat)
    requires CubeShape(v, |latsIn|, |lonsIn|)
    requires GetVariableLonlatFromDomain(v, lonsIn, latsIn, west, east, north, south).Success?
    requires var crop := GetVariableLonlatFromDomain(v, lonsIn, latsIn, west, east, north, south).value;
      t < |v| && y < |crop.lats| && x < |crop.lons|
    ensures var crop := GetVariableLonlatFromDomain(v, lonsIn, latsIn, west, east, north, south).value;
      Traceable(v, lonsIn, latsIn, west, east, crop, t, y, x)
  {
    if CrossesZero(west, east) {
      TraceAcross(v, lonsIn, latsIn, west, east, north, south, t, y, x);
    } else {
      TraceWithin(v, lonsIn, latsIn, west, east, north, south, t, y, x);
    }
  }

  lemma TraceAcross(v: Cube, lonsIn: seq<real>, latsIn: seq<real>, west: real, east: real,
                    north: real, south: real, t: nat, y: nat, x: nat)
    requires CubeShape(v, |latsIn|, |lonsIn|) && CrossesZero(west, east)
    requires GetVariableLonlatFromDomain(v, lonsIn, latsIn, west, east, north, south).Success?
    requires var crop := GetVariableLonlatFromDomain(v, lonsIn, latsIn, west, east, north, south).value;
      t < |v| && y < |crop.lats| && x < |crop.lons|
    ensures var crop := GetVariableLonlatFromDomain(v, lonsIn, latsIn, west, east, north, south).value;
      Traceable(v, lonsIn, latsIn, west, east, crop, t, y, x)
  {
    var crop := GetVariableLonlatFromDomain(v, lonsIn, latsIn, west, east, north, south).value;
    var rows := |latsIn|;
    var lat := SubsetLatitudes(latsIn, north, south);
    var w := Wrapped(lonsIn);
    var iw := FirstIndexOf(w, Misc.WrapTo180(west)).value;
    var ie := FirstIndexOf(w, Misc.WrapTo180(east)).value;
    var vl := ColumnsAcrossZero(v, lonsIn, iw, ie, rows);
    assert crop == Crop(SelectRows(vl.0, lat.0, rows, |vl.1|), vl.1, lat.1);
    TraceRotated(v, lonsIn, latsIn, west, east, lat.0, iw, ie, crop, t, y, x);
  }

  /** The trace through the wrap branch, once the crop is known to be the selected rows
      of the rotated and sliced columns. */
  lemma TraceRotated(v: Cube, lonsIn: seq<real>, latsIn: seq<real>, west: real, east: real,
                     ids: seq<nat>, iw: nat, ie: nat, crop: Crop, t: nat, y: nat, x: nat)
    requires CubeShape(v, |latsIn|, |lonsIn|) && CrossesZero(west, east) && iw <= |lonsIn| && ie <= |lonsIn|
    requires forall k :: 0 <= k < |ids| ==> ids[k] < |latsIn|
    requires |crop.lats| == |ids| && forall k :: 0 <= k < |ids| ==> crop.lats[k] == latsIn[ids[k]]
    requires var vl := ColumnsAcrossZero(v, lonsIn, iw, ie, |latsIn|);
      crop.variable == SelectRows(vl.0, ids, |latsIn|, |vl.1|) && crop.lons == vl.1
    requires t < |v| && y < |ids| && x < |crop.lons|
    ensures t < |crop.variable| && y < |crop.variable[t]| && x < |crop.variable[t][y]|
    ensures Traceable(v, lonsIn, latsIn, west, east, crop, t, y, x)
  {
    var vl := ColumnsAcrossZero(v, lonsIn, iw, ie, |latsIn|);
    var i := ids[y];
    var j := SourceColumn(iw, x, |lonsIn|);
    assert crop.variable[t][y][x] == vl.0[t][i][x];
    assert vl.0[t][i][x] == v[t][i][j] && vl.1[x] == Misc.WrapTo180(lonsIn[j]);
    assert 0 <= j < |lonsIn| && i < |v[t]| && j < |v[t][i]|;
  }

  lemma TraceWithin(v: Cube, lonsIn: seq<real>, latsIn: seq<real>, west: real, east: real,
                    north: real, south: real, t: nat, y: nat, x: nat)
    requires CubeShape(v, |latsIn|, |lonsIn|) && !CrossesZero(west, east)
    requires GetVariableLonlatFromDomain(v, lonsIn, latsIn, west, east, north, south).Success?
    requires var crop := GetVariableLonlatFromDomain(v, lonsIn, latsIn, west, east, north, south).value;
      t < |v| && y < |crop.lats| && x < |crop.lons|
    ensures var crop := GetVariableLonlatFromDomain(v, lonsIn, latsIn, west, east, north, south).value;
      Traceable(v, lonsIn, latsIn, west, east, crop, t, y, x)
  {
    var crop := GetVariableLonlatFromDomain(v, lonsIn, latsIn, west, east, north, south).value;
    var rows := |latsIn|;
    var lat := SubsetLatitudes(latsIn, north, south);
    var i := lat.0[y];
    var lon := SubsetLongitudes(lonsIn, west, east);
    var vl := ColumnsWithin(v, lonsIn, west, east, rows);
    assert crop.variable == SelectRows(vl.0, lat.0, rows, |vl.1|);
    var j := lon.0[x];
    assert crop.variable[t][y][x] == vl.0[t][i][x] == v[t][i][j];
  }

  /** The reversed sequence. */
  function Reverse<T>(s: seq<T>): (r: seq<T>)
    ensures |r| == |s| && forall k :: 0 <= k < |s| ==> r[k] == s[|s| - 1 - k]
  {
    seq(|s|, k requires 0 <= k < |s| => s[|s| - 1 - k])
  }

  predicate StrictlyIncreasing(a: seq<real>) {
    forall i :: 1 <= i < |a| ==> a[i - 1] < a[i]
  }

  /** Every time slice has one row per latitude. */
  predicate RowsMatch(v: Cube, lats: seq<real>) {
    forall t :: 0 <= t < |v| ==> |v[t]| == |lats|
  }

  /** The latitude rows of every time slice, reversed. */
  function ReverseRows(v: Cube): (w: Cube)
    ensures |w| == |v| && forall t :: 0 <= t < |v| ==> w[t] == Reverse(v[t])
  {
    seq(|v|, t requires 0 <= t < |v| => Reverse(v[t]))
  }

  /** The loader's latitude normalisation: latitudes that are not strictly decreasing are
      reversed, together with the latitude axis of the variable. */
  function NormaliseLatitudes(lats: seq<real>, v: Cube): (out: (seq<real>, Cube))
    requires RowsMatch(v, lats)
    ensures Misc.StrictlyDecreasing(lats) ==> out == (lats, v)
    ensures !Misc.StrictlyDecreasing(lats) ==> out.0 == Reverse(lats)
    ensures |out.1| == |v| && RowsMatch(out.1, out.0)
  {
    if Misc.StrictlyDecreasing(lats) then (lats, v) else (Reverse(lats), ReverseRows(v))
  }

  /** The normalisation keeps every row with its latitude, and turns strictly increasing
      latitudes into strictly decreasing ones. */
  lemma NormalisedPairing(lats: seq<real>, v: Cube)
    requires RowsMatch(v, lats)
    ensures var out := NormaliseLatitudes(lats, v);
      forall t, y :: 0 <= t < |v| && 0 <= y < |lats| ==>
        exists i :: 0 <= i < |lats| && out.1[t][y] == v[t][i] && out.0[y] == lats[i]
    ensures StrictlyIncreasing(lats) ==> Misc.StrictlyDecreasing(NormaliseLatitudes(lats, v).0)
  {
    var out := NormaliseLatitudes(lats, v);
    forall t, y | 0 <= t < |v| && 0 <= y < |lats|
      ensures exists i :: 0 <= i < |lats| && out.1[t][y] == v[t][i] && out.0[y] == lats[i]
    {
      if Misc.StrictlyDecreasing(lats) {
        assert out.1[t][y] == v[t][y] && out.0[y] == lats[y];
      } else {
        var i := |lats| - 1 - y;
        assert out.1[t][y] == v[t][i] && out.0[y] == lats[i];
      }
    }
    if StrictlyIncreasing(lats) && |lats| > 1 {
      assert lats[0] < lats[1];
      assert !Misc.StrictlyDecreasing(lats);
    }
  }

  /** The indices of the first and the one-past-last time step of one detection window. */
  datatype Window = Window(start: nat, end: nat)

  /**
   * `get_ids_start_end4timecrop`: the window starts at the first time equal to `itime`
   * (failing when there is none) and ends at the first time equal to `itime` plus the
   * detection period, or at the end of the times when that time is absent. Times are in hours.
   */
  function GetIdsStartEnd4Timecrop(itime: int, period: int, times: seq<int>): (r: Result<Window>)
    ensures r.Failure? <==> itime !in times
    ensures r.Failure? ==> r.error == IndexError
    ensures r.Success? ==>
      var w := r.value;
      w.start < |times| && times[w.start] == itime && (forall j :: 0 <= j < w.start ==> times[j] != itime) &&
      w.end <= |times| &&
      (itime + period in times ==> w.end < |times| && times[w.end] == itime + period &&
                                   forall j :: 0 <= j < w.end ==> times[j] != itime + period) &&
      (itime + period !in times ==> w.end == |times|)
  {
    match FirstIndexOf(times, itime)
    case None => Failure(IndexError)
    case Some(start) =>
      match FirstIndexOf(times, itime + period)
      case None => Success(Window(start, |times|))
      case Some(end) => Success(Window(start, end))
  }

  predicate StrictlyIncreasingTimes(times: seq<int>) {
    forall i, j :: 0 <= i < j < |times| ==> times[i] < times[j]
  }

  /** On strictly increasing times with both ends present, the window holds exactly the
      time steps of the detection period. */
  lemma WindowCoversPeriod(itime: int, period: int, times: seq<int>)
    requires StrictlyIncreasingTimes(times) && itime in times && itime + period in times
    ensures var w := GetIdsStartEnd4Timecrop(itime, period, times).value;
      forall i :: 0 <= i < |times| ==> (w.start <= i < w.end <==> itime <= times[i] < itime + period)
  {
  }

  /** Python's `s[a:b]` for non-negative bounds: both are clipped to the length. */
  function Slice<T>(s: seq<T>, a: nat, b: nat): (r: seq<T>)
    ensures a <= b && b <= |s| ==> |r| == b - a
    ensures forall k :: 0 <= k < |r| ==> a + k < |s| && r[k] == s[a + k]
    ensures a >= b ==> r == []
  {
    var lo := if a <= |s| then a else |s|;
    var hi := if b <= |s| then b else |s|;
    if lo <= hi then s[lo..hi] else []
  }

  /** s is the slice of `variable` over the window of the date `itime`. */
  ghost predicate WindowOf<T>(variable: seq<T>, times: seq<int>, itime: int, period: int, s: seq<T>) {
    var w := GetIdsStartEnd4Timecrop(itime, period, times);
    w.Success? && s == Slice(variable, w.value.start, w.value.end)
  }

  /**
   * The loop of `make_daily_average`: for each date, in order, the time steps
   * [start, end) of its window. It fails at the first date missing from the times.
   */
  function Windows<T>(variable: seq<T>, times: seq<int>, dates: seq<int>, period: int): (r: Result<seq<seq<T>>>)
    ensures r.Failure? <==> exists d :: 0 <= d < |dates| && dates[d] !in times
    ensures r.Failure? ==> r.error == IndexError
    ensures r.Success? ==> |r.value| == |dates| && forall d :: 0 <= d < |dates| ==>
      WindowOf(variable, times, dates[d], period, r.value[d])
  {
    if |dates| == 0 then Success([])
    else
      match GetIdsStartEnd4Timecrop(dates[0], period, times)
      case Failure(e) => Failure(e)
      case Success(w) =>
        var later := dates[1..];
        assert forall d :: 1 <= d < |dates| ==> dates[d] == later[d - 1];
        match Windows(variable, times, later, period)
        case Failure(e) =>
          var d :| 0 <= d < |later| && later[d] !in times;
          assert dates[d + 1] !in times;
          Failure(e)
        case Success(rest) =>
          var first := Slice(variable, w.start, w.end);
          assert WindowOf(variable, times, dates[0], period, first);
          WindowsCons(variable, times, dates, period, first, rest);
          Success([first] + rest)
  }

  /** A window for the first date followed by windows for the others gives windows for all. */
  lemma WindowsCons<T>(variable: seq<T>, times: seq<int>, dates: seq<int>, period: int, first: seq<T>, rest: seq<seq<T>>)
    requires |dates| == |rest| + 1 && WindowOf(variable, times, dates[0], period, first)
    requires forall d :: 0 <= d < |rest| ==> WindowOf(variable, times, dates[1..][d], period, rest[d])
    ensures forall d :: 0 <= d < |dates| ==> WindowOf(variable, times, dates[d], period, ([first] + rest)[d])
    ensures forall d :: 0 <= d < |dates| ==> dates[d] in times
  {
    forall d | 0 <= d < |dates|
      ensures WindowOf(variable, times, dates[d], period, ([first] + rest)[d]) && dates[d] in times
    {
      if d > 0 {
        assert dates[d] == dates[1..][d - 1];
        assert WindowOf(variable, times, dates[1..][d - 1], period, rest[d - 1]);
      }
    }
  }

  /**
   * The windows `make_daily_average` averages over and then stacks: one per date, in
   * order. A date missing from the times stops the loop with `IndexError`; with no
   * dates at all `np.stack` has nothing to stack and raises `ValueError`.
   */
  function DailyWindows<T>(variable: seq<T>, times: seq<int>, dates: seq<int>, period: int): (r: Result<seq<seq<T>>>)
    ensures r.Failure? <==> |dates| == 0 || exists d :: 0 <= d < |dates| && dates[d] !in times
    ensures r.Failure? ==> (r.error == ValueError <==> |dates| == 0)
    ensures r.Failure? ==> (r.error == IndexError <==> |dates| > 0)
    ensures r.Success? ==> |r.value| == |dates| && forall d :: 0 <= d < |dates| ==>
      WindowOf(variable, times, dates[d], period, r.value[d])
  {
    if |dates| == 0 then Failure(ValueError) else Windows(variable, times, dates, period)
  }

  /** `dump_list`: every band replaced by its dictionary, the nesting kept. */
  function DumpList(l: seq<seq<CloudBand>>): (d: seq<seq<Dict>>)
    ensures |d| == |l| && forall i :: 0 <= i < |l| ==> |d[i]| == |l[i]|
    ensures forall i, j :: 0 <= i < |l| && 0 <= j < |l[i]| ==> d[i][j] == ToDict(l[i][j])
  {
    seq(|l|, i requires 0 <= i < |l| => seq(|l[i]|, j requires 0 <= j < |l[i]| => ToDict(l[i][j])))
  }

  /** f applied to every element in order, the first failure ending the loop with its error. */
  function MapAll<A, B>(xs: seq<A>, f: A -> Result<B>): (r: Result<seq<B>>)
    ensures r.Failure? <==> exists j :: 0 <= j < |xs| && f(xs[j]).Failure?
    ensures r.Failure? ==> exists j :: (0 <= j < |xs| && f(xs[j]) == Failure(r.error) &&
      forall i :: 0 <= i < j ==> f(xs[i]).Success?)
    ensures r.Success? ==> (|r.value| == |xs| &&
      forall j :: 0 <= j < |xs| ==> f(xs[j]) == Success(r.value[j]))
  {
    if |xs| == 0 then Success([])
    else
      match f(xs[0])
      case Failure(e) => Failure(e)
      case Success(b) =>
        var tail := xs[1..];
        assert forall j :: 1 <= j < |xs| ==> xs[j] == tail[j - 1];
        match MapAll(tail, f)
        case Failure(e) =>
          var j :| 0 <= j < |tail| && f(tail[j]) == Failure(e) && forall i :: 0 <= i < j ==> f(tail[i]).Success?;
          assert f(xs[j + 1]) == Failure(e);
          assert forall i :: 1 <= i < j + 1 ==> f(xs[i]).Success?;
          Failure(e)
        case Success(rest) =>
          Success([b] + rest)
  }

  /** One day of `load_list`: the first failing dictionary stops the load. */
  function LoadDay(day: seq<Dict>, orientation: Orientation): (r: Result<seq<CloudBand>>)
    ensures r.Failure? <==> exists j :: 0 <= j < |day| && FromDict(day[j], orientation).Failure?
    ensures r.Success? ==> (|r.value| == |day| &&
      forall j :: 0 <= j < |day| ==> FromDict(day[j], orientation) == Success(r.value[j]))
  {
    MapAll(day, (x: Dict) => FromDict(x, orientation))
  }

  /** `load_list`: every dictionary rebuilt with `fromdict`, the nesting kept. */
  function LoadList(d: seq<seq<Dict>>, orientation: Orientation): (r: Result<seq<seq<CloudBand>>>)
    ensures r.Failure? <==> exists i :: 0 <= i < |d| && LoadDay(d[i], orientation).Failure?
    ensures r.Success? ==> |r.value| == |d| && forall i :: 0 <= i < |d| ==>
      LoadDay(d[i], orientation) == Success(r.value[i])
  {
    MapAll(d, (x: seq<Dict>) => LoadDay(x, orientation))
  }

  /** Every band's mask has a region, as every detected band's does. */
  predicate AllHaveRegions(l: seq<seq<CloudBand>>) {
    forall i, j :: 0 <= i < |l| && 0 <= j < |l[i]| ==>
      exists y, x :: 0 <= y < |l[i][j].mask| && 0 <= x < |l[i][j].mask[y]| && l[i][j].mask[y][x] > 0
  }

  /**
   * Saving and loading keeps the number of days and of bands per day, and band (i, j)
   * comes back as `fromdict(todict(...))` of the saved one: mask, area, coordinate maps,
   * date and parents intact, flags exchanged.
   */
  lemma DumpLoadRoundTrip(l: seq<seq<CloudBand>>, orientation: Orientation)
    requires AllHaveRegions(l)
    ensures LoadList(DumpList(l), orientation).Success?
    ensures var back := LoadList(DumpList(l), orientation).value;
      |back| == |l| && forall i :: 0 <= i < |l| ==> (|back[i]| == |l[i]| &&
        forall j :: 0 <= j < |l[i]| ==> (back[i][j] == FromDict(ToDict(l[i][j]), orientation).value &&
          back[i][j].mask == l[i][j].mask && back[i][j].parents == l[i][j].parents &&
          back[i][j].isCloudband == l[i][j].connectedLongitudes))
  {
    var d := DumpList(l);
    forall i, j | 0 <= i < |l| && 0 <= j < |l[i]|
      ensures FromDict(d[i][j], orientation).Success?
    {
      DictRoundTrip(l[i][j], orientation);
    }
    forall i | 0 <= i < |d| ensures LoadDay(d[i], orientation).Success? {
    }
    var back := LoadList(d, orientation).value;
    forall i, j | 0 <= i < |l| && 0 <= j < |l[i]|
      ensures back[i][j] == FromDict(ToDict(l[i][j]), orientation).value &&
              back[i][j].mask == l[i][j].mask && back[i][j].parents == l[i][j].parents &&
              back[i][j].isCloudband == l[i][j].connectedLongitudes
    {
      DictRoundTrip(l[i][j], orientation);
    }
  }
}

=== FILE: labels.dfy ===
/**
 * Label-map post-processing of the blob detector: renumbering labels so that they
 * have no gaps (`reNumberLabels`) and merging labels across the east/west seam of a
 * full-longitude domain (`connectLongitudes`).
 */
module Labels {
  import opened Grids

  /** The labels of 1..n that occur in g, in ascending order. */
  function UsedUpTo(g: Grid, n: int): (u: seq<int>)
    decreases n
    ensures |u| <= if n > 0 then n else 0
    ensures forall k :: 0 <= k < |u| ==> 1 <= u[k] <= n && Occurs(g, u[k])
    ensures forall k, m :: 0 <= k < m < |u| ==> u[k] < u[m]
    ensures forall v {:trigger v in u} :: 1 <= v <= n && Occurs(g, v) ==> v in u
  {
    if n <= 0 then [] else UsedUpTo(g, n - 1) + (if Occurs(g, n) then [n] else [])
  }

  /** The label that `reNumberLabels` gives to an occurring label v >= 1:
      the number of occurring labels in 1..v. */
  function Rank(g: Grid, v: int): nat {
    |UsedUpTo(g, v)|
  }

  lemma {:induction false} UsedPrefix(g: Grid, a: int, b: int)
    requires a <= b
    ensures |UsedUpTo(g, a)| <= |UsedUpTo(g, b)|
    ensures UsedUpTo(g, a) == UsedUpTo(g, b)[..|UsedUpTo(g, a)|]
    decreases b - a
  {
    if a < b {
      UsedPrefix(g, a, b - 1);
    }
  }

  /** An occurring label v sits at position Rank(v) - 1 of the ascending list of used labels. */
  lemma RankIndex(g: Grid, v: int, n: int)
    requires 1 <= v <= n && Occurs(g, v)
    ensures 1 <= Rank(g, v) <= |UsedUpTo(g, n)|
    ensures UsedUpTo(g, n)[Rank(g, v) - 1] == v
  {
    UsedPrefix(g, v, n);
    var u := UsedUpTo(g, v);
    assert u == UsedUpTo(g, v - 1) + [v];
  }

  /** The k-th used label (0-based) is renumbered to k + 1. */
  lemma RankOfUsed(g: Grid, n: int, k: int)
    requires 0 <= k < |UsedUpTo(g, n)|
    ensures Rank(g, UsedUpTo(g, n)[k]) == k + 1
  {
    var u := UsedUpTo(g, n);
    RankIndex(g, u[k], n);
  }

  /** Ranks never decrease, and strictly increase up to an occurring label. */
  lemma RankMonotone(g: Grid, a: int, b: int)
    requires a <= b
    ensures Rank(g, a) <= Rank(g, b)
    ensures a < b && 1 <= b && Occurs(g, b) ==> Rank(g, a) < Rank(g, b)
  {
    UsedPrefix(g, a, b);
    if a < b && 1 <= b && Occurs(g, b) {
      UsedPrefix(g, a, b - 1);
    }
  }

  /** The value a pixel holding v carries after renumbering. */
  function NewLabel(g: Grid, v: int): int {
    if v == 0 then 0 else Rank(g, v)
  }

  /** Exactly the labels 1..k occur in g, where k is its largest label. */
  predicate GapFree(g: Grid)
    requires NoEmptyRow(g)
  {
    forall v :: 1 <= v <= GridMax(g) ==> Occurs(g, v)
  }

  /** Number of distinct non-zero labels of a non-negative label map. */
  function LabelCount(g: Grid): nat
    requires NoEmptyRow(g)
  {
    |UsedUpTo(g, GridMax(g))|
  }

  /** Facts about one renumbered pixel value. */
  lemma NewLabelFacts(g: Grid, v: int)
    requires NoEmptyRow(g) && NonNegative(g) && Occurs(g, v)
    ensures v == 0 <==> NewLabel(g, v) == 0
    ensures 0 <= NewLabel(g, v) <= v
    ensures NewLabel(g, v) <= LabelCount(g)
  {
    var m := GridMax(g);
    if v != 0 {
      var r, c :| 0 <= r < |g| && 0 <= c < |g[r]| && g[r][c] == v;
      RankIndex(g, v, m);
    }
  }

  /** Renumbering order: labels keep their relative order, 0 stays lowest. */
  lemma NewLabelOrder(g: Grid, a: int, b: int)
    requires NoEmptyRow(g) && NonNegative(g) && Occurs(g, a) && Occurs(g, b)
    ensures a < b <==> NewLabel(g, a) < NewLabel(g, b)
  {
    NewLabelFacts(g, a);
    NewLabelFacts(g, b);
    if a < b {
      RankMonotone(g, a, b);
    } else {
      RankMonotone(g, b, a);
    }
  }

  /**
   * Reference definition of `reNumberLabels`: each label is replaced by its rank among
   * the used labels. Background stays 0 and labels never grow; `RenumberedKeepsOrder`
   * and `RenumberedGapFree` state the rest.
   */
  function Renumbered(g: Grid): (h: Grid)
    requires NoEmptyRow(g) && NonNegative(g)
    ensures SameShape(h, g) && NoEmptyRow(h) && NonNegative(h)
    ensures forall r, c {:trigger h[r][c]} :: 0 <= r < |g| && 0 <= c < |g[r]| ==>
      (h[r][c] == 0 <==> g[r][c] == 0) && h[r][c] <= g[r][c] && h[r][c] == NewLabel(g, g[r][c])
  {
    var h := seq(|g|, r requires 0 <= r < |g| =>
      seq(|g[r]|, c requires 0 <= c < |g[r]| => NewLabel(g, g[r][c])));
    forall r, c | 0 <= r < |g| && 0 <= c < |g[r]|
      ensures (h[r][c] == 0 <==> g[r][c] == 0) && 0 <= h[r][c] <= g[r][c]
    {
      NewLabelFacts(g, g[r][c]);
    }
    h
  }

  /** The renumbered map uses exactly the labels 1..LabelCount(g), so it is gap-free. */
  lemma RenumberedGapFree(g: Grid)
    requires NoEmptyRow(g) && NonNegative(g)
    ensures forall v :: v >= 1 ==> (Occurs(Renumbered(g), v) <==> v <= LabelCount(g))
    ensures GapFree(Renumbered(g))
  {
    var h := Renumbered(g);
    forall r, c | 0 <= r < |g| && 0 <= c < |g[r]|
      ensures h[r][c] <= LabelCount(g)
    {
      NewLabelFacts(g, g[r][c]);
    }
    RenumberedLabels(g, h);
  }

  /** Renumbering is strictly increasing on labels: pixels compare after it exactly as
      they compared before, so equal labels stay equal and different labels stay different. */
  lemma RenumberedKeepsOrder(g: Grid)
    requires NoEmptyRow(g) && NonNegative(g)
    ensures forall r1, c1, r2, c2 ::
      0 <= r1 < |g| && 0 <= c1 < |g[r1]| && 0 <= r2 < |g| && 0 <= c2 < |g[r2]| ==>
      (g[r1][c1] < g[r2][c2] <==> Renumbered(g)[r1][c1] < Renumbered(g)[r2][c2]) &&
      (g[r1][c1] == g[r2][c2] <==> Renumbered(g)[r1][c1] == Renumbered(g)[r2][c2])
  {
    var h := Renumbered(g);
    forall r1, c1, r2, c2 |
      0 <= r1 < |g| && 0 <= c1 < |g[r1]| && 0 <= r2 < |g| && 0 <= c2 < |g[r2]|
      ensures g[r1][c1] < g[r2][c2] <==> h[r1][c1] < h[r2][c2]
      ensures g[r2][c2] < g[r1][c1] <==> h[r2][c2] < h[r1][c1]
    {
      NewLabelOrder(g, g[r1][c1], g[r2][c2]);
      NewLabelOrder(g, g[r2][c2], g[r1][c1]);
    }
  }

  /** Every label 1..LabelCount(g) occurs in the renumbered map. */
  lemma RenumberedCovers(g: Grid, h: Grid)
    requires NoEmptyRow(g) && NonNegative(g) && SameShape(h, g)
    requires forall r, c :: 0 <= r < |g| && 0 <= c < |g[r]| ==> h[r][c] == NewLabel(g, g[r][c])
    ensures forall v :: 1 <= v <= LabelCount(g) ==> Occurs(h, v)
  {
    forall v | 1 <= v <= LabelCount(g)
      ensures Occurs(h, v)
    {
      RenumberedHas(g, h, v);
    }
  }

  lemma RenumberedHas(g: Grid, h: Grid, v: int)
    requires NoEmptyRow(g) && SameShape(h, g) && 1 <= v <= LabelCount(g)
    requires forall r, c :: 0 <= r < |g| && 0 <= c < |g[r]| ==> h[r][c] == NewLabel(g, g[r][c])
    ensures Occurs(h, v)
  {
    var w := UsedLabel(g, v);
    var r, c :| 0 <= r < |g| && 0 <= c < |g[r]| && g[r][c] == w;
    assert h[r][c] == v;
  }

  /** The occurring label that renumbering turns into v. */
  lemma UsedLabel(g: Grid, v: int) returns (w: int)
    requires NoEmptyRow(g) && 1 <= v <= LabelCount(g)
    ensures Occurs(g, w) && NewLabel(g, w) == v
  {
    var m := GridMax(g);
    var u := UsedUpTo(g, m);
    w := u[v - 1];
    RankOfUsed(g, m, v - 1);
  }

  /** The renumbered map uses exactly the labels 1..LabelCount(g). */
  lemma RenumberedLabels(g: Grid, h: Grid)
    requires NoEmptyRow(g) && NonNegative(g) && SameShape(h, g)
    requires forall r, c :: 0 <= r < |g| && 0 <= c < |g[r]| ==> h[r][c] == NewLabel(g, g[r][c])
    requires forall r, c :: 0 <= r < |g| && 0 <= c < |g[r]| ==> 0 <= h[r][c] <= LabelCount(g)
    ensures NoEmptyRow(h)
    ensures forall v :: v >= 1 ==> (Occurs(h, v) <==> v <= LabelCount(g))
    ensures GapFree(h)
  {
    RenumberedCovers(g, h);
    var n := LabelCount(g);
    forall v | v >= 1 && Occurs(h, v) ensures v <= n {
      var r, c :| 0 <= r < |h| && 0 <= c < |h[r]| && h[r][c] == v;
    }
    assert GridMax(h) <= n;
  }

  /** One pixel across one step of the in-place replacement loop of `reNumberLabels`. */
  lemma RenumberStep(g: Grid, m: int, t: int, v: int, cur: int)
    requires NoEmptyRow(g) && NonNegative(g) && m == GridMax(g)
    requires 0 <= t < |UsedUpTo(g, m)| && Occurs(g, v)
    requires cur == if v != 0 && Rank(g, v) <= t then Rank(g, v) else v
    ensures (if cur == UsedUpTo(g, m)[t] then t + 1 else cur) ==
      (if v != 0 && Rank(g, v) <= t + 1 then Rank(g, v) else v)
  {
    var u := UsedUpTo(g, m);
    RankOfUsed(g, m, t);
    RankMonotone(g, 0, u[t]);
    assert Rank(g, u[t]) <= u[t];
    if v != 0 {
      RankIndex(g, v, m);
    }
  }

  /**
   * `reNumberLabels` as the source runs it: first collect the (old, new) pairs for the
   * used labels in ascending order, then replace each old label in place. The in-place
   * replacements never collide, so the result is the rank renumbering.
   */
  method ReNumberLabels(labels: Grid) returns (res: Grid)
    requires NoEmptyRow(labels) && NonNegative(labels)
    ensures res == Renumbered(labels)
    ensures SameShape(res, labels) && NoEmptyRow(res) && GapFree(res)
  {
    res := labels;
    var top := GridMax(labels);
    var labelMap: seq<(int, int)> := [];
    var nextlabel := 1;
    var i := 1;
    while i <= top
      invariant 1 <= i <= top + 1
      invariant labelMap == UsedPairs(labels, i - 1)
      invariant nextlabel == |labelMap| + 1
    {
      UsedPairsStep(labels, i);
      if Occurs(res, i) {
        labelMap := labelMap + [(i, nextlabel)];
        nextlabel := nextlabel + 1;
      }
      i := i + 1;
    }
    assert i - 1 == top;
    var used := UsedUpTo(labels, top);
    assert |labelMap| == |used|;
    var t := 0;
    while t < |labelMap|
      invariant 0 <= t <= |labelMap|
      invariant ReplacedUpTo(labels, res, t)
    {
      var (oldLabel, newLabel) := labelMap[t];
      assert oldLabel == used[t] && newLabel == t + 1;
      ReplaceStep(labels, top, t, res);
      res := Replace(res, oldLabel, newLabel);
      t := t + 1;
    }
    ReplacedAll(labels, top, res);
    RenumberedGapFree(labels);
  }

  /** The (old, new) pairs the first loop of `reNumberLabels` collects. */
  function UsedPairs(g: Grid, m: int): (p: seq<(int, int)>)
    ensures |p| == |UsedUpTo(g, m)|
    ensures forall k :: 0 <= k < |p| ==> p[k] == (UsedUpTo(g, m)[k], k + 1)
  {
    var u := UsedUpTo(g, m);
    seq(|u|, k requires 0 <= k < |u| => (u[k], k + 1))
  }

  /** Going from 1..n-1 to 1..n appends the pair for n when n occurs. */
  lemma UsedPairsStep(g: Grid, n: int)
    requires n >= 1
    ensures UsedPairs(g, n) == UsedPairs(g, n - 1) + (if Occurs(g, n) then [(n, |UsedPairs(g, n - 1)| + 1)] else [])
  {
    assert UsedUpTo(g, n) == UsedUpTo(g, n - 1) + (if Occurs(g, n) then [n] else []);
  }

  /** The map after the first t replacements: labels of rank at most t carry their rank,
      the others are untouched. */
  predicate ReplacedUpTo(g: Grid, res: Grid, t: int) {
    SameShape(res, g) && forall r, c :: 0 <= r < |g| && 0 <= c < |g[r]| ==>
      res[r][c] == if g[r][c] != 0 && Rank(g, g[r][c]) <= t then Rank(g, g[r][c]) else g[r][c]
  }

  /** One replacement of the second loop of `reNumberLabels`. */
  lemma ReplaceStep(g: Grid, m: int, t: int, res: Grid)
    requires NoEmptyRow(g) && NonNegative(g) && m == GridMax(g)
    requires 0 <= t < |UsedUpTo(g, m)| && ReplacedUpTo(g, res, t)
    ensures ReplacedUpTo(g, Replace(res, UsedUpTo(g, m)[t], t + 1), t + 1)
  {
    var next := Replace(res, UsedUpTo(g, m)[t], t + 1);
    forall r, c | 0 <= r < |g| && 0 <= c < |g[r]|
      ensures next[r][c] == if g[r][c] != 0 && Rank(g, g[r][c]) <= t + 1 then Rank(g, g[r][c]) else g[r][c]
    {
      assert Occurs(g, g[r][c]);
      RenumberStep(g, m, t, g[r][c], res[r][c]);
    }
  }

  /** After every used label has been replaced, the map is the rank renumbering. */
  lemma ReplacedAll(g: Grid, m: int, res: Grid)
    requires NoEmptyRow(g) && NonNegative(g) && m == GridMax(g)
    requires ReplacedUpTo(g, res, |UsedUpTo(g, m)|)
    ensures res == Renumbered(g)
  {
    var h := Renumbered(g);
    forall r, c | 0 <= r < |g| && 0 <= c < |g[r]|
      ensures res[r][c] == h[r][c]
    {
      if g[r][c] != 0 {
        assert Occurs(g, g[r][c]);
        RankIndex(g, g[r][c], m);
      }
    }
    GridEq(res, h);
  }

  /** Row r has two different non-zero labels on its first and last column. */
  predicate SeamRow(g: Grid, r: int)
    requires 0 <= r < |g| && |g[r]| > 0
  {
    g[r][0] != 0 && g[r][|g[r]| - 1] != 0 && g[r][0] != g[r][|g[r]| - 1]
  }

  /** The value a label v ends with after the replacements `pairs` (from, to), applied
      in order as the merge loop applies them to the whole map. */
  function ApplyPairs(pairs: seq<(int, int)>, v: int): int
    decreases |pairs|
  {
    if |pairs| == 0 then v
    else
      var w := ApplyPairs(pairs[..|pairs| - 1], v);
      var (a, b) := pairs[|pairs| - 1];
      if w == a then b else w
  }

  /** Each replacement maps a non-zero label to a smaller non-zero one. */
  predicate Merging(pairs: seq<(int, int)>) {
    forall k :: 0 <= k < |pairs| ==> pairs[k].0 != 0 && pairs[k].1 != 0 && pairs[k].1 < pairs[k].0
  }

  /** Every replacement target is a positive label. */
  predicate PositiveTargets(pairs: seq<(int, int)>) {
    forall k :: 0 <= k < |pairs| ==> pairs[k].1 > 0
  }

  lemma {:induction false} ApplyPairsFacts(pairs: seq<(int, int)>, v: int)
    requires Merging(pairs)
    ensures ApplyPairs(pairs, v) == 0 <==> v == 0
    ensures ApplyPairs(pairs, v) <= v
    ensures PositiveTargets(pairs) && v >= 0 ==> ApplyPairs(pairs, v) >= 0
    decreases |pairs|
  {
    if |pairs| > 0 {
      ApplyPairsFacts(pairs[..|pairs| - 1], v);
    }
  }

  /** Every one of the first i rows of g whose first and last pixels are labelled carries
      one label on both ends in h. */
  predicate SeamsClosed(g: Grid, h: Grid, i: int)
    requires NoEmptyRow(g) && SameShape(h, g) && i <= |g|
  {
    forall r :: 0 <= r < i && g[r][0] != 0 && g[r][|g[r]| - 1] != 0 ==>
      h[r][0] == h[r][|h[r]| - 1]
  }

  /** h is g relabelled value by value through pairs. */
  predicate RelabelledBy(g: Grid, h: Grid, pairs: seq<(int, int)>) {
    SameShape(h, g) &&
    forall r, c :: 0 <= r < |g| && 0 <= c < |g[r]| ==> h[r][c] == ApplyPairs(pairs, g[r][c])
  }

  /** Pair p merges the two end labels of row r as they stand after the replacements
      pre, the larger replaced by the smaller; row r is a seam row of the input. */
  predicate SeamPair(g: Grid, pre: seq<(int, int)>, r: int, p: (int, int))
    requires 0 <= r < |g| && |g[r]| > 0
  {
    var first := ApplyPairs(pre, g[r][0]);
    var last := ApplyPairs(pre, g[r][|g[r]| - 1]);
    SeamRow(g, r) && first != 0 && last != 0 && first != last &&
    p == (if first < last then (last, first) else (first, last))
  }

  /** Replacement k merges the ends of a seam row among the first i rows, as that row
      stands when the replacement is made. */
  predicate PairFromSeam(g: Grid, pairs: seq<(int, int)>, k: int, i: int)
    requires NoEmptyRow(g) && i <= |g| && 0 <= k < |pairs|
  {
    exists r :: 0 <= r < i && SeamPair(g, pairs[..k], r, pairs[k])
  }

  /** Every replacement comes from a seam row among the first i rows. */
  predicate PairsFromSeams(g: Grid, pairs: seq<(int, int)>, i: int)
    requires NoEmptyRow(g) && i <= |g|
  {
    forall k :: 0 <= k < |pairs| ==> PairFromSeam(g, pairs, k, i)
  }

  lemma SeamsExtend(g: Grid, pairs: seq<(int, int)>, i: int, p: (int, int))
    requires NoEmptyRow(g) && 0 < i <= |g| && PairsFromSeams(g, pairs, i - 1)
    requires SeamPair(g, pairs, i - 1, p)
    ensures PairsFromSeams(g, pairs + [p], i)
  {
    var pairs' := pairs + [p];
    forall k | 0 <= k < |pairs'| ensures PairFromSeam(g, pairs', k, i) {
      if k < |pairs| {
        assert pairs'[..k] == pairs[..k] && pairs'[k] == pairs[k];
        assert PairFromSeam(g, pairs, k, i - 1);
        var r :| 0 <= r < i - 1 && SeamPair(g, pairs[..k], r, pairs[k]);
        assert SeamPair(g, pairs'[..k], r, pairs'[k]);
      } else {
        assert pairs'[..k] == pairs;
        assert SeamPair(g, pairs'[..k], i - 1, pairs'[k]);
      }
    }
  }

  /** The replacement the merge loop makes at row i - 1 comes from that seam row. */
  lemma MergeProvenance(g: Grid, pairs: seq<(int, int)>, i: int, first: int, last: int)
    requires NoEmptyRow(g) && 0 < i <= |g| && Merging(pairs) && PairsFromSeams(g, pairs, i - 1)
    requires first == ApplyPairs(pairs, g[i - 1][0]) && last == ApplyPairs(pairs, g[i - 1][|g[i - 1]| - 1])
    requires first != 0 && last != 0 && first != last
    ensures PairsFromSeams(g, pairs + [if first < last then (last, first) else (first, last)], i)
  {
    ApplyPairsFacts(pairs, g[i - 1][0]);
    ApplyPairsFacts(pairs, g[i - 1][|g[i - 1]| - 1]);
    var p := if first < last then (last, first) else (first, last);
    assert SeamPair(g, pairs, i - 1, p);
    SeamsExtend(g, pairs, i, p);
  }

  lemma SeamsWiden(g: Grid, pairs: seq<(int, int)>, i: int)
    requires NoEmptyRow(g) && 0 < i <= |g| && PairsFromSeams(g, pairs, i - 1)
    ensures PairsFromSeams(g, pairs, i)
  {
    forall k | 0 <= k < |pairs| ensures PairFromSeam(g, pairs, k, i) {
      assert PairFromSeam(g, pairs, k, i - 1);
      var r :| 0 <= r < i - 1 && SeamPair(g, pairs[..k], r, pairs[k]);
    }
  }

  lemma MergeStep(g: Grid, h: Grid, pairs: seq<(int, int)>, i: int, lMin: int, lMax: int)
    requires NoEmptyRow(g) && 0 < i <= |g| && RelabelledBy(g, h, pairs) && Merging(pairs)
    requires SeamsClosed(g, h, i - 1)
    requires lMin != 0 && lMax != 0 && lMin < lMax
    requires var row := h[i - 1]; (row[0] == lMin && row[|row| - 1] == lMax) || (row[0] == lMax && row[|row| - 1] == lMin)
    ensures RelabelledBy(g, Replace(h, lMax, lMin), pairs + [(lMax, lMin)])
    ensures Merging(pairs + [(lMax, lMin)])
    ensures NonNegative(g) && PositiveTargets(pairs) ==> PositiveTargets(pairs + [(lMax, lMin)])
    ensures SeamsClosed(g, Replace(h, lMax, lMin), i)
  {
    var h' := Replace(h, lMax, lMin);
    var pairs' := pairs + [(lMax, lMin)];
    assert pairs'[..|pairs'| - 1] == pairs;
    if NonNegative(g) && PositiveTargets(pairs) {
      var row := g[i - 1];
      ApplyPairsFacts(pairs, row[0]);
      ApplyPairsFacts(pairs, row[|row| - 1]);
    }
    forall r | 0 <= r < i && g[r][0] != 0 && g[r][|g[r]| - 1] != 0
      ensures h'[r][0] == h'[r][|h'[r]| - 1]
    {
      if r < i - 1 {
        assert h[r][0] == h[r][|h[r]| - 1];
      }
    }
  }

  lemma KeepStep(g: Grid, h: Grid, pairs: seq<(int, int)>, i: int)
    requires NoEmptyRow(g) && 0 < i <= |g| && RelabelledBy(g, h, pairs) && Merging(pairs)
    requires SeamsClosed(g, h, i - 1)
    requires var row := h[i - 1]; row[0] == 0 || row[|row| - 1] == 0 || row[0] == row[|row| - 1]
    ensures SeamsClosed(g, h, i)
  {
    var last := |g[i - 1]| - 1;
    ApplyPairsFacts(pairs, g[i - 1][0]);
    ApplyPairsFacts(pairs, g[i - 1][last]);
  }

  /**
   * The merge loop of `connectLongitudes` after its first i rows, with the replacements
   * it made: a row whose first and last pixels hold two different labels has the larger
   * label replaced by the smaller one everywhere. Only rows are inspected: nothing merges
   * through the top and bottom rows, whatever the docstring says. Every replacement
   * merges the two ends of one of those rows, as the row stands at that moment.
   */
  function MergeRows(g: Grid, i: nat): (out: (Grid, seq<(int, int)>))
    requires NoEmptyRow(g) && i <= |g|
    ensures RelabelledBy(g, out.0, out.1) && Merging(out.1)
    ensures PairsFromSeams(g, out.1, i)
    ensures NonNegative(g) ==> PositiveTargets(out.1)
    ensures SeamsClosed(g, out.0, i)
  {
    if i == 0 then (g, [])
    else
      var (h, pairs) := MergeRows(g, i - 1);
      var row := h[i - 1];
      var first, last := row[0], row[|row| - 1];
      if first != 0 && last != 0 && first != last then
        var lMin := if first < last then first else last;
        var lMax := if first < last then last else first;
        MergeStep(g, h, pairs, i, lMin, lMax);
        MergeProvenance(g, pairs, i, first, last);
        (Replace(h, lMax, lMin), pairs + [(lMax, lMin)])
      else
        KeepStep(g, h, pairs, i);
        SeamsWiden(g, pairs, i);
        (h, pairs)
  }

  /** A map without a seam row is left unchanged by the merge loop. */
  lemma {:induction false} MergeRowsNoSeam(g: Grid, i: nat)
    requires NoEmptyRow(g) && i <= |g|
    requires forall r :: 0 <= r < i ==> !SeamRow(g, r)
    ensures MergeRows(g, i).0 == g
  {
    if i > 0 {
      MergeRowsNoSeam(g, i - 1);
      var (h, pairs) := MergeRows(g, i - 1);
      assert h == g;
      assert !SeamRow(g, i - 1);
      var row := h[i - 1];
      assert !(row[0] != 0 && row[|row| - 1] != 0 && row[0] != row[|row| - 1]);
      assert MergeRows(g, i) == (h, pairs);
    }
  }

  /** The merged map before renumbering keeps the background and the sign of labels. */
  lemma MergedFacts(labels: Grid)
    requires NoEmptyRow(labels) && NonNegative(labels)
    ensures var merged := MergeRows(labels, |labels|).0;
      SameShape(merged, labels) && NoEmptyRow(merged) && NonNegative(merged) &&
      forall r, c :: 0 <= r < |labels| && 0 <= c < |labels[r]| ==>
        (merged[r][c] == 0 <==> labels[r][c] == 0) && merged[r][c] <= labels[r][c]
  {
    var (merged, pairs) := MergeRows(labels, |labels|);
    forall r, c | 0 <= r < |labels| && 0 <= c < |labels[r]|
      ensures (merged[r][c] == 0 <==> labels[r][c] == 0) && 0 <= merged[r][c] <= labels[r][c]
    {
      ApplyPairsFacts(pairs, labels[r][c]);
    }
  }

  /** Merging then renumbering keeps the background and never grows a label. */
  lemma ConnectedPixels(labels: Grid)
    requires NoEmptyRow(labels) && NonNegative(labels)
    ensures var merged := MergeRows(labels, |labels|).0;
      NoEmptyRow(merged) && NonNegative(merged) && KeepsBackground(labels, Renumbered(merged))
  {
    MergedFacts(labels);
    var merged := MergeRows(labels, |labels|).0;
    var res := Renumbered(merged);
    forall r, c | 0 <= r < |labels| && 0 <= c < |labels[r]|
      ensures (res[r][c] == 0 <==> labels[r][c] == 0) && res[r][c] <= labels[r][c]
    {
      assert (merged[r][c] == 0 <==> labels[r][c] == 0) && merged[r][c] <= labels[r][c];
      assert (res[r][c] == 0 <==> merged[r][c] == 0) && res[r][c] <= merged[r][c];
    }
    SameShapeTrans(res, merged, labels);
  }

  /** After renumbering, the seam rows still carry one label on both ends. */
  lemma ConnectedSeams(labels: Grid)
    requires NoEmptyRow(labels) && NonNegative(labels)
    ensures var merged := MergeRows(labels, |labels|).0;
      NoEmptyRow(merged) && NonNegative(merged) && SameShape(Renumbered(merged), labels) &&
      SeamsClosed(labels, Renumbered(merged), |labels|)
  {
    MergedFacts(labels);
    var merged := MergeRows(labels, |labels|).0;
    RenumberedKeepsClosed(labels, merged);
    SameShapeTrans(Renumbered(merged), merged, labels);
  }

  /** Renumbering keeps closed seams closed. */
  lemma RenumberedKeepsClosed(g: Grid, h: Grid)
    requires NoEmptyRow(g) && SameShape(h, g) && NoEmptyRow(h) && NonNegative(h) && SeamsClosed(g, h, |g|)
    ensures forall r :: 0 <= r < |g| && g[r][0] != 0 && g[r][|g[r]| - 1] != 0 ==>
      Renumbered(h)[r][0] == Renumbered(h)[r][|Renumbered(h)[r]| - 1]
  {
    var res := Renumbered(h);
    forall r | 0 <= r < |g| && g[r][0] != 0 && g[r][|g[r]| - 1] != 0
      ensures res[r][0] == res[r][|res[r]| - 1]
    {
      assert h[r][0] == h[r][|h[r]| - 1];
    }
  }

  /** h has g's shape, background exactly where g has it, and no label larger than g's. */
  predicate KeepsBackground(g: Grid, h: Grid) {
    SameShape(h, g) &&
    forall r, c :: 0 <= r < |g| && 0 <= c < |g[r]| ==> (h[r][c] == 0 <==> g[r][c] == 0) && h[r][c] <= g[r][c]
  }

  /** A pixel whose label in g is at neither end of any seam row shares its label in h
      with no pixel of another label in g. */
  predicate OffSeamApart(g: Grid, h: Grid)
    requires NoEmptyRow(g)
  {
    SameShape(h, g) &&
    forall r1, c1, r2, c2 ::
      (0 <= r1 < |g| && 0 <= c1 < |g[r1]| && 0 <= r2 < |g| && 0 <= c2 < |g[r2]| &&
       OffSeam(g, g[r1][c1]) && g[r2][c2] != g[r1][c1]) ==> h[r1][c1] != h[r2][c2]
  }

  /** v is a label at neither end of any seam row of g, so no replacement involves it. */
  predicate OffSeam(g: Grid, v: int)
    requires NoEmptyRow(g)
  {
    v != 0 && forall r :: 0 <= r < |g| && SeamRow(g, r) ==> g[r][0] != v && g[r][|g[r]| - 1] != v
  }

  /** Replacements that never mention v leave v alone and never produce it. */
  lemma {:induction false} ApplyPairsAvoids(pairs: seq<(int, int)>, w: int, v: int)
    requires forall k :: 0 <= k < |pairs| ==> pairs[k].0 != v && pairs[k].1 != v
    ensures ApplyPairs(pairs, w) == v <==> w == v
    decreases |pairs|
  {
    if |pairs| > 0 {
      var init := pairs[..|pairs| - 1];
      assert forall k :: 0 <= k < |init| ==> init[k] == pairs[k];
      ApplyPairsAvoids(init, w, v);
    }
  }

  /** No replacement drawn from the seam rows mentions a label that is off every seam. */
  lemma {:induction false} PairsAvoidOffSeam(g: Grid, pairs: seq<(int, int)>, i: int, v: int, n: nat)
    requires NoEmptyRow(g) && i <= |g| && PairsFromSeams(g, pairs, i) && OffSeam(g, v) && n <= |pairs|
    ensures forall k :: 0 <= k < n ==> pairs[k].0 != v && pairs[k].1 != v
    decreases n
  {
    if n > 0 {
      PairsAvoidOffSeam(g, pairs, i, v, n - 1);
      var k := n - 1;
      var pre := pairs[..k];
      assert PairFromSeam(g, pairs, k, i);
      var r :| 0 <= r < i && SeamPair(g, pre, r, pairs[k]);
      assert forall j :: 0 <= j < |pre| ==> pre[j] == pairs[j];
      ApplyPairsAvoids(pre, g[r][0], v);
      ApplyPairsAvoids(pre, g[r][|g[r]| - 1], v);
    }
  }

  /** After merging and renumbering, a pixel whose label is off every seam still carries
      a label that no pixel with another input label shares. */
  lemma OffSeamStaysApart(labels: Grid)
    requires NoEmptyRow(labels) && NonNegative(labels)
    ensures var merged := MergeRows(labels, |labels|).0;
      NoEmptyRow(merged) && NonNegative(merged) && OffSeamApart(labels, Renumbered(merged))
  {
    MergedFacts(labels);
    var out := MergeRows(labels, |labels|);
    OffSeamMergedApart(labels, out.0, out.1);
    RenumberKeepsApart(labels, out.0);
  }

  /** Relabelling through replacements drawn from the seam rows keeps off-seam labels apart. */
  lemma OffSeamMergedApart(g: Grid, merged: Grid, pairs: seq<(int, int)>)
    requires NoEmptyRow(g) && RelabelledBy(g, merged, pairs) && PairsFromSeams(g, pairs, |g|)
    ensures OffSeamApart(g, merged)
  {
    forall r1, c1, r2, c2 |
      0 <= r1 < |g| && 0 <= c1 < |g[r1]| && 0 <= r2 < |g| && 0 <= c2 < |g[r2]| &&
      OffSeam(g, g[r1][c1]) && g[r2][c2] != g[r1][c1]
      ensures merged[r1][c1] != merged[r2][c2]
    {
      var v := g[r1][c1];
      PairsAvoidOffSeam(g, pairs, |g|, v, |pairs|);
      ApplyPairsAvoids(pairs, v, v);
      ApplyPairsAvoids(pairs, g[r2][c2], v);
    }
  }

  /** Renumbering keeps off-seam labels apart, since it keeps different labels different. */
  lemma RenumberKeepsApart(g: Grid, merged: Grid)
    requires NoEmptyRow(g) && NoEmptyRow(merged) && NonNegative(merged) && OffSeamApart(g, merged)
    ensures OffSeamApart(g, Renumbered(merged))
  {
    RenumberedKeepsOrder(merged);
    SameShapeTrans(Renumbered(merged), merged, g);
  }

  /** Two pixels of res share a label exactly when the replacements pairs send their
      labels in g to the same value. */
  predicate GroupedBy(g: Grid, res: Grid, pairs: seq<(int, int)>) {
    SameShape(res, g) &&
    forall r1, c1, r2, c2 ::
      0 <= r1 < |g| && 0 <= c1 < |g[r1]| && 0 <= r2 < |g| && 0 <= c2 < |g[r2]| ==>
      (res[r1][c1] == res[r2][c2] <==> ApplyPairs(pairs, g[r1][c1]) == ApplyPairs(pairs, g[r2][c2]))
  }

  /** After merging and renumbering, pixels share a label exactly when the merge loop's
      replacements, each drawn from a seam row, send their labels to the same value. */
  lemma MergedGrouping(labels: Grid)
    requires NoEmptyRow(labels) && NonNegative(labels)
    ensures var merged := MergeRows(labels, |labels|).0;
      NoEmptyRow(merged) && NonNegative(merged) &&
      exists pairs :: Merging(pairs) && PairsFromSeams(labels, pairs, |labels|) &&
                      GroupedBy(labels, Renumbered(merged), pairs)
  {
    MergedFacts(labels);
    var out := MergeRows(labels, |labels|);
    RelabelGrouping(labels, out.0, out.1);
    assert Merging(out.1) && PairsFromSeams(labels, out.1, |labels|) && GroupedBy(labels, Renumbered(out.0), out.1);
  }

  /** Relabelling value by value and then renumbering groups pixels as the relabelling does. */
  lemma RelabelGrouping(g: Grid, merged: Grid, pairs: seq<(int, int)>)
    requires RelabelledBy(g, merged, pairs) && NoEmptyRow(merged) && NonNegative(merged)
    ensures GroupedBy(g, Renumbered(merged), pairs)
  {
    RenumberedKeepsOrder(merged);
    var res := Renumbered(merged);
    forall r1, c1, r2, c2 |
      0 <= r1 < |g| && 0 <= c1 < |g[r1]| && 0 <= r2 < |g| && 0 <= c2 < |g[r2]|
      ensures res[r1][c1] == res[r2][c2] <==> ApplyPairs(pairs, g[r1][c1]) == ApplyPairs(pairs, g[r2][c2])
    {
      assert merged[r1][c1] == ApplyPairs(pairs, g[r1][c1]);
      assert merged[r2][c2] == ApplyPairs(pairs, g[r2][c2]);
    }
  }

  /**
   * `connectLongitudes`: merge labels across the east/west seam row by row, then
   * renumber. Background stays background, labels never grow, every row whose first
   * and last pixels are both labelled ends with one label, the result is gap-free, a
   * map without a seam row is only renumbered, and a label at neither end of any seam
   * row merges with nothing. Pixels end with one label exactly when a sequence of
   * replacements, each joining the two end labels of a seam row as they then stand,
   * sends their labels to the same value.
   */
  function ConnectLongitudes(labels: Grid): (res: Grid)
    requires NoEmptyRow(labels) && NonNegative(labels)
    ensures SameShape(res, labels) && NoEmptyRow(res) && NonNegative(res) && GapFree(res)
    ensures KeepsBackground(labels, res)
    ensures SeamsClosed(labels, res, |labels|)
    ensures (forall r :: 0 <= r < |labels| ==> !SeamRow(labels, r)) ==> res == Renumbered(labels)
    ensures OffSeamApart(labels, res)
    ensures exists pairs :: Merging(pairs) && PairsFromSeams(labels, pairs, |labels|) && GroupedBy(labels, res, pairs)
  {
    MergedFacts(labels);
    var merged := MergeRows(labels, |labels|).0;
    ConnectedPixels(labels);
    ConnectedSeams(labels);
    RenumberedGapFree(merged);
    OffSeamStaysApart(labels);
    MergedGrouping(labels);
    if forall r :: 0 <= r < |labels| ==> !SeamRow(labels, r) then
      MergeRowsNoSeam(labels, |labels|);
      Renumbered(merged)
    else
      Renumbered(merged)
  }

  /** `connectLongitudes` only merges: pixels that share a label before share one after. */
  lemma ConnectLongitudesOnlyMerges(labels: Grid)
    requires NoEmptyRow(labels) && NonNegative(labels)
    ensures forall r1, c1, r2, c2 ::
      0 <= r1 < |labels| && 0 <= c1 < |labels[r1]| && 0 <= r2 < |labels| && 0 <= c2 < |labels[r2]| ==>
      (labels[r1][c1] == labels[r2][c2] ==> ConnectLongitudes(labels)[r1][c1] == ConnectLongitudes(labels)[r2][c2])
  {
    MergedFacts(labels);
    var (merged, pairs) := MergeRows(labels, |labels|);
    RelabelledKeepsEqual(labels, merged, pairs);
    assert ConnectLongitudes(labels) == Renumbered(merged);
  }

  /** Relabelling value by value and then renumbering maps equal labels to equal labels. */
  lemma RelabelledKeepsEqual(g: Grid, merged: Grid, pairs: seq<(int, int)>)
    requires RelabelledBy(g, merged, pairs) && NoEmptyRow(merged) && NonNegative(merged)
    ensures forall r1, c1, r2, c2 ::
      0 <= r1 < |g| && 0 <= c1 < |g[r1]| && 0 <= r2 < |g| && 0 <= c2 < |g[r2]| ==>
      (g[r1][c1] == g[r2][c2] ==> Renumbered(merged)[r1][c1] == Renumbered(merged)[r2][c2])
  {
    var res := Renumbered(merged);
    forall r1, c1, r2, c2 |
      0 <= r1 < |g| && 0 <= c1 < |g[r1]| && 0 <= r2 < |g| && 0 <= c2 < |g[r2]| && g[r1][c1] == g[r2][c2]
      ensures res[r1][c1] == res[r2][c2]
    {
      assert merged[r1][c1] == merged[r2][c2];
    }
  }

  /** Two seam rows with labels of their own: 1 and 2 on the top row, 3 and 4 below. */
  const TwoSeams: Grid := [[1, 0, 2], [3, 0, 4]]

  /** Replacements drawn from the seam rows of `TwoSeams` keep {1, 2} and {3, 4} apart. */
  lemma {:induction false} TwoSeamsClasses(pairs: seq<(int, int)>)
    requires PairsFromSeams(TwoSeams, pairs, 2)
    ensures ApplyPairs(pairs, 1) in {1, 2} && ApplyPairs(pairs, 2) in {1, 2}
    ensures ApplyPairs(pairs, 3) in {3, 4} && ApplyPairs(pairs, 4) in {3, 4}
    decreases |pairs|
  {
    var g := TwoSeams;
    if |pairs| > 0 {
      var n := |pairs| - 1;
      var init := pairs[..n];
      forall k | 0 <= k < |init|
        ensures PairFromSeam(g, init, k, 2)
      {
        assert PairFromSeam(g, pairs, k, 2);
        assert init[..k] == pairs[..k];
      }
      TwoSeamsClasses(init);
      assert PairFromSeam(g, pairs, n, 2);
      var r :| 0 <= r < 2 && SeamPair(g, pairs[..n], r, pairs[n]);
      assert pairs == init + [pairs[n]];
      if r == 0 {
        assert pairs[n] == (2, 1);
      } else {
        assert pairs[n] == (4, 3);
      }
    }
  }

  /** On `TwoSeams`, any map meeting the seam and grouping clauses of `ConnectLongitudes`
      has each row's ends sharing a label and the two rows keeping different ones. */
  lemma TwoSeamsForced(g: Grid, res: Grid)
    requires g == TwoSeams && SameShape(res, g) && SeamsClosed(g, res, |g|)
    requires exists pairs :: Merging(pairs) && PairsFromSeams(g, pairs, |g|) && GroupedBy(g, res, pairs)
    ensures res[0][0] == res[0][2] && res[1][0] == res[1][2] && res[0][0] != res[1][0]
  {
    assert g[0][0] == 1 && g[0][2] == 2 && g[1][0] == 3 && g[1][2] == 4;
    var pairs :| Merging(pairs) && PairsFromSeams(g, pairs, |g|) && GroupedBy(g, res, pairs);
    TwoSeamsClasses(pairs);
  }

  /** So on `TwoSeams`, `ConnectLongitudes` gives the answer the merge loop gives: each
      row's ends share a label, and the two rows keep different ones. */
  lemma TwoSeamsStayApart(g: Grid)
    requires g == TwoSeams
    ensures NoEmptyRow(g) && NonNegative(g)
    ensures var res := ConnectLongitudes(g);
      res[0][0] == res[0][2] && res[1][0] == res[1][2] && res[0][0] != res[1][0]
  {
    assert NoEmptyRow(g) && NonNegative(g);
    TwoSeamsForced(g, ConnectLongitudes(g));
  }
}

=== FILE: legacy_io.dfy ===
/**
 * The older copy of the cropping and time-window code (`src/io_utilities.py`). It
 * wraps longitudes with the older `wrapTo180`, keeps the latitudes in the order read,
 * and otherwise follows the same steps; the lemmas show where it agrees with the
 * packaged copy and where it does not.
 */
module LegacyIo {
  import opened Wrappers
  import Misc
  import Utilities
  import opened IoUtilities

  /** The input longitudes wrapped with the older `wrapTo180` and rotated by half their number. */
  function LegacyWrapped(lonsIn: seq<real>): (w: seq<real>)
    ensures |w| == |lonsIn|
    ensures forall k :: 0 <= k < |lonsIn| ==> w[k] == Utilities.WrapTo180(lonsIn[(k + |lonsIn| / 2) % |lonsIn|])
  {
    Rotate(seq(|lonsIn|, k requires 0 <= k < |lonsIn| => Utilities.WrapTo180(lonsIn[k])), |lonsIn| / 2)
  }

  /** `get_variable_lonlat_from_domain` of the older module: the same wrap branch with
      its exclusive eastern bound, and the same subsets otherwise. */
  function GetVariableLonlatFromDomain(v: Cube, lonsIn: seq<real>, latsIn: seq<real>, west: real, east: real,
                                       north: real, south: real): (r: Result<Crop>)
    requires CubeShape(v, |latsIn|, |lonsIn|)
    ensures r.Failure? <==> (east < west &&
      (Utilities.WrapTo180(west) !in LegacyWrapped(lonsIn) || Utilities.WrapTo180(east) !in LegacyWrapped(lonsIn)))
    ensures r.Failure? ==> r.error == IndexError
    ensures r.Success? ==> |r.value.variable| == |v| && CubeShape(r.value.variable, |r.value.lats|, |r.value.lons|)
    ensures r.Success? ==> r.value.lats == SubsetLatitudes(latsIn, north, south).1
    ensures r.Success? && west <= east ==> r.value.lons == SubsetLongitudes(lonsIn, west, east).1
    ensures r.Success? && east < west ==>
      var w := LegacyWrapped(lonsIn);
      var iw := FirstIndexOf(w, Utilities.WrapTo180(west)).value;
      var ie := FirstIndexOf(w, Utilities.WrapTo180(east)).value;
      r.value.lons == PySlice(w, iw, ie)
  {
    var rows := |latsIn|;
    var lat := SubsetLatitudes(latsIn, north, south);
    if east < west then
      var w := LegacyWrapped(lonsIn);
      match (FirstIndexOf(w, Utilities.WrapTo180(west)), FirstIndexOf(w, Utilities.WrapTo180(east)))
      case (Some(iw), Some(ie)) =>
        var variableLon := ColumnsAcrossZero(v, lonsIn, iw, ie, rows).0;
        var lons := PySlice(w, iw, ie);
        Success(Crop(SelectRows(variableLon, lat.0, rows, |lons|), lons, lat.1))
      case _ => Failure(IndexError)
    else
      var vl := ColumnsWithin(v, lonsIn, west, east, rows);
      Success(Crop(SelectRows(vl.0, lat.0, rows, |vl.1|), vl.1, lat.1))
  }

  /** Both copies crop identically, in both branches and on both error paths. */
  lemma CropAgreesWithPackaged(v: Cube, lonsIn: seq<real>, latsIn: seq<real>, west: real, east: real,
                               north: real, south: real)
    requires CubeShape(v, |latsIn|, |lonsIn|)
    ensures GetVariableLonlatFromDomain(v, lonsIn, latsIn, west, east, north, south) ==
            IoUtilities.GetVariableLonlatFromDomain(v, lonsIn, latsIn, west, east, north, south)
  {
    var w := LegacyWrapped(lonsIn);
    forall k | 0 <= k < |lonsIn| ensures w[k] == Wrapped(lonsIn)[k] {
      Utilities.AgreesWithPackaged(lonsIn[(k + |lonsIn| / 2) % |lonsIn|]);
    }
    assert w == Wrapped(lonsIn);
    Utilities.AgreesWithPackaged(west);
    Utilities.AgreesWithPackaged(east);
  }

  /** The older loader hands back latitudes and variable in the order read. */
  function OpenLatitudes(lats: seq<real>, v: Cube): (out: (seq<real>, Cube))
    ensures |out.0| == |lats| && forall k :: 0 <= k < |lats| ==> out.0[k] == lats[k]
    ensures |out.1| == |v| && forall t :: 0 <= t < |v| ==> out.1[t] == v[t]
  {
    (lats, v)
  }

  /** So on strictly increasing latitudes the two loaders disagree: only the packaged one
      turns them into decreasing latitudes; on strictly decreasing ones they agree. */
  lemma LoadersDiffer(lats: seq<real>, v: Cube)
    requires RowsMatch(v, lats)
    ensures StrictlyIncreasing(lats) && |lats| >= 2 ==> NormaliseLatitudes(lats, v).0 != OpenLatitudes(lats, v).0
    ensures Misc.StrictlyDecreasing(lats) ==> NormaliseLatitudes(lats, v) == OpenLatitudes(lats, v)
  {
    if StrictlyIncreasing(lats) && |lats| >= 2 {
      assert lats[0] < lats[1];
      assert !Misc.StrictlyDecreasing(lats);
      assert NormaliseLatitudes(lats, v).0[0] == lats[|lats| - 1];
      assert lats[0] < lats[|lats| - 1] by {
        IncreasingEnds(lats);
      }
    }
  }

  lemma {:induction false} IncreasingEnds(a: seq<real>)
    requires StrictlyIncreasing(a) && |a| >= 2
    ensures a[0] < a[|a| - 1]
    decreases |a|
  {
    if |a| > 2 {
      var init := a[..|a| - 1];
      assert forall i :: 0 <= i < |init| ==> init[i] == a[i];
      IncreasingEnds(init);
    }
  }

  /** `get_ids_start_end4timecrop` of the older module: the first time equal to `itime`
      (failing without one), and the first equal to `itime` plus the period or the end. */
  function GetIdsStartEnd4Timecrop(itime: int, period: int, times: seq<int>): (r: Result<Window>)
    ensures r.Failure? <==> itime !in times
    ensures r.Failure? ==> r.error == IndexError
    ensures r.Success? ==>
      var w := r.value;
      w.start < |times| && times[w.start] == itime && (forall j :: 0 <= j < w.start ==> times[j] != itime) &&
      w.end <= |times| &&
      (itime + period in times ==> w.end < |times| && times[w.end] == itime + period &&
                                   forall j :: 0 <= j < w.end ==> times[j] != itime + period) &&
      (itime + period !in times ==> w.end == |times|)
  {
    var starts := FirstIndexOf(times, itime);
    if starts.None? then Failure(IndexError)
    else
      var ends := FirstIndexOf(times, itime + period);
      Success(Window(starts.value, if ends.None? then |times| else ends.value))
  }

  /** Both copies select the same window. */
  lemma IdsAgreeWithPackaged(itime: int, period: int, times: seq<int>)
    ensures GetIdsStartEnd4Timecrop(itime, period, times) == IoUtilities.GetIdsStartEnd4Timecrop(itime, period, times)
  {
  }

  /** The windows of the older `make_daily_average`, which receives the dates directly:
      one window per date in order, the first date missing from `times` stopping the loop,
      and no dates at all leaving `np.stack` nothing to stack; the same result as the
      packaged copy. */
  method MakeDailyWindows<T>(variable: seq<T>, times: seq<int>, dates: seq<int>, period: int)
      returns (r: Result<seq<seq<T>>>)
    ensures r.Failure? <==> |dates| == 0 || exists d :: 0 <= d < |dates| && dates[d] !in times
    ensures r.Failure? ==> (r.error == ValueError <==> |dates| == 0)
    ensures r.Failure? ==> (r.error == IndexError <==> |dates| > 0)
    ensures r.Success? ==> |r.value| == |dates| && forall d :: 0 <= d < |dates| ==>
      var w := GetIdsStartEnd4Timecrop(dates[d], period, times);
      w.Success? && r.value[d] == Slice(variable, w.value.start, w.value.end)
    ensures r == DailyWindows(variable, times, dates, period)
  {
    var daily: seq<seq<T>> := [];
    for i := 0 to |dates|
      invariant |daily| == i
      invariant forall d :: 0 <= d < i ==>
        var w := GetIdsStartEnd4Timecrop(dates[d], period, times);
        w.Success? && daily[d] == Slice(variable, w.value.start, w.value.end)
    {
      match GetIdsStartEnd4Timecrop(dates[i], period, times)
      case Failure(e) =>
        assert dates[i] !in times;
        assert DailyWindows(variable, times, dates, period) == Failure(IndexError);
        return Failure(e);
      case Success(w) =>
        daily := daily + [Slice(variable, w.start, w.end)];
    }
    if |dates| == 0 {
      return Failure(ValueError);
    }
    r := Success(daily);
    var packaged := DailyWindows(variable, times, dates, period);
    forall d | 0 <= d < |dates| ensures dates[d] in times {
      assert GetIdsStartEnd4Timecrop(dates[d], period, times).Success?;
    }
    forall d | 0 <= d < |dates| ensures daily[d] == packaged.value[d] {
      IdsAgreeWithPackaged(dates[d], period, times);
    }
    assert daily == packaged.value;
  }
}

=== FILE: legacy_utilities.dfy ===
/**
 * The older copy of the longitude and flux helpers (`src/utilities.py`). Each is
 * given its own definition, and `AgreesWithPackaged` shows the two copies coincide.
 */
module Utilities {
  import Misc

  function WrapTo360(x: real): (r: real)
    ensures x >= 0.0 ==> r == x
    ensures x < 0.0 ==> r - x == 360.0
    ensures -360.0 <= x < 360.0 ==> 0.0 <= r < 360.0
  {
    if x < 0.0 then 360.0 + x else x
  }

  function WrapTo180(x: real): (r: real)
    ensures x <= 180.0 ==> r == x
    ensures x > 180.0 ==> x - r == 360.0
    ensures -180.0 < x <= 540.0 ==> -180.0 < r <= 180.0
  {
    if x > 180.0 then x - 360.0 else x
  }

  function ConvertOlrInWm2(x: real): (r: real)
    ensures r * 3600.0 + x == 0.0
  {
    -x / 3600.0
  }

  /** The legacy wraps are mutual inverses on [0, 360) and (-180, 180]. */
  lemma WrapRoundTrip(x: real)
    ensures 0.0 <= x < 360.0 ==> WrapTo360(WrapTo180(x)) == x
    ensures -180.0 < x <= 180.0 ==> WrapTo180(WrapTo360(x)) == x
  {
  }

  /** Both copies compute the same values. */
  lemma AgreesWithPackaged(x: real)
    ensures WrapTo360(x) == Misc.WrapTo360(x)
    ensures WrapTo180(x) == Misc.WrapTo180(x)
    ensures ConvertOlrInWm2(x) == Misc.ConvertOlrInWm2(x)
  {
  }
}

=== FILE: misc.dfy ===
/**
 * Longitude wrapping, grid-order check and unit conversion (`misc.py`).
 * Longitudes and fluxes are Dafny reals; numpy's float round-off is not modelled.
 */
module Misc {

  /** `wrapTo360` on one value: negatives get 360 added, everything else is kept. */
  function WrapTo360(x: real): (r: real)
    ensures x >= 0.0 ==> r == x
    ensures x < 0.0 ==> r - x == 360.0
    ensures -360.0 <= x < 360.0 ==> 0.0 <= r < 360.0
  {
    if x < 0.0 then 360.0 + x else x
  }

  /** `wrapTo180` on one value: values above 180 get 360 subtracted, everything else is kept. */
  function WrapTo180(x: real): (r: real)
    ensures x <= 180.0 ==> r == x
    ensures x > 180.0 ==> x - r == 360.0
    ensures -180.0 < x <= 540.0 ==> -180.0 < r <= 180.0
  {
    if x > 180.0 then x - 360.0 else x
  }

  /**
   * `wrapTo360` on an array. Arrays of more than one element go through the masked
   * assignment, a one-element array through the scalar test; an empty array is
   * returned unchanged. Either way each element is wrapped as a scalar would be.
   */
  function WrapTo360Array(xs: seq<real>): (ys: seq<real>)
    ensures |ys| == |xs|
    ensures forall i :: 0 <= i < |xs| ==> ys[i] == WrapTo360(xs[i])
  {
    if |xs| > 1 then
      seq(|xs|, i requires 0 <= i < |xs| => if xs[i] < 0.0 then 360.0 + xs[i] else xs[i])
    else if |xs| == 1 && xs[0] < 0.0 then [360.0 + xs[0]]
    else xs
  }

  /** `wrapTo180` on an array, with the same two branches as `WrapTo360Array`. */
  function WrapTo180Array(xs: seq<real>): (ys: seq<real>)
    ensures |ys| == |xs|
    ensures forall i :: 0 <= i < |xs| ==> ys[i] == WrapTo180(xs[i])
  {
    if |xs| > 1 then
      seq(|xs|, i requires 0 <= i < |xs| => if xs[i] > 180.0 then xs[i] - 360.0 else xs[i])
    else if |xs| == 1 && xs[0] > 180.0 then [xs[0] - 360.0]
    else xs
  }

  /** The two wraps undo each other on their ranges. */
  lemma WrapRoundTrip360(x: real)
    requires 0.0 <= x < 360.0
    ensures WrapTo360(WrapTo180(x)) == x
  {
  }

  lemma WrapRoundTrip180(x: real)
    requires -180.0 < x <= 180.0
    ensures WrapTo180(WrapTo360(x)) == x
  {
  }

  /** Wrapping twice is wrapping once, as far as a single pass reaches. */
  lemma WrapIdempotent(x: real)
    ensures x >= -360.0 ==> WrapTo360(WrapTo360(x)) == WrapTo360(x)
    ensures x <= 540.0 ==> WrapTo180(WrapTo180(x)) == WrapTo180(x)
  {
  }

  /** `convert_olr_in_wm2`: an accumulated flux in J m-2 over an hour, sign flipped, in W m-2. */
  function ConvertOlrInWm2(x: real): (r: real)
    ensures r * 3600.0 + x == 0.0
    ensures x <= 0.0 <==> r >= 0.0
  {
    -x / 3600.0
  }

  /** Each element is strictly below its predecessor. */
  predicate StrictlyDecreasing(a: seq<real>) {
    forall i :: 1 <= i < |a| ==> a[i] < a[i - 1]
  }

  /** Strictly decreasing in the pairwise sense: every later element is below every earlier one. */
  predicate PairwiseDecreasing(a: seq<real>) {
    forall i, j :: 0 <= i < j < |a| ==> a[j] < a[i]
  }

  /** The neighbour test the source performs decides the pairwise property. */
  lemma {:induction false} DecreasingEquiv(a: seq<real>)
    ensures StrictlyDecreasing(a) <==> PairwiseDecreasing(a)
    decreases |a|
  {
    if StrictlyDecreasing(a) && |a| > 1 {
      var init := a[..|a| - 1];
      assert StrictlyDecreasing(init) by {
        forall i | 1 <= i < |init| ensures init[i] < init[i - 1] {
          assert a[i] < a[i - 1];
        }
      }
      DecreasingEquiv(init);
      forall i, j | 0 <= i < j < |a| ensures a[j] < a[i] {
        if j < |a| - 1 {
          assert init[j] < init[i];
        } else if i < j - 1 {
          assert init[j - 1] < init[i];
          assert a[j] < a[j - 1];
        }
      }
    }
  }

  /** `is_decreasing`: scan from index 1 and stop at the first element not below its predecessor. */
  method IsDecreasing(a: seq<real>) returns (b: bool)
    ensures b <==> PairwiseDecreasing(a)
    ensures b <==> StrictlyDecreasing(a)
    ensures |a| <= 1 ==> b
  {
    var i := 1;
    while i < |a|
      invariant 1 <= i <= |a| || |a| == 0
      invariant PairwiseDecreasing(a[..if |a| == 0 then 0 else i])
    {
      if a[i] >= a[i - 1] {
        DecreasingEquiv(a);
        return false;
      }
      i := i + 1;
    }
    DecreasingEquiv(a);
    return true;
  }

  /** Python's `round` on a float: the nearest integer, ties to the even one. */
  function RoundHalfEven(x: real): (r: int)
    ensures -0.5 <= r as real - x <= 0.5
    ensures (r as real - x == 0.5 || x - r as real == 0.5) ==> r % 2 == 0
  {
    var f := x.Floor;
    var d := x - f as real;
    if d < 0.5 then f
    else if d > 0.5 then f + 1
    else if f % 2 == 0 then f else f + 1
  }

  /** The rounding is the unique integer with those two properties. */
  lemma RoundHalfEvenUnique(x: real, n: int)
    requires -0.5 <= n as real - x <= 0.5
    requires (n as real - x == 0.5 || x - n as real == 0.5) ==> n % 2 == 0
    ensures RoundHalfEven(x) == n
  {
  }
}

=== FILE: regions.dfy ===
/**
 * The parts of `measure.regionprops` the record needs: which region comes first
 * (the smallest positive label present) and its centroid, the mean row and mean
 * column of the region's pixels.
 */
module Regions {
  import opened Wrappers
  import opened Grids
  import Labels

  /** An upper bound of every value in a row, at least 0. */
  function RowBound(row: seq<int>): (m: nat)
    ensures forall c :: 0 <= c < |row| ==> row[c] <= m
  {
    if |row| == 0 then 0
    else
      var m := RowBound(row[..|row| - 1]);
      assert forall c :: 0 <= c < |row| - 1 ==> row[c] == row[..|row| - 1][c];
      if row[|row| - 1] > m then row[|row| - 1] else m
  }

  /** An upper bound of every pixel, at least 0. */
  function GridBound(g: Grid): (m: nat)
    ensures forall r, c :: 0 <= r < |g| && 0 <= c < |g[r]| ==> g[r][c] <= m
  {
    if |g| == 0 then 0
    else
      var m := GridBound(g[..|g| - 1]);
      assert forall r :: 0 <= r < |g| - 1 ==> g[r] == g[..|g| - 1][r];
      var n := RowBound(g[|g| - 1]);
      if n > m then n else m
  }

  /** Every positive pixel is among the occurring labels up to the grid's bound. */
  lemma PositivesUsed(g: Grid)
    ensures forall r, c :: 0 <= r < |g| && 0 <= c < |g[r]| && g[r][c] > 0 ==> g[r][c] in Labels.UsedUpTo(g, GridBound(g))
  {
    var u := Labels.UsedUpTo(g, GridBound(g));
    forall r, c | 0 <= r < |g| && 0 <= c < |g[r]| && g[r][c] > 0 ensures g[r][c] in u {
      assert Occurs(g, g[r][c]);
    }
  }

  /** Below the first occurring label no positive label occurs. */
  lemma NoneBelowFirst(g: Grid, u: seq<int>)
    requires u == Labels.UsedUpTo(g, GridBound(g)) && |u| > 0
    ensures forall v :: 1 <= v < u[0] ==> !Occurs(g, v)
  {
    forall v | 1 <= v && Occurs(g, v) ensures u[0] <= v {
      var r, c :| 0 <= r < |g| && 0 <= c < |g[r]| && g[r][c] == v;
      assert v <= GridBound(g);
      assert v in u;
    }
  }

  /** The label of the first region `regionprops` lists: the smallest positive label present. */
  function FirstRegion(g: Grid): (l: Option<int>)
    ensures l.Some? ==> l.value >= 1 && Occurs(g, l.value)
    ensures l.Some? ==> forall v :: 1 <= v < l.value ==> !Occurs(g, v)
    ensures l.None? <==> forall r, c :: 0 <= r < |g| && 0 <= c < |g[r]| ==> g[r][c] <= 0
  {
    var u := Labels.UsedUpTo(g, GridBound(g));
    PositivesUsed(g);
    if |u| == 0 then None
    else
      NoneBelowFirst(g, u);
      Some(u[0])
  }

  /** Number of pixels of a row equal to v. */
  function RowCount(row: seq<int>, v: int): (n: nat)
    ensures n <= |row|
    ensures n > 0 <==> exists c :: 0 <= c < |row| && row[c] == v
  {
    if |row| == 0 then 0
    else
      var init := row[..|row| - 1];
      assert forall c :: 0 <= c < |init| ==> init[c] == row[c];
      RowCount(init, v) + (if row[|row| - 1] == v then 1 else 0)
  }

  /** Sum of the column indices of the pixels of a row equal to v. */
  function RowColumnSum(row: seq<int>, v: int): (s: nat)
  {
    if |row| == 0 then 0
    else RowColumnSum(row[..|row| - 1], v) + (if row[|row| - 1] == v then |row| - 1 else 0)
  }

  /** Each column index is below the row length, so the sum of (index + 1) is at most length times count. */
  lemma {:induction false} RowColumnSumBound(row: seq<int>, v: int)
    ensures RowColumnSum(row, v) + RowCount(row, v) <= |row| * RowCount(row, v)
    decreases |row|
  {
    if |row| > 0 {
      var init := row[..|row| - 1];
      RowColumnSumBound(init, v);
      var k := RowCount(init, v);
      MulGrows(|init|, k);
      if row[|row| - 1] == v {
        assert RowCount(row, v) == k + 1;
        assert RowColumnSum(row, v) == RowColumnSum(init, v) + |init|;
        Distribute(|init|, k);
      } else {
        assert RowCount(row, v) == k;
        assert RowColumnSum(row, v) == RowColumnSum(init, v);
      }
    }
  }

  function Count(g: Grid, v: int): (n: nat)
    ensures n > 0 <==> Occurs(g, v)
  {
    if |g| == 0 then 0
    else
      var init := g[..|g| - 1];
      assert forall r :: 0 <= r < |init| ==> init[r] == g[r];
      assert Occurs(g, v) <==> Occurs(init, v) || RowCount(g[|g| - 1], v) > 0;
      Count(init, v) + RowCount(g[|g| - 1], v)
  }

  /** Sum of the column indices of the pixels equal to v. */
  function ColumnSum(g: Grid, v: int): nat
  {
    if |g| == 0 then 0 else ColumnSum(g[..|g| - 1], v) + RowColumnSum(g[|g| - 1], v)
  }

  /** Sum of the row indices of the pixels equal to v. */
  function RowSum(g: Grid, v: int): nat
  {
    if |g| == 0 then 0 else RowSum(g[..|g| - 1], v) + (|g| - 1) * RowCount(g[|g| - 1], v)
  }

  lemma {:induction false} ColumnSumBound(g: Grid, v: int, cols: nat)
    requires forall r :: 0 <= r < |g| ==> |g[r]| == cols
    ensures ColumnSum(g, v) + Count(g, v) <= cols * Count(g, v)
    decreases |g|
  {
    if |g| > 0 {
      var init := g[..|g| - 1];
      assert forall r :: 0 <= r < |init| ==> init[r] == g[r];
      ColumnSumBound(init, v, cols);
      RowColumnSumBound(g[|g| - 1], v);
      var a := Count(init, v);
      var b := RowCount(g[|g| - 1], v);
      assert Count(g, v) == a + b;
      assert ColumnSum(g, v) == ColumnSum(init, v) + RowColumnSum(g[|g| - 1], v);
      SumOfProducts(cols, a, b);
    }
  }

  lemma {:induction false} RowSumBound(g: Grid, v: int)
    ensures RowSum(g, v) + Count(g, v) <= |g| * Count(g, v)
    decreases |g|
  {
    if |g| > 0 {
      var init := g[..|g| - 1];
      RowSumBound(init, v);
      var a := Count(init, v);
      var b := RowCount(g[|g| - 1], v);
      assert Count(g, v) == a + b;
      assert RowSum(g, v) == RowSum(init, v) + |init| * b;
      MulGrows(|init|, a);
      SumOfProducts(|g|, a, b);
    }
  }

  /** m is the mean of `count` values adding up to `sum`. */
  predicate IsMean(m: real, sum: nat, count: nat) {
    m * count as real == sum as real
  }

  /** The mean of `count` values adding up to `sum`. */
  function Mean(sum: nat, count: nat): (m: real)
    requires count > 0
    ensures m >= 0.0 && m * count as real == sum as real
    ensures IsMean(m, sum, count)
  {
    DivTimes(sum as real, count as real);
    sum as real / count as real
  }

  /** `regionprops(...).centroid` of the pixels labelled v: (mean row, mean column). */
  function Centroid(g: Grid, v: int): (rc: (real, real))
    requires Occurs(g, v)
    ensures rc.0 >= 0.0 && rc.1 >= 0.0
    ensures IsMean(rc.0, RowSum(g, v), Count(g, v)) && IsMean(rc.1, ColumnSum(g, v), Count(g, v))
  {
    var n := Count(g, v);
    var row := Mean(RowSum(g, v), n);
    var column := Mean(ColumnSum(g, v), n);
    (row, column)
  }

  lemma MulGrows(a: nat, k: nat)
    ensures a * k <= (a + 1) * k
  {
  }

  lemma Distribute(a: nat, k: nat)
    ensures (a + 1) * (k + 1) == a * k + a + k + 1
  {
  }

  lemma SumOfProducts(n: nat, a: nat, b: nat)
    ensures n * (a + b) == n * a + n * b
  {
  }

  lemma DivBelow(a: real, n: real, b: real)
    requires n > 0.0 && a <= b * n
    ensures a / n <= b
  {
  }

  lemma DivTimes(a: real, n: real)
    requires n > 0.0
    ensures (a / n) * n == a
  {
  }

  /** Dividing a bounded sum by its count keeps the mean below the grid extent. */
  lemma MeanBelow(sum: nat, count: nat, extent: nat)
    requires count > 0 && sum + count <= extent * count
    ensures extent >= 1
    ensures sum as real / count as real <= (extent - 1) as real
  {
    if extent == 0 {
      assert false;
    }
    var e: nat := extent - 1;
    assert extent * count == e * count + count by {
      Distribute(e, count - 1);
    }
    assert sum as real <= e as real * count as real;
    DivBelow(sum as real, count as real, e as real);
  }

  /** The centroid of a region of a rectangular grid lies inside the grid. */
  lemma CentroidInside(g: Grid, v: int, rows: nat, cols: nat)
    requires IsRect(g, rows, cols) && Occurs(g, v)
    ensures rows >= 1 && cols >= 1
    ensures Centroid(g, v).0 <= (rows - 1) as real
    ensures Centroid(g, v).1 <= (cols - 1) as real
  {
    RowSumBound(g, v);
    ColumnSumBound(g, v, cols);
    MeanBelow(RowSum(g, v), Count(g, v), rows);
    MeanBelow(ColumnSum(g, v), Count(g, v), cols);
  }
}

=== FILE: tracking.dfy ===
/**
 * `tracking.py`: the overlap test between two bands, the two-way parent linking between
 * consecutive days, the lookup of a band by id and the per-pixel band density.
 */
module Tracking {
  import opened Wrappers
  import opened Grids
  import Area
  import opened CloudBands

  /** `orig.cloud_band_array * other.cloud_band_array`, pixel by pixel. */
  function Product(a: Grid, b: Grid): (p: Grid)
    requires SameShape(a, b)
    ensures SameShape(p, a)
    ensures forall r, c :: 0 <= r < |a| && 0 <= c < |a[r]| ==> p[r][c] == a[r][c] * b[r][c]
  {
    seq(|a|, r requires 0 <= r < |a| =>
      seq(|a[r]|, c requires 0 <= c < |a[r]| => a[r][c] * b[r][c]))
  }

  /** The intersection mask: 1 where both masks are 1, 0 elsewhere. */
  function Both(a: Grid, b: Grid): (m: Grid)
    requires SameShape(a, b)
    ensures SameShape(m, a) && IsBinary(m)
    ensures forall r, c :: 0 <= r < |a| && 0 <= c < |a[r]| ==> (m[r][c] == 1 <==> a[r][c] == 1 && b[r][c] == 1)
  {
    seq(|a|, r requires 0 <= r < |a| =>
      seq(|a[r]|, c requires 0 <= c < |a[r]| => if a[r][c] == 1 && b[r][c] == 1 then 1 else 0))
  }

  /** `compute_blob_area(intersection, 1, resolution)`. */
  function Overlap(a: Grid, b: Grid, res: seq<real>): (o: real)
    requires SameShape(a, b) && |res| == |a|
    ensures Area.NonNegativeRes(res) ==> o >= 0.0
  {
    Area.ComputeBlobArea(Product(a, b), 1, res)
  }

  /** For 0/1 masks the overlap is the area of the pixels set in both masks. */
  lemma OverlapIsSharedArea(a: Grid, b: Grid, res: seq<real>)
    requires SameShape(a, b) && |res| == |a| && IsBinary(a) && IsBinary(b)
    ensures Overlap(a, b, res) == Area.ComputeBlobArea(Both(a, b), 1, res)
  {
    var p := Product(a, b);
    var m := Both(a, b);
    forall r, c | 0 <= r < |p| && 0 <= c < |p[r]|
      ensures p[r][c] in {1} <==> m[r][c] in {1}
    {
      assert p[r][c] == a[r][c] * b[r][c];
    }
    Area.AreaCongruent(p, {1}, m, {1}, res);
  }

  /** The intersection, and so the overlap, is the same in both directions. */
  lemma OverlapSymmetric(a: Grid, b: Grid, res: seq<real>)
    requires SameShape(a, b) && |res| == |a|
    ensures Overlap(a, b, res) == Overlap(b, a, res)
  {
    var p := Product(a, b);
    var q := Product(b, a);
    forall r, c | 0 <= r < |p| && 0 <= c < |p[r]|
      ensures p[r][c] == q[r][c]
    {
      assert p[r][c] == a[r][c] * b[r][c] && q[r][c] == b[r][c] * a[r][c];
    }
    GridEq(p, q);
  }

  /** For 0/1 masks and non-negative cell areas the overlap never exceeds the area of
      either mask. */
  lemma OverlapBounded(a: Grid, b: Grid, res: seq<real>)
    requires SameShape(a, b) && |res| == |a| && IsBinary(a) && IsBinary(b) && Area.NonNegativeRes(res)
    ensures Overlap(a, b, res) <= Area.ComputeBlobArea(a, 1, res)
    ensures Overlap(a, b, res) <= Area.ComputeBlobArea(b, 1, res)
  {
    OverlapIsSharedArea(a, b, res);
    var m := Both(a, b);
    Area.AreaMono(m, {1}, a, {1}, res);
    Area.AreaMono(m, {1}, b, {1}, res);
  }

  /** Two bands whose masks can be multiplied, with one cell area per row. */
  predicate Comparable(x: CloudBand, y: CloudBand, res: seq<real>) {
    SameShape(x.mask, y.mask) && |res| == |x.mask|
  }

  /** `is_in(orig, other)`: the overlap is strictly more than `overlapfactor` times the
      area of `orig`. With a non-negative factor and area, two 0/1 masks can only pass when
      they share a pixel. */
  predicate IsIn(orig: CloudBand, other: CloudBand, res: seq<real>, f: real): (inside: bool)
    requires Comparable(orig, other, res)
    ensures inside && f >= 0.0 && orig.area >= 0.0 && IsBinary(orig.mask) && IsBinary(other.mask) ==>
      exists r, c :: 0 <= r < |orig.mask| && 0 <= c < |orig.mask[r]| && orig.mask[r][c] == 1 && other.mask[r][c] == 1
  {
    var overlap := Overlap(orig.mask, other.mask, res);
    assert f >= 0.0 && orig.area >= 0.0 ==> f * orig.area >= 0.0;
    assert overlap > 0.0 ==> Occurs(Product(orig.mask, other.mask), 1);
    overlap > f * orig.area
  }

  /** The two-way test `tracking` applies between a band of the previous day and a band
      of the current day. */
  predicate Linked(parent: CloudBand, child: CloudBand, res: seq<real>, f: real)
    requires Comparable(parent, child, res)
  {
    IsIn(parent, child, res, f) || IsIn(child, parent, res, f)
  }

  function Min(a: real, b: real): real {
    if a <= b then a else b
  }

  /** For a non-negative factor the two-way test says: the overlap is more than the factor
      times the smaller of the two areas. */
  lemma ParentRuleMin(parent: CloudBand, child: CloudBand, res: seq<real>, f: real)
    requires Comparable(parent, child, res) && f >= 0.0
    ensures Linked(parent, child, res, f) <==>
      Overlap(parent.mask, child.mask, res) > f * Min(parent.area, child.area)
  {
    OverlapSymmetric(parent.mask, child.mask, res);
    if parent.area <= child.area {
      assert f * parent.area <= f * child.area;
    } else {
      assert f * child.area <= f * parent.area;
    }
  }

  /** The ids of the bands, in order. */
  function Ids(bands: seq<CloudBand>): (ids: seq<BandId>)
    ensures |ids| == |bands| && forall j :: 0 <= j < |bands| ==> ids[j] == bands[j].id
  {
    seq(|bands|, j requires 0 <= j < |bands| => bands[j].id)
  }

  /** For each band of `prev`, whether it is linked to `child`. */
  function LinkFlags(child: CloudBand, prev: seq<CloudBand>, res: seq<real>, f: real): (flags: seq<bool>)
    requires forall j :: 0 <= j < |prev| ==> Comparable(prev[j], child, res)
    ensures |flags| == |prev| && forall j :: 0 <= j < |prev| ==> flags[j] == Linked(prev[j], child, res, f)
  {
    seq(|prev|, j requires 0 <= j < |prev| => Linked(prev[j], child, res, f))
  }

  /** The set the loop builds with `parents.add`: the ids whose flag is set. */
  function Selected(ids: seq<BandId>, keep: seq<bool>): set<BandId>
    requires |keep| == |ids|
    decreases |ids|
  {
    if |ids| == 0 then {}
    else
      var n := |ids| - 1;
      Selected(ids[..n], keep[..n]) + (if keep[n] then {ids[n]} else {})
  }

  lemma {:induction false} SelectedMembers(ids: seq<BandId>, keep: seq<bool>)
    requires |keep| == |ids|
    ensures forall id :: id in Selected(ids, keep) <==> exists j :: 0 <= j < |ids| && keep[j] && ids[j] == id
    decreases |ids|
  {
    if |ids| > 0 {
      var n := |ids| - 1;
      SelectedMembers(ids[..n], keep[..n]);
      forall id | id in Selected(ids, keep)
        ensures exists j :: 0 <= j < |ids| && keep[j] && ids[j] == id
      {
        if id !in Selected(ids[..n], keep[..n]) {
          assert keep[n] && ids[n] == id;
        } else {
          var j :| 0 <= j < n && keep[..n][j] && ids[..n][j] == id;
          assert keep[j] && ids[j] == id;
        }
      }
      forall id | exists j :: 0 <= j < |ids| && keep[j] && ids[j] == id
        ensures id in Selected(ids, keep)
      {
        var j :| 0 <= j < |ids| && keep[j] && ids[j] == id;
        if j < n {
          assert keep[..n][j] && ids[..n][j] == id;
        }
      }
    }
  }

  /** The parent ids of one band: the ids of the bands of `prev` linked to it. */
  function ParentsOf(child: CloudBand, prev: seq<CloudBand>, res: seq<real>, f: real): set<BandId>
    requires forall j :: 0 <= j < |prev| ==> Comparable(prev[j], child, res)
  {
    Selected(Ids(prev), LinkFlags(child, prev, res, f))
  }

  /** An id is a parent exactly when some band of `prev` with that id is linked to the band. */
  lemma ParentsOfMembers(child: CloudBand, prev: seq<CloudBand>, res: seq<real>, f: real)
    requires forall j :: 0 <= j < |prev| ==> Comparable(prev[j], child, res)
    ensures forall id :: id in ParentsOf(child, prev, res, f) <==>
      exists j :: 0 <= j < |prev| && prev[j].id == id && Linked(prev[j], child, res, f)
  {
    var ids := Ids(prev);
    var flags := LinkFlags(child, prev, res, f);
    SelectedMembers(ids, flags);
    forall id | exists j :: 0 <= j < |prev| && prev[j].id == id && Linked(prev[j], child, res, f)
      ensures id in ParentsOf(child, prev, res, f)
    {
      var j :| 0 <= j < |prev| && prev[j].id == id && Linked(prev[j], child, res, f);
      assert flags[j] && ids[j] == id;
    }
  }

  /** a and b differ at most in their parent sets. */
  predicate SameButParents(a: CloudBand, b: CloudBand) {
    a.mask == b.mask && a.area == b.area && a.lats == b.lats && a.lons == b.lons &&
    a.dateNumber == b.dateNumber && a.angle == b.angle && a.latCentroid == b.latCentroid &&
    a.lonCentroid == b.lonCentroid && a.isCloudband == b.isCloudband &&
    a.connectedLongitudes == b.connectedLongitudes && a.id == b.id
  }

  /** The links depend on masks, areas and ids only, never on the parent sets. */
  lemma ParentsOfIgnoresParents(child: CloudBand, child': CloudBand, prev: seq<CloudBand>,
                                prev': seq<CloudBand>, res: seq<real>, f: real)
    requires SameButParents(child, child') && |prev| == |prev'|
    requires forall j :: 0 <= j < |prev| ==> SameButParents(prev[j], prev'[j])
    requires forall j :: 0 <= j < |prev| ==> Comparable(prev[j], child, res)
    ensures forall j :: 0 <= j < |prev'| ==> Comparable(prev'[j], child', res)
    ensures ParentsOf(child, prev, res, f) == ParentsOf(child', prev', res, f)
  {
    assert Ids(prev) == Ids(prev');
    forall j | 0 <= j < |prev|
      ensures LinkFlags(child, prev, res, f)[j] == LinkFlags(child', prev', res, f)[j]
    {
      LinkedIgnoresParents(prev[j], child, prev'[j], child', res, f);
    }
    assert LinkFlags(child, prev, res, f) == LinkFlags(child', prev', res, f);
  }

  lemma LinkedIgnoresParents(p: CloudBand, c: CloudBand, p': CloudBand, c': CloudBand, res: seq<real>, f: real)
    requires Comparable(p, c, res) && p'.mask == p.mask && p'.area == p.area && c'.mask == c.mask && c'.area == c.area
    ensures Comparable(p', c', res) && Linked(p, c, res, f) == Linked(p', c', res, f)
  {
  }

  /** Every band of one day gets, as its parent set, the ids of the linked bands of `prev`. */
  function TrackDay(day: seq<CloudBand>, prev: seq<CloudBand>, res: seq<real>, f: real): (tracked: seq<CloudBand>)
    requires DaysComparable(prev, day, res)
    ensures |tracked| == |day|
    ensures forall k :: 0 <= k < |day| ==> SameButParents(tracked[k], day[k])
    ensures forall k :: 0 <= k < |day| ==> tracked[k].parents == ParentsOf(day[k], prev, res, f)
  {
    seq(|day|, k requires 0 <= k < |day| => day[k].(parents := ParentsOf(day[k], prev, res, f)))
  }

  /** Each band of `day` can be compared with each band of `prev`. */
  predicate DaysComparable(prev: seq<CloudBand>, day: seq<CloudBand>, res: seq<real>) {
    forall k, j :: 0 <= k < |day| && 0 <= j < |prev| ==> Comparable(prev[j], day[k], res)
  }

  /** Each band of a day can be compared with each band of the day before. */
  predicate TrackingShapes(days: seq<seq<CloudBand>>, res: seq<real>) {
    forall i :: 0 < i < |days| ==> DaysComparable(days[i - 1], days[i], res)
  }

  /** The bands of the day before day i; none for the first day. */
  function Previous(days: seq<seq<CloudBand>>, i: nat): (prev: seq<CloudBand>)
    requires i < |days|
    ensures i == 0 ==> prev == []
    ensures i > 0 ==> prev == days[i - 1]
  {
    if i == 0 then [] else days[i - 1]
  }

  /**
   * `tracking`: every band's parent set is recomputed from the day before; the days keep
   * their lengths and order, and nothing but the parent sets changes.
   */
  function Tracking(days: seq<seq<CloudBand>>, res: seq<real>, f: real): (tracked: seq<seq<CloudBand>>)
    requires TrackingShapes(days, res)
    ensures |tracked| == |days|
    ensures forall i :: 0 <= i < |days| ==> |tracked[i]| == |days[i]|
    ensures forall i, k :: 0 <= i < |days| && 0 <= k < |days[i]| ==> SameButParents(tracked[i][k], days[i][k])
    ensures forall i, k :: 0 <= i < |days| && 0 <= k < |days[i]| ==>
      tracked[i][k].parents == ParentsOf(days[i][k], Previous(days, i), res, f)
  {
    seq(|days|, i requires 0 <= i < |days| => TrackDay(days[i], Previous(days, i), res, f))
  }

  /** Parents come only from the day immediately before: none on the first day or after a
      day without bands, and each parent id names a linked band of the day before. */
  lemma ParentsFromPreviousDay(days: seq<seq<CloudBand>>, res: seq<real>, f: real, i: nat, k: nat)
    requires TrackingShapes(days, res) && i < |days| && k < |days[i]|
    ensures var ps := Tracking(days, res, f)[i][k].parents;
      var prev := Previous(days, i);
      (i == 0 || |prev| == 0 ==> ps == {}) &&
      forall id :: id in ps <==> (i > 0 && exists j :: 0 <= j < |prev| && prev[j].id == id &&
                                                      Linked(prev[j], days[i][k], res, f))
  {
    ParentsOfMembers(days[i][k], Previous(days, i), res, f);
  }

  /** Running the tracking again changes nothing: the links never read the parent sets. */
  lemma TrackingIdempotent(days: seq<seq<CloudBand>>, res: seq<real>, f: real)
    requires TrackingShapes(days, res)
    ensures TrackingShapes(Tracking(days, res, f), res)
    ensures Tracking(Tracking(days, res, f), res, f) == Tracking(days, res, f)
  {
    TrackingKeepsShapes(days, res, f);
    var t := Tracking(days, res, f);
    var t2 := Tracking(t, res, f);
    forall i | 0 <= i < |days| ensures t2[i] == t[i] {
      forall k | 0 <= k < |days[i]| ensures t2[i][k] == t[i][k] {
        TrackedAgain(days, res, f, i, k);
      }
    }
  }

  /** The tracked days can be compared just as the input days. */
  lemma TrackingKeepsShapes(days: seq<seq<CloudBand>>, res: seq<real>, f: real)
    requires TrackingShapes(days, res)
    ensures TrackingShapes(Tracking(days, res, f), res)
  {
    var t := Tracking(days, res, f);
    forall i | 0 < i < |t| ensures DaysComparable(Previous(t, i), t[i], res) {
      var prev := Previous(days, i);
      assert DaysComparable(prev, days[i], res);
    }
  }

  /** One band tracked twice carries what it carried after the first run. */
  lemma TrackedAgain(days: seq<seq<CloudBand>>, res: seq<real>, f: real, i: nat, k: nat)
    requires TrackingShapes(days, res) && i < |days| && k < |days[i]|
    ensures TrackingShapes(Tracking(days, res, f), res)
    ensures Tracking(Tracking(days, res, f), res, f)[i][k] == Tracking(days, res, f)[i][k]
  {
    TrackingKeepsShapes(days, res, f);
    var t := Tracking(days, res, f);
    var t2 := Tracking(t, res, f);
    ParentsOfIgnoresParents(days[i][k], t[i][k], Previous(days, i), Previous(t, i), res, f);
    SameButParentsEq(t2[i][k], t[i][k]);
  }

  lemma SameButParentsEq(a: CloudBand, b: CloudBand)
    requires SameButParents(a, b) && a.parents == b.parents
    ensures a == b
  {
  }

  /** No band at a position before (i, k), in (day, position) order, has the id. */
  predicate NoneBefore(days: seq<seq<CloudBand>>, name: BandId, i: nat, k: nat)
    requires i < |days|
  {
    (forall d, j :: 0 <= d < i && 0 <= j < |days[d]| ==> days[d][j].id != name) &&
    forall j :: 0 <= j < k && j < |days[i]| ==> days[i][j].id != name
  }

  /** The position of the first band of one day with the id, or the day's length. */
  function IndexIn(day: seq<CloudBand>, name: BandId, from: nat): (k: nat)
    requires from <= |day|
    ensures from <= k <= |day|
    ensures forall j :: from <= j < k ==> day[j].id != name
    ensures k < |day| ==> day[k].id == name
    decreases |day| - from
  {
    if from == |day| || day[from].id == name then from else IndexIn(day, name, from + 1)
  }

  /** The position of the first band with the id, searching from day i on. */
  function FindFrom(days: seq<seq<CloudBand>>, name: BandId, i: nat): (pos: Option<(nat, nat)>)
    requires i <= |days|
    ensures pos.None? ==> forall d, j :: i <= d < |days| && 0 <= j < |days[d]| ==> days[d][j].id != name
    ensures pos.Some? ==>
      var (d, k) := pos.value;
      i <= d < |days| && k < |days[d]| && days[d][k].id == name &&
      (forall d', j :: i <= d' < d && 0 <= j < |days[d']| ==> days[d'][j].id != name) &&
      forall j :: 0 <= j < k ==> days[d][j].id != name
    decreases |days| - i
  {
    if i == |days| then None
    else
      var k := IndexIn(days[i], name, 0);
      if k < |days[i]| then Some((i, k)) else FindFrom(days, name, i + 1)
  }

  /** `findCloud`: the first band, in (day, position) order, with the id; None when no
      band has it. */
  function FindCloud(days: seq<seq<CloudBand>>, name: BandId): (found: Option<CloudBand>)
    ensures found.None? <==> forall d, j :: 0 <= d < |days| && 0 <= j < |days[d]| ==> days[d][j].id != name
    ensures found.Some? ==> (found.value.id == name &&
      exists d, k :: 0 <= d < |days| && 0 <= k < |days[d]| && days[d][k] == found.value && NoneBefore(days, name, d, k))
  {
    match FindFrom(days, name, 0)
    case None => None
    case Some((d, k)) =>
      assert NoneBefore(days, name, d, k);
      Some(days[d][k])
  }

  /** A calendar date of the period (`datetime` with its year, month and day). */
  datatype Date = Date(year: int, month: int, day: int)

  /** The first band of the first day that has one: what `reduce(or, ...)[0]` picks. */
  function FirstBand(days: seq<seq<CloudBand>>): (b: Option<CloudBand>)
    ensures b.None? <==> forall i :: 0 <= i < |days| ==> |days[i]| == 0
    ensures b.Some? ==> exists i :: 0 <= i < |days| && |days[i]| > 0 && b.value == days[i][0] &&
                                    forall j :: 0 <= j < i ==> |days[j]| == 0
    decreases |days|
  {
    if |days| == 0 then None
    else if |days[0]| > 0 then Some(days[0][0])
    else
      var rest := FirstBand(days[1..]);
      assert forall i :: 1 <= i < |days| ==> days[i] == days[1..][i - 1];
      rest
  }

  /** The width of a raster (the second entry of its shape). */
  function Cols(g: Grid): nat {
    if |g| == 0 then 0 else |g[0]|
  }

  /** Every mask of the first n days has the given shape. */
  predicate Uniform(days: seq<seq<CloudBand>>, n: nat, rows: nat, cols: nat) {
    forall i, k :: 0 <= i < n && i < |days| && 0 <= k < |days[i]| ==> IsRect(days[i][k].mask, rows, cols)
  }

  /** The masks summed over the first n days have the shape of the first band. */
  predicate SummableMasks(days: seq<seq<CloudBand>>, n: nat) {
    var b := FirstBand(days);
    b.Some? ==> Uniform(days, n, |b.value.mask|, Cols(b.value.mask))
  }

  /** The sum, over the bands of one day, of their mask values at (r, c). */
  function DayTotal(day: seq<CloudBand>, r: nat, c: nat): int
    requires forall k :: 0 <= k < |day| ==> r < |day[k].mask| && c < |day[k].mask[r]|
    decreases |day|
  {
    if |day| == 0 then 0
    else DayTotal(day[..|day| - 1], r, c) + day[|day| - 1].mask[r][c]
  }

  /** Every band of every day covers position (r, c) of its mask. */
  predicate PixelIn(days: seq<seq<CloudBand>>, r: nat, c: nat) {
    forall i, k :: 0 <= i < |days| && 0 <= k < |days[i]| ==> r < |days[i][k].mask| && c < |days[i][k].mask[r]|
  }

  /** The sum, over all days and their bands, of the mask values at (r, c). */
  function PixelTotal(days: seq<seq<CloudBand>>, r: nat, c: nat): int
    requires PixelIn(days, r, c)
    decreases |days|
  {
    if |days| == 0 then 0
    else PixelTotal(days[..|days| - 1], r, c) + DayTotal(days[|days| - 1], r, c)
  }

  /** Number of bands over all days. */
  function BandCount(days: seq<seq<CloudBand>>): nat {
    if |days| == 0 then 0 else BandCount(days[..|days| - 1]) + |days[|days| - 1]|
  }

  predicate AllBinary(days: seq<seq<CloudBand>>) {
    forall i, k :: 0 <= i < |days| && 0 <= k < |days[i]| ==> IsBinary(days[i][k].mask)
  }

  lemma {:induction false} DayTotalCounts(day: seq<CloudBand>, r: nat, c: nat)
    requires forall k :: 0 <= k < |day| ==> r < |day[k].mask| && c < |day[k].mask[r]| && IsBinary(day[k].mask)
    ensures 0 <= DayTotal(day, r, c) <= |day|
    ensures DayTotal(day, r, c) > 0 <==> exists k :: 0 <= k < |day| && day[k].mask[r][c] == 1
    decreases |day|
  {
    if |day| > 0 {
      var init := day[..|day| - 1];
      assert forall k :: 0 <= k < |init| ==> init[k] == day[k];
      DayTotalCounts(init, r, c);
      var last := day[|day| - 1];
      assert last.mask[r][c] == 0 || last.mask[r][c] == 1;
      if exists k :: 0 <= k < |day| && day[k].mask[r][c] == 1 {
        var k :| 0 <= k < |day| && day[k].mask[r][c] == 1;
        if k < |init| {
          assert init[k].mask[r][c] == 1;
        }
      }
    }
  }

  /** With 0/1 masks the total at a pixel counts the (day, band) pairs covering it: it is
      at most the number of bands, and positive exactly when some band covers the pixel. */
  lemma {:induction false} PixelTotalCounts(days: seq<seq<CloudBand>>, r: nat, c: nat)
    requires PixelIn(days, r, c) && AllBinary(days)
    ensures 0 <= PixelTotal(days, r, c) <= BandCount(days)
    ensures PixelTotal(days, r, c) > 0 <==>
      exists i, k :: 0 <= i < |days| && 0 <= k < |days[i]| && days[i][k].mask[r][c] == 1
    decreases |days|
  {
    if |days| > 0 {
      var init := days[..|days| - 1];
      var last := days[|days| - 1];
      assert forall i :: 0 <= i < |init| ==> init[i] == days[i];
      PixelTotalCounts(init, r, c);
      DayTotalCounts(last, r, c);
      if exists i, k :: 0 <= i < |days| && 0 <= k < |days[i]| && days[i][k].mask[r][c] == 1 {
        var i, k :| 0 <= i < |days| && 0 <= k < |days[i]| && days[i][k].mask[r][c] == 1;
        if i < |init| {
          assert init[i][k].mask[r][c] == 1;
        } else {
          assert last[k].mask[r][c] == 1;
        }
      }
    }
  }

  /** The years the dates fall in. */
  function Years(dates: seq<Date>): set<int> {
    set i | 0 <= i < |dates| :: dates[i].year
  }

  /** The period runs from a 1 January to a 31 December. */
  predicate CoversFullYears(dates: seq<Date>)
    requires |dates| > 0
  {
    dates[0].month == 1 && dates[0].day == 1 && dates[|dates| - 1].month == 12 && dates[|dates| - 1].day == 31
  }

  /** The per-pixel totals over the first n days, on a rows x cols grid. */
  function Totals(days: seq<seq<CloudBand>>, n: nat, rows: nat, cols: nat): (ntot: Grid)
    requires n <= |days| && Uniform(days, n, rows, cols)
    ensures IsRect(ntot, rows, cols)
    ensures forall r, c :: 0 <= r < rows && 0 <= c < cols ==>
      PixelIn(days[..n], r, c) && ntot[r][c] == PixelTotal(days[..n], r, c)
  {
    var head := days[..n];
    assert forall i :: 0 <= i < n ==> head[i] == days[i];
    seq(rows, r requires 0 <= r < rows =>
      seq(cols, c requires 0 <= c < cols => PixelTotal(head, r, c)))
  }

  /** `np.divide(ntot_cb, numberofyear)`. */
  function PerYear(ntot: Grid, rows: nat, cols: nat, years: nat): (density: Field)
    requires IsRect(ntot, rows, cols) && years > 0
    ensures IsRect(density, rows, cols)
    ensures forall y, x :: 0 <= y < rows && 0 <= x < cols ==> density[y][x] * years as real == ntot[y][x] as real
  {
    seq(rows, y requires 0 <= y < rows => seq(cols, x requires 0 <= x < cols => ntot[y][x] as real / years as real))
  }

  /** `np.zeros` of the given shape, as floats. */
  function ZeroField(rows: nat, cols: nat): (z: Field)
    ensures IsRect(z, rows, cols)
    ensures forall y, x :: 0 <= y < rows && 0 <= x < cols ==> z[y][x] == 0.0
  {
    seq(rows, y => seq(cols, x => 0.0))
  }

  /**
   * `compute_density`: the number of bands covering each pixel over the first
   * `len(dates)` days, and that number per year when the period runs from 1 January to
   * 31 December (all zeros otherwise). It fails like `reduce` on no days, and like the
   * indexing on all-empty days, on more dates than days and on no dates.
   */
  function ComputeDensity(dates: seq<Date>, days: seq<seq<CloudBand>>): (r: Result<(Grid, Field)>)
    requires SummableMasks(days, |dates|)
    ensures r.Failure? <==> |days| == 0 || FirstBand(days).None? || |dates| > |days| || |dates| == 0
    ensures |days| == 0 ==> r == Failure(TypeError)
    ensures |days| > 0 && r.Failure? ==> r.error == IndexError
    ensures r.Success? ==>
      var shape := FirstBand(days).value.mask;
      var (ntot, density) := r.value;
      IsRect(ntot, |shape|, Cols(shape)) && IsRect(density, |shape|, Cols(shape)) &&
      forall y, x :: 0 <= y < |shape| && 0 <= x < Cols(shape) ==>
        PixelIn(days[..|dates|], y, x) && ntot[y][x] == PixelTotal(days[..|dates|], y, x) &&
        (CoversFullYears(dates) ==> density[y][x] * |Years(dates)| as real == ntot[y][x] as real) &&
        (!CoversFullYears(dates) ==> density[y][x] == 0.0)
  {
    if |days| == 0 then Failure(TypeError)
    else match FirstBand(days)
      case None => Failure(IndexError)
      case Some(b) =>
        if |dates| > |days| || |dates| == 0 then Failure(IndexError)
        else
          var rows := |b.mask|;
          var cols := Cols(b.mask);
          var ntot := Totals(days, |dates|, rows, cols);
          var years := |Years(dates)|;
          assert dates[0].year in Years(dates);
          var density := if CoversFullYears(dates) then PerYear(ntot, rows, cols, years) else ZeroField(rows, cols);
          Success((ntot, density))
  }
}

=== FILE: workflow.dfy ===
/**
 * `detection_workflow`: one detection per date, the candidate records, the accepted
 * bands and the per-day map that numbers the bands.
 */
module Workflow {
  import opened Wrappers
  import opened Grids
  import Labels
  import opened CloudBands
  import Detection
  import Candidates

  /** One `uint8` pixel of `acc += mask * w`: the sum wraps modulo 256. */
  function AddPixel(a: int, b: int, w: int): (v: int)
    ensures 0 <= v < 256
    ensures b == 0 && 0 <= a < 256 ==> v == a
    ensures b == 1 && a == 0 && 0 <= w < 256 ==> v == w
  {
    (a + b * w) % 256
  }

  /** `cloud_bands_map[idx] += mask * w` on a `uint8` map. */
  function AddScaled(acc: Grid, mask: Grid, w: int): (m: Grid)
    requires SameShape(acc, mask)
    ensures SameShape(m, acc)
    ensures forall r, c :: 0 <= r < |acc| && 0 <= c < |acc[r]| ==> m[r][c] == AddPixel(acc[r][c], mask[r][c], w)
  {
    seq(|acc|, r requires 0 <= r < |acc| =>
      seq(|acc[r]|, c requires 0 <= c < |acc[r]| => AddPixel(acc[r][c], mask[r][c], w)))
  }

  function Zeros(rows: nat, cols: nat): (z: Grid)
    ensures IsRect(z, rows, cols)
    ensures forall r, c :: 0 <= r < rows && 0 <= c < cols ==> z[r][c] == 0
  {
    seq(rows, r => seq(cols, c => 0))
  }

  /** The day's band map: band number k (from 0) is added with weight k + 1, in list order. */
  function BandsMap(bands: seq<CloudBand>, rows: nat, cols: nat): (m: Grid)
    requires Candidates.MasksShaped(bands, rows, cols)
    ensures IsRect(m, rows, cols) && FitsUint8(m)
  {
    if |bands| == 0 then Zeros(rows, cols)
    else
      var init := bands[..|bands| - 1];
      assert Candidates.MasksShaped(init, rows, cols) by {
        forall k | 0 <= k < |init| ensures IsRect(init[k].mask, rows, cols) {
          assert init[k] == bands[k];
        }
      }
      AddScaled(BandsMap(init, rows, cols), bands[|bands| - 1].mask, |bands|)
  }

  /** The number (from 1) of the last band covering pixel (r, c), 0 if none does. */
  function Owner(bands: seq<CloudBand>, r: nat, c: nat): (o: nat)
    ensures o <= |bands|
    ensures o == 0 <==> forall k :: 0 <= k < |bands| && r < |bands[k].mask| && c < |bands[k].mask[r]| ==> bands[k].mask[r][c] != 1
    ensures o > 0 ==> r < |bands[o - 1].mask| && c < |bands[o - 1].mask[r]| && bands[o - 1].mask[r][c] == 1
  {
    if |bands| == 0 then 0
    else
      var init := bands[..|bands| - 1];
      var last := bands[|bands| - 1];
      assert forall k :: 0 <= k < |init| ==> init[k] == bands[k];
      if r < |last.mask| && c < |last.mask[r]| && last.mask[r][c] == 1 then |bands| else Owner(init, r, c)
  }

  /** With disjoint masks the covering band is unique, so the owner is that band. */
  lemma OwnerIsCover(bands: seq<CloudBand>, r: nat, c: nat, k: nat)
    requires Candidates.PairwiseDisjoint(bands)
    requires k < |bands| && r < |bands[k].mask| && c < |bands[k].mask[r]| && bands[k].mask[r][c] == 1
    ensures Owner(bands, r, c) == k + 1
  {
  }

  /** A pixel the last band covers is covered by no earlier band. */
  lemma NoEarlierCover(bands: seq<CloudBand>, r: nat, c: nat)
    requires Candidates.PairwiseDisjoint(bands) && 0 < |bands|
    requires var last := bands[|bands| - 1]; r < |last.mask| && c < |last.mask[r]| && last.mask[r][c] == 1
    ensures Owner(bands[..|bands| - 1], r, c) == 0
  {
    var n := |bands|;
    var init := bands[..n - 1];
    forall k | 0 <= k < |init| && r < |init[k].mask| && c < |init[k].mask[r]|
      ensures init[k].mask[r][c] != 1
    {
      assert init[k] == bands[k];
      assert Candidates.Disjoint(bands[k], bands[n - 1]);
    }
  }

  lemma PrefixDisjoint(bands: seq<CloudBand>, n: nat)
    requires Candidates.PairwiseDisjoint(bands) && n <= |bands|
    ensures Candidates.PairwiseDisjoint(bands[..n])
  {
    var pre := bands[..n];
    forall i, j | 0 <= i < |pre| && 0 <= j < |pre| && i != j ensures Candidates.Disjoint(pre[i], pre[j]) {
      assert pre[i] == bands[i] && pre[j] == bands[j];
    }
  }

  /** One band added: the pixel gets the new band's number if it covers the pixel, and
      otherwise keeps the number it had. */
  lemma BandsMapStep(bands: seq<CloudBand>, rows: nat, cols: nat, r: nat, c: nat)
    requires Candidates.MasksShaped(bands, rows, cols) && Candidates.MasksBinary(bands)
    requires Candidates.PairwiseDisjoint(bands) && 0 < |bands| <= 255 && r < rows && c < cols
    requires Candidates.MasksShaped(bands[..|bands| - 1], rows, cols)
    requires BandsMap(bands[..|bands| - 1], rows, cols)[r][c] == Owner(bands[..|bands| - 1], r, c)
    ensures BandsMap(bands, rows, cols)[r][c] == Owner(bands, r, c)
  {
    var n := |bands|;
    var init := bands[..n - 1];
    var last := bands[n - 1];
    var m := BandsMap(init, rows, cols);
    assert BandsMap(bands, rows, cols) == AddScaled(m, last.mask, n);
    if last.mask[r][c] == 1 {
      CoveredStep(bands, rows, cols, r, c);
    } else {
      UncoveredStep(bands, rows, cols, r, c);
    }
  }

  /** A pixel the new band covers was covered by no earlier band, so it gets the new
      band's number. */
  lemma CoveredStep(bands: seq<CloudBand>, rows: nat, cols: nat, r: nat, c: nat)
    requires Candidates.PairwiseDisjoint(bands) && 0 < |bands| <= 255
    requires var last := bands[|bands| - 1]; r < |last.mask| && c < |last.mask[r]| && last.mask[r][c] == 1
    requires Candidates.MasksShaped(bands[..|bands| - 1], rows, cols) && r < rows && c < cols
    requires BandsMap(bands[..|bands| - 1], rows, cols)[r][c] == Owner(bands[..|bands| - 1], r, c)
    ensures AddPixel(BandsMap(bands[..|bands| - 1], rows, cols)[r][c], 1, |bands|) == Owner(bands, r, c)
  {
    OwnerIsCover(bands, r, c, |bands| - 1);
    NoEarlierCover(bands, r, c);
  }

  /** A pixel the new band leaves out keeps the owner it had. */
  lemma UncoveredStep(bands: seq<CloudBand>, rows: nat, cols: nat, r: nat, c: nat)
    requires Candidates.MasksShaped(bands, rows, cols) && Candidates.MasksBinary(bands)
    requires 0 < |bands| <= 255 && r < rows && c < cols && bands[|bands| - 1].mask[r][c] != 1
    requires Candidates.MasksShaped(bands[..|bands| - 1], rows, cols)
    requires BandsMap(bands[..|bands| - 1], rows, cols)[r][c] == Owner(bands[..|bands| - 1], r, c)
    ensures AddPixel(BandsMap(bands[..|bands| - 1], rows, cols)[r][c], bands[|bands| - 1].mask[r][c], |bands|)
            == Owner(bands, r, c)
  {
    var n := |bands|;
    var init := bands[..n - 1];
    var v := BandsMap(init, rows, cols)[r][c];
    assert bands[n - 1].mask[r][c] == 0 && 0 <= v < n;
    assert Owner(bands, r, c) == Owner(init, r, c);
  }

  /**
   * For disjoint 0/1 masks and at most 255 bands (so no `uint8` sum wraps), each pixel
   * of the band map holds the number, from 1, of the band covering it, and 0 if none does.
   */
  lemma {:induction false} BandsMapIsOwner(bands: seq<CloudBand>, rows: nat, cols: nat)
    requires Candidates.MasksShaped(bands, rows, cols) && Candidates.MasksBinary(bands)
    requires Candidates.PairwiseDisjoint(bands) && |bands| <= 255
    ensures forall r, c :: 0 <= r < rows && 0 <= c < cols ==> BandsMap(bands, rows, cols)[r][c] == Owner(bands, r, c)
    decreases |bands|
  {
    if |bands| > 0 {
      var n := |bands|;
      var init := bands[..n - 1];
      assert forall k :: 0 <= k < |init| ==> init[k] == bands[k];
      assert Candidates.MasksShaped(init, rows, cols) && Candidates.MasksBinary(init);
      PrefixDisjoint(bands, n - 1);
      BandsMapIsOwner(init, rows, cols);
      forall r, c | 0 <= r < rows && 0 <= c < cols
        ensures BandsMap(bands, rows, cols)[r][c] == Owner(bands, r, c)
      {
        BandsMapStep(bands, rows, cols, r, c);
      }
    }
  }

  /**
   * CPython's iteration order over the set of a map's non-zero labels: every label
   * present, each exactly once. The order follows the set's hash table (for small
   * integers, the value modulo the table size, with collisions resolved by insertion
   * history), so it is a parameter of the model rather than a fixed order.
   */
  ghost predicate ValidLabelOrder(labelOrder: Grid -> seq<int>) {
    forall g: Grid :: NoEmptyRow(g) && FitsUint8(g) ==> Candidates.EnumeratesLabels(g, labelOrder(g))
  }

  /** A set with distinct elements has as many elements as the sequence listing them. */
  lemma {:induction false} DistinctCard(s: seq<int>)
    requires forall i, j :: 0 <= i < j < |s| ==> s[i] != s[j]
    ensures |set x | x in s| == |s|
    decreases |s|
  {
    if |s| > 0 {
      var init := s[..|s| - 1];
      DistinctCard(init);
      assert (set x | x in s) == (set x | x in init) + {s[|s| - 1]};
      assert s[|s| - 1] !in (set x | x in init);
    }
  }

  /** Any enumeration of a `uint8` map's labels lists as many labels as the ascending
      one, so at most 255. */
  lemma EnumerationBounded(g: Grid, order: seq<int>)
    requires NoEmptyRow(g) && FitsUint8(g) && Candidates.EnumeratesLabels(g, order)
    ensures |order| == |LabelOrder(g)| <= 255
  {
    var asc := LabelOrder(g);
    DistinctCard(order);
    DistinctCard(asc);
    assert (set x | x in order) == (set x | x in asc);
  }

  /** The ascending enumeration of a map's labels: one order `ValidLabelOrder` admits,
      though in general not the one CPython produces. */
  function LabelOrder(g: Grid): (order: seq<int>)
    requires NoEmptyRow(g) && FitsUint8(g)
    ensures Candidates.EnumeratesLabels(g, order) && |order| <= 255
    ensures forall i, j :: 0 <= i < j < |order| ==> order[i] < order[j]
  {
    var order := Labels.UsedUpTo(g, GridMax(g));
    assert forall l :: l != 0 && Occurs(g, l) ==> 1 <= l <= GridMax(g);
    order
  }

  /** So a valid label order exists: the ascending one. */
  lemma AscendingIsValid()
    ensures ValidLabelOrder((g: Grid) => if NoEmptyRow(g) && FitsUint8(g) then LabelOrder(g) else [])
  {
  }

  /** `filter_blobs2cloudbands` sets `iscloudband` on the candidate objects themselves, so
      the day's candidate list shows the accepted ones as cloud bands too. */
  function MarkAccepted(cands: seq<CloudBand>, p: Detection.Parameters): (marked: seq<CloudBand>)
    requires Candidates.HasCentroids(cands)
    ensures |marked| == |cands|
    ensures forall k :: 0 <= k < |cands| ==>
      marked[k] == if Candidates.Accepts(cands[k], p) then Candidates.Marked(cands[k]) else cands[k]
  {
    seq(|cands|, k requires 0 <= k < |cands| =>
      if Candidates.Accepts(cands[k], p) then Candidates.Marked(cands[k]) else cands[k])
  }

  /** What one iteration of the date loop produces. */
  datatype DayResult = DayResult(
    stages: Detection.Stages,
    candidates: seq<CloudBand>,
    bands: seq<CloudBand>,
    bandsMap: Grid)

  /** The field, coordinates and resolution fit together. */
  predicate Consistent(field: Field, lats: seq<real>, lons: seq<real>, res: seq<real>) {
    IsRect(field, |lats|, |lons|) && |lats| > 0 && |lons| > 0 && |res| == |lats|
  }

  /** Bands the map can number without a `uint8` sum wrapping: at most 255 disjoint 0/1
      masks of the map's shape. */
  predicate NumberableBands(bands: seq<CloudBand>, rows: nat, cols: nat) {
    Candidates.MasksShaped(bands, rows, cols) && Candidates.MasksBinary(bands) &&
    Candidates.PairwiseDisjoint(bands) && |bands| <= 255
  }

  /** One iteration of the date loop of `detection_workflow`, with the day's candidate
      labels enumerated in the order `labelOrder` gives. */
  function DetectDay(field: Field, p: Detection.Parameters, lats: seq<real>, lons: seq<real>,
                     res: seq<real>, date: int, connect: bool, lib: Detection.ImageLibrary,
                     labelOrder: Grid -> seq<int>): (d: DayResult)
    requires Consistent(field, lats, lons, res) && Detection.ValidLibrary(lib) && ValidLabelOrder(labelOrder)
    ensures d.stages == Detection.BlobDetection(field, p, res, connect, lib)
    ensures IsRect(d.stages.candidates, |lats|, |lons|) && FitsUint8(d.stages.candidates)
    ensures Candidates.EnumeratesLabels(d.stages.candidates, labelOrder(d.stages.candidates))
    ensures var cb := Classify(d.stages.candidates, labelOrder(d.stages.candidates), date, res, lons, lats, p, lib.orientation);
      d.bands == cb.1 && d.candidates == MarkAccepted(cb.0, p)
    ensures NumberableBands(d.bands, |lats|, |lons|) && d.bandsMap == BandsMap(d.bands, |lats|, |lons|)
  {
    var stages := Detection.BlobDetection(field, p, res, connect, lib);
    ClassifyDay(stages, labelOrder(stages.candidates), date, res, lons, lats, p, lib.orientation)
  }

  /** The second half of a day: the candidates of the day's candidate map, the bands kept
      from them, and the map numbering those bands. */
  function ClassifyDay(stages: Detection.Stages, order: seq<int>, date: int, res: seq<real>, lons: seq<real>,
                       lats: seq<real>, p: Detection.Parameters, orientation: Orientation): (d: DayResult)
    requires IsRect(stages.candidates, |lats|, |lons|) && |lats| > 0 && |lons| > 0 && |res| == |lats|
    requires FitsUint8(stages.candidates) && Candidates.EnumeratesLabels(stages.candidates, order)
    ensures d.stages == stages
    ensures var cb := Classify(stages.candidates, order, date, res, lons, lats, p, orientation);
      d.bands == cb.1 && d.candidates == MarkAccepted(cb.0, p)
    ensures NumberableBands(d.bands, |lats|, |lons|) && d.bandsMap == BandsMap(d.bands, |lats|, |lons|)
  {
    var classified := Classify(stages.candidates, order, date, res, lons, lats, p, orientation);
    DayResult(stages, MarkAccepted(classified.0, p), classified.1, BandsMap(classified.1, |lats|, |lons|))
  }

  /** A pixel of the band map holds k + 1 exactly when band k covers it, and 0 exactly
      when no band does. */
  lemma BandsMapNumbers(bands: seq<CloudBand>, rows: nat, cols: nat)
    requires NumberableBands(bands, rows, cols)
    ensures forall r, c, k :: 0 <= r < rows && 0 <= c < cols && 0 <= k < |bands| ==>
      (BandsMap(bands, rows, cols)[r][c] == k + 1 <==> bands[k].mask[r][c] == 1)
    ensures forall r, c :: 0 <= r < rows && 0 <= c < cols ==>
      (BandsMap(bands, rows, cols)[r][c] == 0 <==> forall k :: 0 <= k < |bands| ==> bands[k].mask[r][c] != 1)
  {
    BandsMapIsOwner(bands, rows, cols);
    forall r, c, k | 0 <= r < rows && 0 <= c < cols && 0 <= k < |bands|
      ensures BandsMap(bands, rows, cols)[r][c] == k + 1 <==> bands[k].mask[r][c] == 1
    {
      if bands[k].mask[r][c] == 1 {
        OwnerIsCover(bands, r, c, k);
      }
    }
  }

  /** The candidates of a day, one per label in the enumeration order, and the bands kept
      from them in that order: at most 255 bands, with disjoint 0/1 masks of the map's shape. */
  function Classify(g: Grid, order: seq<int>, date: int, res: seq<real>, lons: seq<real>, lats: seq<real>,
                    p: Detection.Parameters, orientation: Orientation): (cb: (seq<CloudBand>, seq<CloudBand>))
    requires IsRect(g, |lats|, |lons|) && |lats| > 0 && |lons| > 0 && |res| == |g| && FitsUint8(g)
    requires Candidates.EnumeratesLabels(g, order)
    ensures |cb.0| == |order| && |order| <= 255
    ensures cb.0 == Candidates.Candidates2Class(g, order, date, res, lons, lats, orientation)
    ensures Candidates.HasCentroids(cb.0) && cb.1 == Candidates.FilterBlobs2Cloudbands(cb.0, p)
    ensures Candidates.MasksShaped(cb.1, |lats|, |lons|) && Candidates.MasksBinary(cb.1)
    ensures Candidates.PairwiseDisjoint(cb.1) && |cb.1| <= 255
  {
    EnumerationBounded(g, order);
    var cands := Candidates.Candidates2Class(g, order, date, res, lons, lats, orientation);
    Candidates.CandidatesDisjoint(g, order, date, res, lons, lats, orientation);
    Candidates.FilterKeeps(cands, p, |lats|, |lons|);
    (cands, Candidates.FilterBlobs2Cloudbands(cands, p))
  }

  /** The merge across the longitude seam is switched on exactly for a domain spanning 360 degrees. */
  function ConnectFlag(lonEast: real, lonWest: real): (b: bool)
    ensures b <==> lonEast - lonWest == 360.0 || lonWest - lonEast == 360.0
  {
    (if lonEast >= lonWest then lonEast - lonWest else lonWest - lonEast) == 360.0
  }

  /** The five stacked `uint8` arrays and the two lists `detection_workflow` returns. */
  datatype WorkflowOutput = WorkflowOutput(
    filled: seq<Mask>,
    dilation: seq<Mask>,
    blobs: seq<Grid>,
    candidates: seq<Grid>,
    bandsMaps: seq<Grid>,
    candidateLists: seq<seq<CloudBand>>,
    bandLists: seq<seq<CloudBand>>)

  /** An all-zero mask slice. */
  function Blank(rows: nat, cols: nat): (m: Mask)
    ensures IsRect(m, rows, cols)
    ensures forall r, c :: 0 <= r < rows && 0 <= c < cols ==> !m[r][c]
  {
    seq(rows, r => seq(cols, c => false))
  }

  /** The day results of the first |dates| fields, one per date. */
  function Days(fields: seq<Field>, p: Detection.Parameters, lats: seq<real>, lons: seq<real>,
                res: seq<real>, dates: seq<int>, connect: bool, lib: Detection.ImageLibrary,
                labelOrder: Grid -> seq<int>): (days: seq<DayResult>)
    requires |dates| <= |fields| && forall d :: 0 <= d < |fields| ==> Consistent(fields[d], lats, lons, res)
    requires Detection.ValidLibrary(lib) && ValidLabelOrder(labelOrder)
    ensures |days| == |dates|
    ensures forall d :: 0 <= d < |dates| ==> days[d] == DetectDay(fields[d], p, lats, lons, res, dates[d], connect, lib, labelOrder)
  {
    seq(|dates|, d requires 0 <= d < |dates| => DetectDay(fields[d], p, lats, lons, res, dates[d], connect, lib, labelOrder))
  }

  /** Slice d of each array and entry d of each list hold the results of day `day`. */
  predicate HoldsDay(o: WorkflowOutput, d: nat, day: DayResult)
    requires d < |o.filled| && d < |o.dilation| && d < |o.blobs| && d < |o.candidates| && d < |o.bandsMaps|
    requires d < |o.candidateLists| && d < |o.bandLists|
  {
    o.filled[d] == day.stages.filled && o.dilation[d] == day.stages.dilation &&
    o.blobs[d] == day.stages.blobs && o.candidates[d] == day.stages.candidates &&
    o.bandsMaps[d] == day.bandsMap && o.candidateLists[d] == day.candidates && o.bandLists[d] == day.bands
  }

  /** Slice d of each array is still the zero slice of a rows x cols field. */
  predicate ZeroSlice(o: WorkflowOutput, d: nat, rows: nat, cols: nat)
    requires d < |o.filled| && d < |o.dilation| && d < |o.blobs| && d < |o.candidates| && d < |o.bandsMaps|
  {
    o.filled[d] == Blank(rows, cols) && o.dilation[d] == Blank(rows, cols) &&
    o.blobs[d] == Zeros(rows, cols) && o.candidates[d] == Zeros(rows, cols) && o.bandsMaps[d] == Zeros(rows, cols)
  }

  /** The output arrays: n slices of which the first |days| come from the days. */
  function Assemble(days: seq<DayResult>, n: nat, rows: nat, cols: nat): (o: WorkflowOutput)
    requires |days| <= n
    ensures |o.filled| == |o.dilation| == |o.blobs| == |o.candidates| == |o.bandsMaps| == n
    ensures |o.candidateLists| == |o.bandLists| == |days|
    ensures forall d :: 0 <= d < |days| ==> HoldsDay(o, d, days[d])
    ensures forall d :: |days| <= d < n ==> ZeroSlice(o, d, rows, cols)
  {
    var blank, zeros := Blank(rows, cols), Zeros(rows, cols);
    WorkflowOutput(
      seq(n, d requires 0 <= d < n => if d < |days| then days[d].stages.filled else blank),
      seq(n, d requires 0 <= d < n => if d < |days| then days[d].stages.dilation else blank),
      seq(n, d requires 0 <= d < n => if d < |days| then days[d].stages.blobs else zeros),
      seq(n, d requires 0 <= d < n => if d < |days| then days[d].stages.candidates else zeros),
      seq(n, d requires 0 <= d < n => if d < |days| then days[d].bandsMap else zeros),
      seq(|days|, d requires 0 <= d < |days| => days[d].candidates),
      seq(|days|, d requires 0 <= d < |days| => days[d].bands))
  }

  /**
   * `detection_workflow`: one detection per date, all with the same seam setting. The
   * arrays have one slice per field, and the slices of fields past the last date stay
   * zero; the two lists have one entry per date. It fails like the source's indexing
   * when there are more dates than fields.
   */
  function DetectionWorkflow(fields: seq<Field>, p: Detection.Parameters, lats: seq<real>, lons: seq<real>,
                             res: seq<real>, dates: seq<int>, lonEast: real, lonWest: real,
                             lib: Detection.ImageLibrary, labelOrder: Grid -> seq<int>): (r: Result<WorkflowOutput>)
    requires forall d :: 0 <= d < |fields| ==> Consistent(fields[d], lats, lons, res)
    requires Detection.ValidLibrary(lib) && ValidLabelOrder(labelOrder)
    ensures r.Failure? <==> |dates| > |fields|
    ensures r.Failure? ==> r.error == IndexError
    ensures r.Success? ==> var o := r.value;
      |o.filled| == |o.dilation| == |o.blobs| == |o.candidates| == |o.bandsMaps| == |fields| &&
      |o.candidateLists| == |o.bandLists| == |dates|
    ensures r.Success? ==> forall d :: 0 <= d < |dates| ==>
      HoldsDay(r.value, d, DetectDay(fields[d], p, lats, lons, res, dates[d], ConnectFlag(lonEast, lonWest), lib, labelOrder))
    ensures r.Success? ==> forall d :: |dates| <= d < |fields| ==> ZeroSlice(r.value, d, |lats|, |lons|)
  {
    if |dates| > |fields| then Failure(IndexError)
    else
      var days := Days(fields, p, lats, lons, res, dates, ConnectFlag(lonEast, lonWest), lib, labelOrder);
      Success(Assemble(days, |fields|, |lats|, |lons|))
  }
}

=== FILE: wrappers.dfy ===
/** Option and Result values for the Python code's `None` returns and raised exceptions. */
module Wrappers {

  /** `None` of the Python code, or a missing numeric value (NaN) in a coordinate map. */
  datatype Option<+T> = None | Some(value: T)

  /** The exceptions the modelled Python code can raise on its error paths. */
  datatype Error =
    | IndexError   // an empty list or array was indexed (`[0]` on no match)
    | KeyError(key: string)   // a dictionary lacked a key
    | TypeError   // a value had the wrong type, or `reduce` was given an empty list
    | ValueError   // `np.stack` was given no arrays

  /** A computed value, or the exception that interrupted the computation. */
  datatype Result<+T> = Success(value: T) | Failure(error: Error)
}
